=== FILE: README.md ===
# GoldenRabbit automation, modelled in Dafny

GoldenRabbit is a set of Python scripts run for a real-estate agency. They fall into three groups.

**Listing table scripts:**
- Page through the listing table and turn its records into map markers (`SellDatafromNavermap.py`, `SellBuildingData.py`, `debug_airtable_map.py`).
- Back the table up every day and delete old backups (`airtable_backup.py`). A one-off script migrates the dated backup folders into a single folder (`cleanup_old_backups.py`).
- Download photos of the recommended buildings (`fetch_recomm_images.py`) and the thumbnails of the blog's feed (`save_blog_thumbnails.py`).

**Token refresh.** Renew the long-lived Threads access token, rewrite `.env` and restart the map service (`token_manager.py`).

**Newsletter service** (`real-estate-newsletter/`):
- Crawl the headline page of Naver real-estate news and read each article.
- Have a language model summarise each article.
- Shape the summaries into a Threads main post, its replies and a digest.
- Export the morning's news for the web page.
- Dispatch the command line.

This project restates those scripts as pure Dafny functions over immutable data and proves what they promise. Everything outside the program becomes a parameter:
- HTTP servers and the clock;
- the filesystem's failures;
- the language model and the publisher.

**Modules:**
- `Wrappers`: `Option`.
- `Text`: Python's `str` helpers.
- `Values`: decoded JSON values.
- `Seqs`: the loop shapes the scripts repeat.
- `Settings`: required-setting checks.
- `Pagination`: the cursor loop shared by the table scripts.
- `Listings`.
- `Dates`: `strftime`/`strptime` for `%Y-%m-%d` and day arithmetic.
- `Backup`.
- `Migration`.
- `RecommImages`.
- `BlogThumbnails`.
- `EnvFile`: the regex rewrite of `.env`.
- `TokenManager`.
- `NewsConfig`.
- `Crawler`.
- `Summarizer`.
- `Newsletter`: `main.py`.

**Behaviour the model follows from the code:**
- There is no content hashing, image priority or atomic write anywhere in these scripts, so none is modelled.
- A view whose pages stop on a non-200 status is still saved with the records gathered so far, and it counts as backed up.
- The replies are built as the code builds them, doubled bullet included (`Summarizer.ReplyText`); the intended layout is `Summarizer.IntendedReplyText`, and the two are compared under "## Findings".

## Model

| member | source | states |
|---|---|---|
| Text.Strip | real-estate-newsletter/src/summarizer.py:58 | `str.strip()`: the result is the input without its leading and trailing whitespace, and it neither starts nor ends with whitespace |
| Text.SplitJoin | real-estate-newsletter/src/summarizer.py:110 | splitting a newline-joined list of lines without newlines gives the lines back |
| Text.JoinSplit | real-estate-newsletter/src/summarizer.py:110 | joining the pieces of `split(sep)` with `sep` gives the text back |
| Text.NatToStringRoundTrip | fetch_recomm_images.py:39 | the decimal text of a number reads back as that number |
| Text.ToLowerAscii | real-estate-newsletter/main.py:287 | `lower()` on ASCII: capitals become small letters and every other character stays |
| Pagination.WalkShape | SellDatafromNavermap.py:69-106 | the first request carries no offset; each later one carries the previous page's offset; every page but the last asked for more; the last one stopped the loop |
| Pagination.WalkStep | airtable_backup.py:82-105 | one more request appends its page's records when the status is 200, and stops the loop unless the page carries an offset |
| Pagination.GatheredAppend | airtable_backup.py:97 | `all_records.extend(records)`: the records of consecutive pages are concatenated in order |
| Pagination.Walk | SellDatafromNavermap.py:69-106 | the responses the loop receives: the first request without an offset, each later one with the previous page's offset, as long as a 200 page carries one |
| Pagination.EndOf | airtable_backup.py:82-105 | why the loop stopped, read off the last response: a raise, a non-200 status, or a 200 page without an offset; a walk whose last page still carries an offset was cut off by the request budget |
| Pagination.Stopped | airtable_backup.py:91-105 | the loop left through one of its two `break`s: a non-200 status or a page without an offset |
| Pagination.ReportsStop | SellDatafromNavermap.py:100-106 | a loop that stops on a page without an offset, or on a non-200 status, reports the records gathered and that reason |
| Pagination.ReportsExhausted | SellDatafromNavermap.py:69 | a loop cut off by the request budget reports the records gathered so far |
| Pagination.FetchAll | SellDatafromNavermap.py:64-106 | the loop's records, request count and end reason are those of the walk of responses |
| Listings.DistinctCount | SellDatafromNavermap.py:34-48 | a field list without repeats has as many distinct keys as entries |
| Listings.PopupFieldCounts | debug_airtable_map.py:203-219 | a marker carries 13 popup fields, and the debug script's marker carries 15 |
| Listings.IsValidStatus | SellDatafromNavermap.py:135-143 | a status is publishable when it is one of the four names, or a list holding one of them as a string |
| Listings.Keep | SellDatafromNavermap.py:139-145 | the map filter: an address that is not `None` (an empty one passes) and a publishable status |
| Listings.KeepTruthy | debug_airtable_map.py:190-201 | the debug filter: a truthy address and a truthy, publishable status |
| Listings.KeepTruthyIsStricter | debug_airtable_map.py:190-201 | the debug filter (`if address and ...`) accepts a subset of the map filter (`address is not None`); the two differ exactly on a present but empty address |
| Listings.ValidStatusIsTruthy | debug_airtable_map.py:190-201 | a publishable status is never falsy, so the debug filter is a truthy address and a publishable status |
| Listings.NormalizePriceProperties | SellDatafromNavermap.py:146-153 | the decimal text of any price normalises to that price as an int, and normalising an already normalised value changes nothing, so a stored value never shifts on a second pass |
| Listings.MakeRow | SellDatafromNavermap.py:114-155 | the marker `[name, address, price, status, field_values]`: the address twice, the normalised price, the status, and the `get` value of every popup field |
| Listings.ToRows | SellDatafromNavermap.py:109-155 | every marker comes from a record with an address and a publishable status, named by its address, carrying the 13 popup fields |
| Listings.ToRowsAppend | SellDatafromNavermap.py:110 | the filter keeps input order: the markers of `a + b` are those of `a` followed by those of `b` |
| Listings.ToRowsSingle | SellDatafromNavermap.py:135-155 | a single record yields its marker exactly when its address is present and its status is publishable |
| Listings.GetAirtableData | SellDatafromNavermap.py:50-162 | no result exactly when the request budget ran out mid-walk; an exception yields `[]`; a walk that stopped yields the markers of every page delivered, including the pages before a non-200 status |
| Listings.ToTaggedRows | debug_airtable_map.py:182-231 | every debug marker has a truthy address as its name and carries the 15 popup fields |
| Listings.ToTaggedRowsAppend | debug_airtable_map.py:182 | the debug filter keeps input order |
| Listings.ToTaggedRowsSingle | debug_airtable_map.py:190-231 | a single record yields its tagged marker, with `record['id']`, exactly when its address and status pass the truthy check |
| Listings.EnhancedGetAirtableData | debug_airtable_map.py:142-240 | the page count is the number of requests; no result exactly when the request budget ran out mid-walk; an exception yields `[]`; a walk that stopped yields the tagged markers of every page delivered |
| Listings.CountValid | debug_airtable_map.py:60-90 | the valid tally is the number of records the debug filter accepts |
| Listings.DebugAirtableData | debug_airtable_map.py:21-102 | an exception, a non-200 status or an empty page returns `[]`; otherwise every record, unfiltered, and the valid and invalid tallies add up to their number |
| Dates.Ordinal | airtable_backup.py:164-176 | day numbers of valid dates start at 1 (0001-01-01) |
| Dates.MonthsFillYear | airtable_backup.py:164 | the twelve months add up to the length of the year, leap years included |
| Dates.OrdinalMonotone | airtable_backup.py:176 | a chronologically earlier date has a smaller day number |
| Dates.OrdinalOrder | airtable_backup.py:176 | day numbers order dates exactly as time does and tell distinct dates apart |
| Dates.OlderThanDays | airtable_backup.py:164-176 | `folder_date < now - timedelta(days=n)` holds exactly when the date is more than `n` days back, or exactly `n` days back while `now` is past midnight |
| Dates.Pad | airtable_backup.py:54 | `%04d`/`%02d`: the text has exactly the width, all digits |
| Dates.PadValue | airtable_backup.py:54 | a zero-padded number reads back as the number |
| Dates.PadOrder | cleanup_old_backups.py:69 | zero-padded numbers of one width sort as strings exactly as they sort as numbers |
| Dates.Format | airtable_backup.py:54 | `strftime('%Y-%m-%d')` is ten characters with dashes at positions 4 and 7 |
| Dates.FormatOrder | cleanup_old_backups.py:69-70 | folder names sort as strings exactly as their dates sort in time, and distinct dates get distinct names |
| Dates.MatchMonth | cleanup_old_backups.py:53 | a `%m` match reads a month from 1 to 12 and consumes at least one character |
| Dates.MatchDay | cleanup_old_backups.py:53 | a `%d` match reads a day from 1 to 31 and consumes at least one character |
| Dates.Strptime | cleanup_old_backups.py:53 | `strptime(name, '%Y-%m-%d')` accepts only names that denote a real date |
| Dates.StrptimeFormat | airtable_backup.py:54 | every folder name `strftime` writes, `strptime` reads back to the same date |
| Dates.StrptimeChars | cleanup_old_backups.py:53 | a name `strptime` accepts holds only digits, dashes and spaces, and no '/' |
| Dates.SpacedDay | cleanup_old_backups.py:50-53 | the space-padded spelling of a day below 10 is ten characters long, with a space at position 8 |
| Dates.StrptimeSpacedDay | cleanup_old_backups.py:53 | `strptime` also accepts a day written as a space and one digit |
| Dates.StrptimeTenChars | cleanup_old_backups.py:50-53 | a ten-character name that `strptime` accepts is its date's canonical spelling or the space-padded one |
| Dates.MonthSpelling | cleanup_old_backups.py:53 | a two-character month match is the zero-padded month |
| Dates.DaySpelling | cleanup_old_backups.py:53 | a two-character day match is the zero-padded day, or a space and one digit |
| Dates.PadDigits | cleanup_old_backups.py:53 | a digit string is the zero-padded spelling of its own value |
| Backup.BackupView | airtable_backup.py:70-130 | the outcome is the view's own result; a saved view writes its records to its dated copy and its latest copy and creates `latest/`; a failed view keeps every other file, and creates `latest/` only when its loop stopped and its dated copy was written; an unfinished view touches nothing |
| Backup.BackupViews | airtable_backup.py:70-130 | each view's outcome is its own, whatever the views before it did; the loop reaches every view unless it stops at one still paging when the budget runs out, and no view before that one was still paging |
| Backup.StallsExactly | airtable_backup.py:70-130 | the loop stops short exactly when some view would still be paging when the budget ran out |
| Backup.LatestCreated | airtable_backup.py:112-113 | `latest/` exists after the loop exactly when it existed or some view got as far as creating it |
| Backup.Untouched | airtable_backup.py:107-119 | a file that no view writes keeps its content through the loop |
| Backup.SavedHeadKept | airtable_backup.py:107-119 | the views after a saved view never overwrite its two copies, when the views have distinct file names |
| Backup.PathsApart | airtable_backup.py:108-115 | a dated path never lies in `latest/`, and distinct file names give distinct paths |
| Backup.ViewResult | airtable_backup.py:76-126 | a view is saved with the records of every 200 page when its loop left through a `break` and both writes went through; a view still paging when the budget ran out is unfinished; anything else failed |
| Backup.SavedTwice | airtable_backup.py:107-126 | every saved view is on disk twice at the end of the loop, its dated copy and its latest copy both holding its records |
| Backup.TotalRecords | airtable_backup.py:124-125 | `total_records`: the record counts of the saved views, added up |
| Backup.TotalRecordsAppend | airtable_backup.py:124 | `total_records += len(all_records)`: a saved view adds its record count, any other view nothing, and the tallies of consecutive views add up |
| Backup.SavedCount | airtable_backup.py:125-126 | `success_count` is at most the number of views, and equals it exactly when every view was saved |
| Backup.RemoveTree | airtable_backup.py:178 | `rmtree` removes the folder and everything under it, and nothing else |
| Backup.Expired | airtable_backup.py:164-176 | a folder the sweep deletes: a directory other than `latest` whose name `strptime` reads as a date whose midnight lies before now minus the retention days |
| Backup.SweepFrom | airtable_backup.py:166-182 | the sweep removes only folders from the listing whose deletion does not raise |
| Backup.SweepRemovesExpiredOnly | airtable_backup.py:166-179 | every folder the sweep deletes was expired |
| Backup.SweepKeepsFiles | airtable_backup.py:178 | a file under none of the deleted folders keeps its content |
| Backup.InExpiredNames | airtable_backup.py:166-176 | a name is among the expired names exactly when it is listed and expired |
| Backup.UnderOwnOnly | airtable_backup.py:178 | a path inside one folder lies under no other folder |
| Backup.KeptBySweep | airtable_backup.py:171-179 | the sweep leaves the files of a folder that is not expired as they were |
| Backup.ExpiredAfterRemove | airtable_backup.py:166-179 | deleting one folder does not change whether another is expired |
| Backup.ExpiredNamesAfterRemove | airtable_backup.py:166-179 | deleting a folder outside the rest of the listing leaves the rest's expired names as they were |
| Backup.SweepDeletesExpired | airtable_backup.py:158-184 | without a failing `rmtree` the sweep deletes exactly the expired folders, in listing order; a failing `rmtree` ends it, having deleted the expired folders before that one |
| Backup.CleanupOldBackups | airtable_backup.py:158-184 | a cut-off date before year 1 raises and deletes nothing; otherwise the sweep |
| Backup.RetentionInDays | airtable_backup.py:164-176 | a date folder is deleted when its date is more than 30 days back, or exactly 30 while the run is past midnight |
| Backup.BackupAirtableData | airtable_backup.py:49-164 | the dated folder is created even without a key; without a key it returns `False` and writes nothing; each view's outcome is its own; it returns `True` exactly when every view was saved and the run did not raise; the metadata counts the records of the saved views, the views saved and the four views, and is written to the dated folder and `latest/`; both copies survive the sweep unless the sweep's clock reading is a whole retention period past the backup's date; unless a deletion raised, a folder that existed before the run is deleted exactly when it was expired at the sweep's own, later clock reading |
| Backup.FinishRun | airtable_backup.py:132-164 | after the views: the metadata holds the totals and is in both places when the run returns and the sweep's reading lies within the retention period; the run returns `True` exactly when all four views were saved; the sweep, on its own clock reading, then deletes exactly the folders expired at that reading unless a deletion raises |
| Backup.CleanupDeletesExpired | airtable_backup.py:158-184 | unless a deletion raised, a listed folder is gone after the sweep exactly when it was expired |
| Backup.MetaSurvivesCleanup | airtable_backup.py:136-164 | a sweep whose clock reading lies within the retention period of the backup's date keeps both metadata copies: `latest` is never expired and the backup's own folder not yet |
| Backup.TodaySurvives | airtable_backup.py:154-176 | a sweep whose clock reading lies within the retention period of the backup's date never deletes the folder the backup just wrote |
| Backup.NotExpiredNotRemoved | airtable_backup.py:171-179 | a folder that is not expired is never deleted |
| Backup.FirstRunWithoutDataEscapes | airtable_backup.py:146-148 | on a first run where every view raises before its dated copy, `latest/` is never created, and writing the latest metadata raises out of the run |
| Migration.CountChar | cleanup_old_backups.py:50 | `item.count('-')` is zero exactly when the character does not occur, and at most the length |
| Migration.CountCharIsMultiplicity | cleanup_old_backups.py:50 | `item.count('-')` is the number of times '-' occurs in the name |
| Migration.IsDateFolder | cleanup_old_backups.py:48-53 | a date folder is a directory with a ten-character name holding two dashes that `strptime('%Y-%m-%d')` accepts |
| Migration.Filter | cleanup_old_backups.py:44-61 | the kept items are items of the listing that pass the test, and every item that passes is kept |
| Migration.Reject | cleanup_old_backups.py:44-61 | the other items are items of the listing that fail the test, and every item that fails is among them |
| Migration.FilterSplits | cleanup_old_backups.py:44-61 | the two lists together hold every listed item exactly as often as the listing |
| Migration.DateFolders | cleanup_old_backups.py:44-54 | exactly the directories of ten characters with two dashes that `strptime` accepts |
| Migration.OtherItems | cleanup_old_backups.py:55-61 | exactly the items that are not date folders |
| Migration.Partition | cleanup_old_backups.py:44-61 | every listed item lands in exactly one of the two lists |
| Migration.LatestIsNewest | cleanup_old_backups.py:67-70 | when no date folder uses a space-padded day, the greatest name is the newest date |
| Migration.FirstFailing | cleanup_old_backups.py:85-93 | the position of the first data file whose `copy2` raises (a directory, or a failing copy), or the number of names when none does |
| Migration.CopyFiles | cleanup_old_backups.py:85-93 | the copy succeeds exactly when no copy raises; whether or not it did, every data file the source holds before the first failing one is at the root, nothing is lost from the root, and only the names copied so far have changed |
| Migration.CopiedFiles | cleanup_old_backups.py:85-93 | a copied file lands at the root with the source's content; a name the source lacks keeps whatever the root had |
| Migration.MoveImages | cleanup_old_backups.py:96-107 | the source's `images` replaces the root's and leaves the source folder; without one nothing changes; it fails exactly when deleting a root `images` (a file, or a failing `rmtree`) or the move raises; a failure changes at most `images`, and the root has `images` afterwards exactly when the old one could not be deleted |
| Migration.DeleteFolders | cleanup_old_backups.py:114-122 | deleting only removes entries and never changes a surviving one |
| Migration.DeleteCountBound | cleanup_old_backups.py:114-122 | `removed_count` never exceeds the number of date folders |
| Migration.DeleteEffect | cleanup_old_backups.py:114-122 | exactly the listed directories whose deletion does not raise disappear |
| Migration.DeleteCount | cleanup_old_backups.py:114-122 | with distinct directories and no failure, every folder is counted once |
| Migration.DeleteCountIsVanished | cleanup_old_backups.py:114-122 | `removed_count` is the number of entries that actually vanished |
| Migration.CleanupOldBackupFolders | cleanup_old_backups.py:23-137 | a missing root or a failing listing returns `False` and changes nothing; a failure after that changes only the data files and `images` and keeps every date folder; every data file copied before a failing copy is at the root afterwards; a success removed at most one entry per date folder, keeps every item that is neither a date folder nor `latest`, and leaves a date folder only when its `rmtree` raised and `latest` only when it is a file or its `rmtree` raised |
| Migration.FromLatest | cleanup_old_backups.py:67-137 | a failing copy or move returns `False` with the root as that step left it: only data files and `images` changed and every date folder still there; a success keeps everything but the date folders and `latest`, and leaves a date folder only when its `rmtree` raised and `latest` only when it is a file or its `rmtree` raised |
| Migration.FromLatestDeletes | cleanup_old_backups.py:113-131 | after a successful copy-then-move step, a date folder is left only when its `rmtree` raised, and `latest` only when it is a file or its `rmtree` raised |
| Migration.FinishLeaves | cleanup_old_backups.py:113-131 | on any root where the date folders are folders, the deletion loop leaves a date folder only when its `rmtree` raised, and `latest` only when it was a file or its `rmtree` raised |
| Migration.FromLatestCopyFails | cleanup_old_backups.py:85-111 | a `copy2` that raises makes the migration return `False` |
| Migration.FromLatestKeepsCopies | cleanup_old_backups.py:85-111 | every data file copied before a failing copy stays at the root, whatever the later steps do |
| Migration.FromLatestMoveFails | cleanup_old_backups.py:99-111 | when the old `images` was deleted and `shutil.move` then raises, the migration returns `False` and the root has no `images` |
| Migration.MoveFailureSame | cleanup_old_backups.py:99-111 | a failing image move changes nothing at the root but `images` |
| Migration.CopyPhase | cleanup_old_backups.py:85-111 | the copy-then-move step: when it fails, only the data files and `images` differ from the root it started from; every name it started with is still there, except an `images` that a failed step deleted |
| Migration.CopyPhaseFrame | cleanup_old_backups.py:85-107 | besides the data files and `images`, the copy-then-move step changes only the newest date folder, which stays a folder |
| Migration.CopyPhaseKeepsCopies | cleanup_old_backups.py:85-107 | every data file copied before the first failing `copy2` is at the root after the image move too |
| Migration.CopyPhaseCopyFails | cleanup_old_backups.py:85-111 | a `copy2` that raises makes the step fail |
| Migration.CopyPhaseMoveFails | cleanup_old_backups.py:96-111 | once every copy succeeded, a deleted old `images` followed by a failing `shutil.move` makes the step fail with no `images` at the root |
| Migration.Finish | cleanup_old_backups.py:113-137 | the deletion phase always returns `True`; a date folder or `latest` survives only when its deletion raised |
| Migration.MissingFiles | cleanup_old_backups.py:157-176 | the missing list holds exactly the required data files absent from the root, in order |
| Migration.MissingOf | cleanup_old_backups.py:168-176 | exactly the names absent from the root |
| Migration.VerifyBackupStructure | cleanup_old_backups.py:157-194 | the check passes exactly when all four data files exist |
| Migration.MigrationPassesCheck | cleanup_old_backups.py:243-247 | a migration that succeeds from a latest folder holding the four data files passes the structure check |
| Migration.FromLatestPassesCheck | cleanup_old_backups.py:67-137 | the copy-then-delete phase from a complete latest folder leaves the four data files at the root |
| Migration.CopyMoveKeepsRequired | cleanup_old_backups.py:85-107 | copying from a folder with the data files and then moving the images leaves the data files at the root |
| Migration.FinishKeepsRequired | cleanup_old_backups.py:113-131 | deleting the date folders and `latest` never deletes a data file |
| Migration.NotDataFile | cleanup_old_backups.py:50 | a ten-character name is none of the data files and not `images` |
| Migration.RequiredNames | cleanup_old_backups.py:161-166 | the required files are the first four data files, none ten characters long, `latest` or `images` |
| RecommImages.Extension | fetch_recomm_images.py:38 | the extension holds no '.' or '?', and is where the last '.'-piece of the url starts |
| RecommImages.ExtensionWithQuery | fetch_recomm_images.py:38 | a url `base.ext?query` whose query has no '.' gives `ext` |
| RecommImages.ExtensionPlain | fetch_recomm_images.py:38 | a url ending in `.ext` gives `ext` |
| RecommImages.QueryDotWins | fetch_recomm_images.py:38 | a '.' in the query wins: `a.jpg?v=1.5` gives `5` |
| RecommImages.FileName | fetch_recomm_images.py:39 | the file name starts with `recomm_` |
| RecommImages.FileNameNumbered | fetch_recomm_images.py:39 | the record's place (from 1) can be read back from the file name |
| RecommImages.FileNamesDistinct | fetch_recomm_images.py:39 | records at different places never share a file name |
| RecommImages.FirstUrl | fetch_recomm_images.py:37 | `photos[0]['url']` is usable exactly when the first photo is a dictionary with a text `url` |
| RecommImages.PickPhoto | fetch_recomm_images.py:29-37 | a falsy field means no photo; a text that does not decode is skipped; a url comes from the first entry of a non-empty list |
| RecommImages.FromList | fetch_recomm_images.py:36-37 | no photo exactly when the value is not a non-empty list; otherwise the first photo's url |
| RecommImages.OnlyFirstPhoto | fetch_recomm_images.py:37 | lists that agree on their first photo give the same pick |
| RecommImages.RecordOutcome | fetch_recomm_images.py:27-49 | a record is fetched exactly when it has a usable first url, named after its place and extension; a malformed first photo raises |
| RecommImages.FetchImages | fetch_recomm_images.py:27-49 | the loop over the records in order, each record at its place counting from 0, until the first exception |
| RecommImages.Collect | fetch_recomm_images.py:27-49 | the loop ends in an exception exactly when a record raises; every file reported as written was written by some record |
| RecommImages.CollectAppend | fetch_recomm_images.py:27 | before any exception, records are reported in order and the loop carries on |
| RecommImages.CollectAll | fetch_recomm_images.py:43-49 | without an exception every written and every failed file is reported, in order |
| RecommImages.FailedDownloadContinues | fetch_recomm_images.py:48-49 | a failed download does not stop the records after it |
| RecommImages.AbortStops | fetch_recomm_images.py:37 | an exception stops the loop: nothing after it is reached |
| RecommImages.SavedFilesNamedByPlace | fetch_recomm_images.py:39-46 | every written file is `recomm_<place>.<ext>` for a record at that place with a usable first photo |
| RecommImages.NoPhotoNoFile | fetch_recomm_images.py:29-35 | a record without a photo, or with a text photo field that does not decode, writes no file |
| BlogThumbnails.FindSlashDigit | save_blog_thumbnails.py:59 | finds the first place where a '/' is followed by a digit, or reports there is none |
| BlogThumbnails.LogNumber | save_blog_thumbnails.py:59-64 | `re.search(r'/(\d+)')` fails exactly when no '/' is followed by a digit; otherwise the group is the whole digit run at the first match |
| BlogThumbnails.LogNumberOf | save_blog_thumbnails.py:59-64 | a link `head/digits tail`, with no match in `head` and no digit starting `tail`, has `digits` as its log number |
| BlogThumbnails.LogNumberAtHead | save_blog_thumbnails.py:59 | in such a link the first match is the '/' after `head` |
| BlogThumbnails.LogNumberUnique | save_blog_thumbnails.py:64 | the captured group at a match is unique |
| BlogThumbnails.ImageNamesDistinct | save_blog_thumbnails.py:65 | different log numbers never share a file |
| BlogThumbnails.RetryFrom | save_blog_thumbnails.py:83-107 | from attempt `k` on: stops at the first attempt that saves; succeeds exactly when some remaining attempt would; uses all three attempts when none does |
| BlogThumbnails.Retry | save_blog_thumbnails.py:83-107 | one to three attempts, stopping at the first that saves; failure exactly when all three fail |
| BlogThumbnails.ProcessEntry | save_blog_thumbnails.py:57-110 | an entry without a log number is skipped; an existing file is skipped; an entry without an image fails; otherwise the retry decides downloaded or given up |
| BlogThumbnails.ExistingFileSkipped | save_blog_thumbnails.py:68-72 | a thumbnail already on disk is skipped with no download attempt |
| BlogThumbnails.ProcessAll | save_blog_thumbnails.py:57-113 | one outcome per entry; files only grow; each download adds its file; new files come only from downloads |
| BlogThumbnails.ProcessAllStep | save_blog_thumbnails.py:57 | each entry sees the directory as the earlier entries left it |
| BlogThumbnails.SameLogNumberSkippedAfterDownload | save_blog_thumbnails.py:69-72 | a later entry with a just-downloaded log number is counted as skipped |
| BlogThumbnails.Numbered | save_blog_thumbnails.py:59-62 | the entries with a log number: all of them exactly when every entry has one, none exactly when no entry has one |
| BlogThumbnails.Tally | save_blog_thumbnails.py:53-110 | every entry with a log number adds to exactly one counter |
| BlogThumbnails.TallyAppend | save_blog_thumbnails.py:57 | the counters add up entry by entry |
| BlogThumbnails.DownloadThumbnails | save_blog_thumbnails.py:38-115 | at most the first ten entries are processed, and the counters add up to at most that many |
| BlogThumbnails.LaterEntriesIgnored | save_blog_thumbnails.py:57 | entries after the tenth are never looked at |
| EnvFile.MarkersUniqueLast | token_manager.py:141-153 | the last character of each marker occurs nowhere else in it, so occurrences cannot overlap |
| EnvFile.TokenMarkerHasNoHash | token_manager.py:141 | the token marker holds no '#' |
| EnvFile.SubLine | token_manager.py:146 | a line without the marker is kept; a line with it becomes its text before the first marker, followed by the replacement |
| EnvFile.SubLineHolds | token_manager.py:146 | a rewritten line holds the new `marker + value` |
| EnvFile.SubLineIdempotent | token_manager.py:146 | rewriting a rewritten line changes nothing |
| EnvFile.NoOverlap | token_manager.py:141 | two occurrences of a marker whose last character is unique cannot overlap |
| EnvFile.ContainsAcrossBreak | token_manager.py:144 | a marker without a newline occurs in two newline-separated parts exactly when it occurs in one of them |
| EnvFile.ContainsJoin | token_manager.py:144 | `re.search` finds the marker in the file exactly when some line holds it |
| EnvFile.ReplaceOrAppendByLines | token_manager.py:144-149 | one pass on the text is the same pass on its lines: replace every marked line, or append the new line and an empty one |
| EnvFile.ReplacedLines | token_manager.py:146 | the lines of the rewritten text are the rewritten lines |
| EnvFile.AppendedLines | token_manager.py:149 | appending `\n` + line + `\n` adds that line and an empty last line |
| EnvFile.FreshLineDone | token_manager.py:142 | the new line is already in rewritten form |
| EnvFile.TokenPass | token_manager.py:140-149 | after the token pass every token line is `THREADS_ACCESS_TOKEN=<new>` after its prefix, and one holds the new token |
| EnvFile.TokenLine | token_manager.py:146 | one line through the token pass is fixed for it |
| EnvFile.TokenReplaced | token_manager.py:146 | replacing the marked lines completes the token pass |
| EnvFile.TokenAppended | token_manager.py:149 | appending the token line completes the token pass |
| EnvFile.StampLineLacksToken | token_manager.py:152-156 | a line without the token marker that the stamp pass rewrites holds no token marker afterwards |
| EnvFile.TokenMarkerTenthIsC | token_manager.py:141 | the token marker is 21 characters long with a 'C' in tenth place, a letter no time stamp holds |
| EnvFile.StampLineLacksTokenAt | token_manager.py:152-156 | no token marker begins anywhere in such a rewritten line |
| EnvFile.StampPass | token_manager.py:151-158 | the stamp pass keeps what the token pass established and writes the time stamp line |
| EnvFile.TokenLineWithoutStamp | token_manager.py:142-153 | the line holding the new token has no '#', so the stamp pass leaves it alone |
| EnvFile.StampLine | token_manager.py:156 | one line through the stamp pass stays fixed for the token pass and becomes fixed for the stamp pass |
| EnvFile.StampReplaced | token_manager.py:156 | replacing the stamp lines keeps the token and stamps the file |
| EnvFile.StampAppended | token_manager.py:158 | appending the stamp line keeps the token and stamps the file |
| EnvFile.StampAppendedKeepsToken | token_manager.py:158 | the appended stamp line and empty line leave the token pass done |
| EnvFile.StampAppendedStamps | token_manager.py:158 | appending the stamp line to lines without one completes the stamp pass |
| EnvFile.TokenDoneIsFixed | token_manager.py:144-149 | lines in which the token pass is done are left alone by it |
| EnvFile.StampDoneIsFixed | token_manager.py:155-158 | lines in which the stamp pass is done are left alone by it |
| EnvFile.FixedByLines | token_manager.py:144-158 | a pass that leaves the lines alone leaves the text alone |
| EnvFile.UpdateEnvLines | token_manager.py:136-158 | the new content has both passes done |
| EnvFile.UpdateEnv | token_manager.py:140-158 | the new content: the token pass, then the time-stamp pass, each replacing every marked line or appending its line |
| EnvFile.UpdateEnvKeepsToken | token_manager.py:140-158 | the rewritten file holds `THREADS_ACCESS_TOKEN=<new token>` |
| EnvFile.UpdateEnvKeepsOtherLines | token_manager.py:140-158 | a line holding neither marker keeps its place and its text |
| EnvFile.PassKeepsLine | token_manager.py:144-149 | one pass keeps a line without its marker at its place |
| EnvFile.LinesHold | token_manager.py:137-149 | a text holds what one of its lines holds |
| EnvFile.ContainsInJoin | token_manager.py:146 | what a line holds, the joined lines hold |
| EnvFile.UpdateEnvIdempotent | token_manager.py:133-169 | running the rewrite again with the same token and stamp changes nothing |
| EnvFile.PlainPrefix | token_manager.py:146 | text without a backslash in front of a replacement template never changes whether the template raises |
| EnvFile.VerbatimDoesNotRaise | token_manager.py:144-156 | replacements that `re` copies verbatim never raise; and the marker in front of the token decides nothing about the raise |
| TokenManager.ValidateConfig | token_manager.py:45-62 | `True` exactly when none of the four settings is missing or empty |
| TokenManager.MissingReport | token_manager.py:57-58 | the logged list: the missing settings joined by ", " |
| TokenManager.MissingReportNamesMissing | token_manager.py:57-58 | the logged list names exactly the missing settings, in checking order |
| TokenManager.TokenSettingsPlain | token_manager.py:47-55 | no setting name holds a comma or starts with a space, so the report can be read back |
| TokenManager.ExpiresIn | token_manager.py:115 | `int(expires_in)`: 5184000 seconds when absent; an int as it is; a bool as 0 or 1; any other value makes `int()` raise |
| TokenManager.InDatetimeRange | token_manager.py:118 | `datetime.now() + timedelta(...)` stays within 0001-01-01 to 9999-12-31 or raises `OverflowError` |
| TokenManager.LifetimeDays | token_manager.py:115-118 | `expires_in // 86400` counts the whole days in the lifetime |
| TokenManager.DefaultIsSixtyDays | token_manager.py:115 | the default lifetime is 60 days |
| TokenManager.Exchange | token_manager.py:99-131 | an expiry exactly on a 200 reply whose `expires_in` converts and whose expiry stays within the date range, `expires_in` seconds after now; the token is the reply's `access_token` and comes only with an expiry; a raised request gives neither |
| TokenManager.UpdateEnvFile | token_manager.py:133-169 | `False` exactly when the read fails, the write fails, or `re.sub` raises `re.error` on a replacement with a bad escape; otherwise the rewrite of the file, copied verbatim when no backslash meets `re`'s template escapes; what is written holds the new token and is a fixpoint of the rewrite |
| TokenManager.BadEscapeNotWritten | token_manager.py:144-169 | a token such as `ab\qc` that replaces an existing token line makes `re.sub` raise, so nothing is written and the function returns `False` |
| TokenManager.KeptEscapeWritten | token_manager.py:144-169 | a backslash before a character that is not an ASCII letter, as in `a\-b`, is a kept escape: the file is written |
| TokenManager.RestartService | token_manager.py:171-204 | success needs exit code 0 and a status; then success exactly when the stripped status is `active` |
| TokenManager.RestartAcceptsTrailingSpace | token_manager.py:192 | the newline `systemctl is-active` prints after `active` is stripped away |
| TokenManager.StripTrailing | token_manager.py:192 | `strip()` removes trailing whitespace from a text that starts and ends with a non-space character |
| TokenManager.RunRefresh | token_manager.py:228-273 | the run stops at the first failing step and reports why; it succeeds exactly when every check holds, including that the rewrite's `re.sub` does not raise |
| TokenManager.PipelineReached | token_manager.py:232-266 | the rewrite is the sixth step and the restart the seventh |
| TokenManager.RewriteAfterBackupAndCheck | token_manager.py:241-261 | `.env` is written only after a backup exists and the new token passed its check, and exactly when the read and write succeed and no replacement raises; what is written is the rewrite of the file with the new token |
| TokenManager.RestartAfterRewrite | token_manager.py:259-266 | the service is restarted only after `.env` was rewritten |
| TokenManager.CurrentTokenOnlyWarns | token_manager.py:238-239 | an invalid current token only warns: the run goes the same way either way |
| TokenManager.WarnsOnInvalidCurrent | token_manager.py:238-239 | the warning is given exactly when the current token's check ran and failed |
| TokenManager.RefreshWritesToken | token_manager.py:248-273 | a successful refresh reports the exchange's expiry and leaves `.env` holding the new token |
| Settings.MissingNames | real-estate-newsletter/src/config.py:47-50 | the missing list holds exactly the unset or empty settings, in checking order |
| Settings.MissingNamesAppend | real-estate-newsletter/src/config.py:48-50 | checking two lists in turn reports the first's missing names, then the second's |
| Settings.MissingNamesEmpty | real-estate-newsletter/src/config.py:52-55 | nothing is reported exactly when every setting is set |
| Settings.JoinSpaced | real-estate-newsletter/src/config.py:53 | `', '.join` is a comma join whose later pieces carry the space |
| Settings.MissingReportRoundTrip | real-estate-newsletter/src/config.py:53 | the joined report splits back into the names |
| NewsConfig.ValidateConfig | real-estate-newsletter/src/config.py:36-55 | valid exactly when none of the five settings is missing; otherwise a `ValueError` whose message starts with the fixed prefix |
| NewsConfig.RequiredNamesPlain | real-estate-newsletter/src/config.py:39-45 | no required name holds a comma or starts with a space |
| NewsConfig.ValidateConfigMessage | real-estate-newsletter/src/config.py:53 | the error message names exactly the missing settings, in declared order |
| NewsConfig.ScheduleTimes | real-estate-newsletter/src/config.py:30 | at least one time, none holding a comma, and joined by commas they are the variable's value or the default |
| NewsConfig.DefaultSchedule | real-estate-newsletter/src/config.py:30 | without the variable the schedule is 08:00 and 18:00 |
| Crawler.FirstLine | real-estate-newsletter/src/crawler.py:148 | the text up to its first newline |
| Crawler.AnchorTitle | real-estate-newsletter/src/crawler.py:141-152 | the `.title` text when present; otherwise the first line, cut to 80 characters plus "..." when longer |
| Crawler.Resolve | real-estate-newsletter/src/crawler.py:161-169 | site-relative news.naver.com links get "https:" in front; other site-relative links are joined to land.naver.com, and the result is `JoinRaised` exactly when that `urljoin` raises; `http` links are kept; any other link is left unplaced |
| Crawler.Taken | real-estate-newsletter/src/crawler.py:140-176 | the appended items: no more than there are loop bodies, and each one appended by some body |
| Crawler.FirstRaise | real-estate-newsletter/src/crawler.py:140-184 | the position of the first loop body that raises: none before it, and it raises when it is inside the list |
| Crawler.RunTakes | real-estate-newsletter/src/crawler.py:140-184 | a loop that an exception may end: it raised exactly when some body raised, and its items are those appended before the first exception |
| Crawler.ScanTakes | real-estate-newsletter/src/crawler.py:189-219 | the link loop that stops after `cap` appends: it raises exactly when a body raises before `cap` items are in, and otherwise returns the first `cap` appended items |
| Crawler.ListItem | real-estate-newsletter/src/crawler.py:140-176 | an anchor is passed over exactly when its title is at most 10 characters or its `href` is empty; an item carries the anchor's title and no content; a raise comes only from a `urljoin` on its `href` that raises |
| Crawler.SelectorYield | real-estate-newsletter/src/crawler.py:140-184 | a selector's loop appends at most `limit` items, each with a long title and no content; it raises exactly when one of its first `limit` anchors raises, never with a joiner that does not raise; an empty selector gives nothing |
| Crawler.SelectorLoop | real-estate-newsletter/src/crawler.py:132-184 | the loop over the remaining selectors only adds to the items collected so far, and everything it adds is a listed item |
| Crawler.SelectorLoopFromEmpty | real-estate-newsletter/src/crawler.py:132-184 | from no items, nothing is collected exactly when no selector appends anything; with no raise, at most `limit` items |
| Crawler.SelectorPass | real-estate-newsletter/src/crawler.py:132-184 | listed items only; none exactly when no selector appends any; at most `limit` when no selector raises |
| Crawler.SelectorLoopSkips | real-estate-newsletter/src/crawler.py:137-180 | selectors that append nothing leave the loop as it was |
| Crawler.SelectorPassPicksFirst | real-estate-newsletter/src/crawler.py:179-184 | the first selector to append items starts the list; when it finishes, its items are the whole list; when it raises, the `except` keeps its items and the loop goes on to the next selectors with them |
| Crawler.SelectorPassCarriesPartial | real-estate-newsletter/src/crawler.py:179-184 | a selector that raised after appending items, followed by one that finishes, gives the first one's items followed by the second one's |
| Crawler.LinkItem | real-estate-newsletter/src/crawler.py:191-210 | a link becomes an item exactly when it points at news, has a title of 11 to 99 characters and resolves to an address; it raises exactly when such a link's `urljoin` raises |
| Crawler.ScanCap | real-estate-newsletter/src/crawler.py:218 | the test after an append stops the scan at `limit` items, and at one item when `limit` is 0 |
| Crawler.LinkScan | real-estate-newsletter/src/crawler.py:187-219 | the first `limit` news links in page order (one when the limit is 0), or an exception when a `urljoin` raises before that many are in; with a joiner that never raises, always the prefix |
| Crawler.Dedupe | real-estate-newsletter/src/crawler.py:221-227 | no title repeats, the first item with each title is kept, and every title is kept once |
| Crawler.DedupeAppend | real-estate-newsletter/src/crawler.py:224-227 | deduplication runs item by item, in order |
| Crawler.TopNewsList | real-estate-newsletter/src/crawler.py:73-234 | no page gives `[]`; otherwise at most `limit` items, each with a title over 10 characters, no title twice |
| Crawler.TopNewsFromSelector | real-estate-newsletter/src/crawler.py:132-230 | when a selector appends items and finishes, the list is its items deduplicated; when it raises, the list is its items and those of the later selectors, deduplicated and cut to `limit` |
| Crawler.TopNewsFromLinks | real-estate-newsletter/src/crawler.py:187-234 | when no selector appends items, a link scan that raises gives `[]` through the outer handler; with a joiner that never raises, the list is the deduplicated link scan, cut to `limit` |
| Crawler.SelectorText | real-estate-newsletter/src/crawler.py:275-286 | the content is the empty start or some selector's text |
| Crawler.SelectorTextFirstLong | real-estate-newsletter/src/crawler.py:284-286 | the loop takes the first text longer than 100 characters |
| Crawler.ParagraphOf | real-estate-newsletter/src/crawler.py:298 | a candidate paragraph is a stripped line longer than 30 |
| Crawler.KeepGood | real-estate-newsletter/src/crawler.py:303-305 | a paragraph is kept exactly when it has 31 to 499 characters and no skip word |
| Crawler.KeptParagraphs | real-estate-newsletter/src/crawler.py:298-308 | the good paragraphs among the long stripped lines, at most ten, in page order |
| Crawler.CandidatesAreLines | real-estate-newsletter/src/crawler.py:298 | each candidate is a stripped line of the page |
| Crawler.KeptParagraphsAreLines | real-estate-newsletter/src/crawler.py:297-308 | at most ten paragraphs, each good and the stripped form of a line of the page |
| Crawler.KeptAreGood | real-estate-newsletter/src/crawler.py:298-308 | the kept paragraphs are good stripped lines |
| Crawler.GoodKeptFromLines | real-estate-newsletter/src/crawler.py:302-308 | keeping the good candidates keeps their line origin |
| Crawler.GoodAreCandidates | real-estate-newsletter/src/crawler.py:302-305 | good paragraphs are candidates that pass the test |
| Crawler.ParagraphTextRoundTrip | real-estate-newsletter/src/crawler.py:310 | splitting the paragraph text on newlines gives the kept paragraphs back |
| Crawler.Clip | real-estate-newsletter/src/crawler.py:313-314 | a text over 2000 characters keeps its first 2000 plus "..." |
| Crawler.NewsContent | real-estate-newsletter/src/crawler.py:236-321 | a failed request gives `None`; content is returned only when longer than 50 characters, and at most 2003 |
| Crawler.NewsContentFromSelector | real-estate-newsletter/src/crawler.py:276-314 | the first selector text longer than 100 characters is the article, clipped |
| Crawler.NewsContentFromParagraphs | real-estate-newsletter/src/crawler.py:289-317 | without selector text the article is the paragraph text when that is long enough |
| Crawler.FillContents | real-estate-newsletter/src/crawler.py:331-341 | every item keeps title and url and gets its article text or the title placeholder |
| Crawler.CompleteNewsData | real-estate-newsletter/src/crawler.py:323-343 | at most `limit` items, each with a long title and non-empty content, no title twice |
| Crawler.MakeRequest | real-estate-newsletter/src/crawler.py:345-360 | retries after sleeping 2^k seconds while fewer than three retries were made; succeeds at the first good attempt |
| Crawler.WaitsSum | real-estate-newsletter/src/crawler.py:354-357 | doubling waits add up to 2^(retries+n) − 2^retries seconds |
| Crawler.RequestBudget | real-estate-newsletter/src/crawler.py:345-360 | at most four attempts and 7 seconds of waiting; failure exactly when all four fail |
| Summarizer.SummarizeSingle | real-estate-newsletter/src/summarizer.py:35-65 | no title or content skips the model; otherwise the stripped answer, or `None` when the call raised |
| Summarizer.SummaryEntry | real-estate-newsletter/src/summarizer.py:74-83 | an article becomes an entry exactly when its summary is not empty, with its title, url and content |
| Summarizer.SummarizeBatch | real-estate-newsletter/src/summarizer.py:67-89 | the articles with a non-empty summary, in order |
| Summarizer.SummarizeBatchAppend | real-estate-newsletter/src/summarizer.py:71 | the batch runs article by article |
| Summarizer.PointOf | real-estate-newsletter/src/summarizer.py:113-118 | a line becomes a bullet exactly when it is over 10 characters once stripped; the bullet is "• " and the line without its leading numbering |
| Summarizer.Points | real-estate-newsletter/src/summarizer.py:110-120 | the bullets of the first lines that qualify, stopping at the cap |
| Summarizer.PointsAreBullets | real-estate-newsletter/src/summarizer.py:113-120 | every point starts with "• " and comes from a summary line |
| Summarizer.MainPoints | real-estate-newsletter/src/summarizer.py:119-140 | up to three bullets, or the first two when the post with three runs over 500 characters |
| Summarizer.ThreadsPost | real-estate-newsletter/src/summarizer.py:91-143 | the "no news" text without summaries; otherwise the date and first title, the kept bullets, the link, the source and the hashtags |
| Summarizer.ThreadsPostUsesFirstOnly | real-estate-newsletter/src/summarizer.py:100-101 | only the first summary shapes the main post |
| Summarizer.ThreadsPostCanExceedLimit | real-estate-newsletter/src/summarizer.py:131-140 | the 500-character check does not bound the post |
| Summarizer.ShortReplyAsWritten | real-estate-newsletter/src/summarizer.py:177-179 | the one-bullet reply as the program builds it: the reply layout with "• " put in front of the first bullet |
| Summarizer.ShortReplyAsWrittenDoublesBullet | real-estate-newsletter/src/summarizer.py:179 | the one-bullet reply shows "• • " and is not the reply layout |
| Summarizer.ShortReply | real-estate-newsletter/src/summarizer.py:177-179 | the one-bullet reply is the reply layout with the first bullet |
| Summarizer.ReplyText | real-estate-newsletter/src/summarizer.py:157-181 | the full reply when it fits in 400 characters; otherwise the program's one-bullet reply, with "• " put in front of the first bullet; no bullet to keep raises |
| Summarizer.IntendedReplyText | real-estate-newsletter/src/summarizer.py:157-181 | the replies as intended: the full reply when it fits, otherwise the reply layout with the first bullet as it is; no bullet to keep raises |
| Summarizer.ReplyTextDoublesBullet | real-estate-newsletter/src/summarizer.py:177-179 | the program's replies equal the intended ones when they fit; a shortened reply differs and shows "• • " where its bullet starts |
| Summarizer.Reply | real-estate-newsletter/src/summarizer.py:155-181 | the reply for one summary keeps at most two of its bullets |
| Summarizer.ShortenedReplyDoublesBullet | real-estate-newsletter/src/summarizer.py:163-179 | every reply that had to be shortened shows "• • " |
| Summarizer.ReplyItems | real-estate-newsletter/src/summarizer.py:155 | `[1:5]`: the second to fifth summaries |
| Summarizer.ReplyPosts | real-estate-newsletter/src/summarizer.py:149-188 | one reply per chosen summary in order, each the program's reply for that summary, or none at all when any raises |
| Summarizer.ShortSummary | real-estate-newsletter/src/summarizer.py:207-210 | the first three lines joined by spaces and stripped, as they are when at most 80 characters, otherwise their first 80 characters and "..." |
| Summarizer.SummaryHead | real-estate-newsletter/src/summarizer.py:207-208 | the first three lines joined by spaces and stripped: neither end is whitespace |
| Summarizer.ShortSummaryOfOneLine | real-estate-newsletter/src/summarizer.py:207-210 | a clean one-line summary of at most 80 characters is shown unchanged |
| Summarizer.Entry | real-estate-newsletter/src/summarizer.py:204-212 | the digest entry: its number, the first 30 characters of the title with "...", and the short summary |
| Summarizer.Pack | real-estate-newsletter/src/summarizer.py:214-217 | the digest loop: entries are added while text and footer stay within 500 characters, stopping at the first that does not fit |
| Summarizer.PackTakesFitting | real-estate-newsletter/src/summarizer.py:214-217 | the loop's text is the start followed by the fitting entries |
| Summarizer.PackFits | real-estate-newsletter/src/summarizer.py:214 | whatever the loop adds keeps text and footer within 500 characters |
| Summarizer.PackStopsAtOverflow | real-estate-newsletter/src/summarizer.py:216-217 | the loop stops only at an entry that does not fit |
| Summarizer.DigestEntries | real-estate-newsletter/src/summarizer.py:203-212 | the first three summaries, numbered from 1 |
| Summarizer.DigestPost | real-estate-newsletter/src/summarizer.py:190-220 | header, the fitting entries, footer; within 500 characters whenever header and footer are |
| Summarizer.DigestStopsAtOverflow | real-estate-newsletter/src/summarizer.py:214-217 | an entry is left out only when adding it would exceed 500 characters |
| Newsletter.WebLine | real-estate-newsletter/main.py:120-124 | a blank line is dropped; otherwise the stripped line without its leading numbering characters |
| Newsletter.WebLines | real-estate-newsletter/main.py:116-124 | the kept lines of a summary, in order |
| Newsletter.WebSummary | real-estate-newsletter/main.py:114-131 | the kept lines joined by spaces, and when that is over 100 characters its first 97 plus "..." |
| Newsletter.BulletOnlyLineIsEmpty | real-estate-newsletter/main.py:121-124 | a line of numbering characters only leaves an empty piece |
| Newsletter.CleanSummaryKept | real-estate-newsletter/main.py:114-131 | a clean one-line summary of at most 100 characters is shown as it is |
| Newsletter.Thumbnail | real-estate-newsletter/main.py:63 | the scraped thumbnail, or the default image when none or empty |
| Newsletter.WebNewsOf | real-estate-newsletter/main.py:63-71 | the web entry keeps title and url, and carries the cleaned summary and the thumbnail |
| Newsletter.SaveNewsForWeb | real-estate-newsletter/main.py:46-83 | writes only between 6 and 12 o'clock and when the write succeeds: the `update_time` read then and the first five articles in order, each stamped with the clock read while it was built |
| Newsletter.RunDaily | real-estate-newsletter/main.py:133-196 | stops at no news or no summaries; exports the summaries for the web with the clock readings of the export; succeeds exactly when the publisher returns a post id |
| Newsletter.MainPostNeverEmpty | real-estate-newsletter/main.py:168-170 | the main-post check never fails |
| Newsletter.Dispatch | real-estate-newsletter/main.py:280-351 | a failing `setup_logging`, an invalid configuration or a module that fails to load exits 1; otherwise no argument returns normally, `help`, a passing `test` or a successful `run` exit 0, and everything else exits 1 |
| Newsletter.DispatchIgnoresCase | real-estate-newsletter/main.py:287 | the command is matched without regard to ASCII case |
| Newsletter.UnknownCommandFails | real-estate-newsletter/main.py:333-336 | an unknown command exits with code 1 |

## Left out

- Network, HTML parsing, Selenium, `feedparser` and JSON decoding. Pages, responses and decoded values are parameters; which selector matches what is part of the input.
- `threads_publisher.py`, `threads_auth.py`, `vworld_server.py` and `ai_property_search.py`. They are not part of this model; the publisher is a function parameter of `Newsletter.RunDaily`.
- Floating-point values (a float price's `int()` truncation, `elapsed_time`). `Values` has no float case.
- The clock. `now`, today's date text and the time stamp are parameters; backup dates are `Dates.Instant` values.
- Logging, `print`, `send_notification` and the notification file. They do not change any result, with one exception: `setup_logging` can raise while the service starts (it creates `logs/` and opens the log file), and `Newsletter.Dispatch` models that as the `logOk` flag.
- Sleeps (`time.sleep`). `Crawler.MakeRequest` records the waits it would make.
- `urljoin` itself. `Crawler.Joiner` is a parameter that gives the joined address or reports the `ValueError` that `urljoin` raises on a malformed address such as `//[x`; the joined text is not computed.
- `token_manager.py` `main()`: it only maps the run's boolean to exit codes 0 and 1.
- `check_token_validity`: modelled as the booleans `currentValid` and `newValid`, which the world answers.
- The backup file name of `backup_env_file` and the paths of the backup directory. A backup is `Some` non-empty text or not.
- `airtable_backup.py`'s metadata `timestamp` field. It holds the clock.
- `geocode_address`, `create_map` and the HTML map output of the map scripts.
- `show_disk_usage` and the interactive prompt of `cleanup_old_backups.py`.
- `_extract_thumbnail` of `main.py`. It is the `thumb` parameter.
- `test_all_components`. It is the `testOk` flag.
- Pagination: the scripts loop for as long as the server hands out offsets. The model takes `fuel`, the most requests issued, and reports `OutOfFuel` when it runs out.
- Backup.BackupAirtableData, Listings.GetAirtableData, Listings.EnhancedGetAirtableData: a walk cut off by the budget is one the program would still be paging. The model reports it as the `Unfinished` outcome and the `Stalled` exit, or as no result, and promises nothing beyond that point.
- Dates: `strptime` and `strftime` are modelled on ASCII digits only; Python's `\d` classes also take other Unicode decimal digits.
- BlogThumbnails.LogNumber: `\d` in Python matches every Unicode decimal digit; the model matches ASCII digits.
- Errors reading `entry.link` and `entry.summary`, and the outer `except` of `download_thumbnail`, are not modelled.
- A partly written file after a failed write is not modelled: a write either happens whole or not at all.
- Backup.SweepFrom, Migration.DeleteFolders, Migration.MoveImages: a failing `shutil.rmtree` is modelled as deleting nothing. The real `rmtree` removes entries as it walks and raises at the first one it cannot remove, so part of the folder may already be gone; the model does not say which part.
- RecommImages.FetchImages: a response that is not JSON, or a failed first request, raises before the loop; the model starts from the decoded records.
- EnvFile.UpdateEnvKeepsToken: holds only under `WellFormed`. A line holding `# THREADS_TOKEN_UPDATED=` before `THREADS_ACCESS_TOKEN=` loses its token to the stamp pass. `WellFormed` also asks for a token and a stamp without backslashes, because `re.sub` reads backslashes in the replacement as template escapes.
- EnvFile.UpdateEnvIdempotent: the same `WellFormed` hypotheses (no newline or '#' in the token, no newline or 'C' in the stamp, no '#' on token lines).
- TokenManager.UpdateEnvFile: the token and idempotence facts are stated under `WellFormed` only, for the reasons above. The `re.error` that a bad template escape raises is modelled, and then nothing is written. A template escape that `re.sub` expands or keeps is not followed: the model writes the template text itself and promises nothing about what the real call writes then. Whether the stamp line's `re.sub` runs is decided on the model's token-pass text, which differs from the real one only by such expanded escapes.
- TokenManager.RunRefresh, TokenManager.RewriteAfterBackupAndCheck: when each step happens, and whether the rewrite raises, are modelled; the text written inherits the gap above for tokens with expanded escapes.
- TokenManager.Exchange: the clock is given in whole seconds; the microseconds of `datetime.now()` never decide whether the sum overflows. A float `expires_in` (which `int()` truncates) is not modelled, because `Values` has no float case; the model treats it like any other value `int()` rejects.
- Listings.NormalizePrice: digit strings are ASCII only. Python's `isdigit()` and `int()` also take other Unicode decimal digits, so "٣" becomes 3 where the model keeps the string. A character such as "²" passes `isdigit()` but makes `int()` raise `ValueError`, which the price handler catches, so the price stays the string; the model agrees there.
- Text.ToLowerAscii: Python's `lower()` also folds non-ASCII capitals; the model folds ASCII only.
- Text.Strip: whitespace is Python's `str.isspace` set; no Unicode normalisation.

## Findings

| source | as written | input that shows it | evidently intended | confidence | as-written member | corrected member |
|---|---|---|---|---|---|---|
| real-estate-newsletter/src/summarizer.py:179 | the one-bullet reply puts "• " in front of `clean_points[0]`, which already starts with "• " | a reply over 400 characters whose first bullet is "• 서울 아파트값 상승세 지속" | the reply layout with the first bullet once: "• 서울 아파트값 상승세 지속" | not executed | Summarizer.ReplyTextDoublesBullet | Summarizer.IntendedReplyText |

=== FILE: backup.dfy ===
/**
 The daily table backup (airtable_backup.py): every view is paged through and written
 twice, into the dated folder of the day and into `latest/`; a metadata file records the
 totals; then date folders older than 30 days are deleted.

 The backup directory is a `Disk`: its top-level directories and the files under them,
 keyed by relative path ("2024-05-01/all_properties.json"). Writes that raise are given
 as the set of paths whose write fails; the listing order of the directory is a
 parameter, as is the clock.
 */
module Backup {
  import opened Wrappers
  import opened Text
  import opened Values
  import opened Pagination
  import opened Dates

  datatype View = View(name: string, id: string, filename: string)

  /** The four views, in the order the backup visits them. */
  const Views: seq<View> := [
    View("all", "viwyV15T4ihMpbDbr", "all_properties.json"),
    View("reconstruction", "viwzEVzrr47fCbDNU", "reconstruction_properties.json"),
    View("high_yield", "viwxS4dKAcQWmB0Be", "high_yield_properties.json"),
    View("low_cost", "viwUKnawSP8SkV9Sx", "low_cost_properties.json")
  ]

  const LatestDir := "latest"
  const MetadataFile := "metadata.json"
  const DaysToKeep: nat := 30

  /** The metadata of one run (the wall-clock timestamp is left out). */
  datatype Metadata = Metadata(backupDate: string, totalRecords: nat, viewsBackedUp: nat, totalViews: nat)

  datatype Content = RecordsFile(records: seq<Record>) | MetadataContent(meta: Metadata)

  datatype Disk = Disk(dirs: set<string>, files: map<string, Content>)

  function PathIn(dir: string, name: string): string {
    dir + "/" + name
  }

  /** What one view's backup did: saved these records, raised, or was still paging when the
      request budget ran out (the program itself would go on requesting pages). */
  datatype ViewOutcome = Saved(records: seq<Record>) | Failed | Unfinished

  datatype ViewStep = ViewStep(disk: Disk, outcome: ViewOutcome)

  /** What the backup of one view yields, whatever else is on disk: the records of every
      successful page when the loop left through a `break` and both writes went through. */
  function ViewResult(date: string, view: View, server: Value -> Response, fuel: nat, failing: set<string>): ViewOutcome {
    var w := Walk(server, VNone, fuel);
    if EndOf(w) == OutOfFuel then Unfinished
    else if Stopped(EndOf(w)) && PathIn(date, view.filename) !in failing && PathIn(LatestDir, view.filename) !in failing
    then Saved(Gathered(w))
    else Failed
  }

  /** The view got as far as creating `latest/`: its loop stopped and its dated copy was written. */
  predicate ReachesLatest(date: string, view: View, server: Value -> Response, fuel: nat, failing: set<string>) {
    Stopped(EndOf(Walk(server, VNone, fuel))) && PathIn(date, view.filename) !in failing
  }

  /** The try-block of one view: page through it, write the dated copy, create `latest/`,
      write the latest copy. An exception anywhere abandons the view, keeping what was
      already written. */
  function BackupView(disk: Disk, date: string, view: View, server: Value -> Response, fuel: nat, failing: set<string>): (r: ViewStep)
    ensures r.outcome == ViewResult(date, view, server, fuel, failing)
    ensures r.outcome.Unfinished? ==> r.disk == disk
    ensures var dated := PathIn(date, view.filename);
      var latest := PathIn(LatestDir, view.filename);
      && (r.outcome.Saved? ==>
            && r.disk.files == disk.files[dated := RecordsFile(r.outcome.records)][latest := RecordsFile(r.outcome.records)]
            && r.disk.dirs == disk.dirs + {LatestDir})
      && (r.outcome.Failed? ==>
            && (r.disk.dirs == if ReachesLatest(date, view, server, fuel, failing) then disk.dirs + {LatestDir} else disk.dirs)
            && forall p :: p != dated ==> (p in r.disk.files <==> p in disk.files) && (p in disk.files ==> r.disk.files[p] == disk.files[p]))
  {
    var w := Walk(server, VNone, fuel);
    var dated := PathIn(date, view.filename);
    var latest := PathIn(LatestDir, view.filename);
    if EndOf(w) == OutOfFuel then ViewStep(disk, Unfinished)
    else if EndOf(w) == Exception || dated in failing then ViewStep(disk, Failed)
    else
      var records := Gathered(w);
      var d1 := Disk(disk.dirs + {LatestDir}, disk.files[dated := RecordsFile(records)]);
      if latest in failing then ViewStep(d1, Failed)
      else ViewStep(d1.(files := d1.files[latest := RecordsFile(records)]), Saved(records))
  }

  datatype Steps = Steps(disk: Disk, outcomes: seq<ViewOutcome>)

  /** The outcomes end with a view still paging when the budget ran out. */
  predicate Stalls(outcomes: seq<ViewOutcome>) {
    |outcomes| > 0 && outcomes[|outcomes| - 1].Unfinished?
  }

  /** The loop over the views: each view's outcome is its own, whatever the views before it
      did. The loop gets no further than a view that was still paging when the budget ran out,
      and it gets there exactly when some view would still be paging. */
  function BackupViews(disk: Disk, date: string, views: seq<View>, server: string -> Value -> Response,
                       fuel: nat, failing: set<string>): (r: Steps)
    ensures |r.outcomes| == |views| || Stalls(r.outcomes)
    ensures |r.outcomes| <= |views|
    ensures forall k :: 0 <= k < |r.outcomes| ==> r.outcomes[k] == ViewResult(date, views[k], server(views[k].id), fuel, failing)
    ensures forall k :: 0 <= k < |r.outcomes| - 1 ==> !r.outcomes[k].Unfinished?
    ensures disk.dirs <= r.disk.dirs <= disk.dirs + {LatestDir}
    decreases |views|
  {
    if |views| == 0 then Steps(disk, [])
    else
      var step := BackupView(disk, date, views[0], server(views[0].id), fuel, failing);
      if step.outcome.Unfinished? then Steps(step.disk, [step.outcome])
      else
        var rest := BackupViews(step.disk, date, views[1..], server, fuel, failing);
        ConsOutcomes(date, views, server, fuel, failing, step.outcome, rest.outcomes);
        Steps(rest.disk, [step.outcome] + rest.outcomes)
  }

  /** A finished view in front of the outcomes of the views after it gives the outcomes of all. */
  lemma ConsOutcomes(date: string, views: seq<View>, server: string -> Value -> Response, fuel: nat, failing: set<string>,
                     o: ViewOutcome, outs: seq<ViewOutcome>)
    requires |views| > 0 && o == ViewResult(date, views[0], server(views[0].id), fuel, failing) && !o.Unfinished?
    requires (|outs| == |views| - 1 || Stalls(outs)) && |outs| <= |views| - 1
    requires forall k :: 0 <= k < |outs| ==> outs[k] == ViewResult(date, views[1..][k], server(views[1..][k].id), fuel, failing)
    requires forall k :: 0 <= k < |outs| - 1 ==> !outs[k].Unfinished?
    ensures var all := [o] + outs;
      && (|all| == |views| || Stalls(all)) && |all| <= |views|
      && (forall k :: 0 <= k < |all| ==> all[k] == ViewResult(date, views[k], server(views[k].id), fuel, failing))
      && (forall k :: 0 <= k < |all| - 1 ==> !all[k].Unfinished?)
  {
    ConsResults(date, views, server, fuel, failing, o, outs);
    ConsFinished(o, outs);
    assert Stalls(outs) ==> Stalls([o] + outs);
  }

  lemma ConsResults(date: string, views: seq<View>, server: string -> Value -> Response, fuel: nat, failing: set<string>,
                    o: ViewOutcome, outs: seq<ViewOutcome>)
    requires |views| > 0 && o == ViewResult(date, views[0], server(views[0].id), fuel, failing)
    requires |outs| <= |views| - 1
    requires forall k :: 0 <= k < |outs| ==> outs[k] == ViewResult(date, views[1..][k], server(views[1..][k].id), fuel, failing)
    ensures forall k :: 0 <= k < |[o] + outs| ==> ([o] + outs)[k] == ViewResult(date, views[k], server(views[k].id), fuel, failing)
  {
    var all := [o] + outs;
    forall k | 0 <= k < |all| ensures all[k] == ViewResult(date, views[k], server(views[k].id), fuel, failing) {
      if k > 0 {
        var v := views[1..][k - 1];
        assert all[k] == outs[k - 1] && views[k] == v;
      }
    }
  }

  lemma ConsFinished(o: ViewOutcome, outs: seq<ViewOutcome>)
    requires !o.Unfinished? && forall k :: 0 <= k < |outs| - 1 ==> !outs[k].Unfinished?
    ensures forall k :: 0 <= k < |[o] + outs| - 1 ==> !([o] + outs)[k].Unfinished?
  {
    var all := [o] + outs;
    forall k | 0 <= k < |all| - 1 ensures !all[k].Unfinished? {
      if k > 0 {
        assert all[k] == outs[k - 1];
      }
    }
  }

  /** The loop stalls exactly when some view would still be paging when the budget ran out. */
  lemma StallsExactly(disk: Disk, date: string, views: seq<View>, server: string -> Value -> Response,
                      fuel: nat, failing: set<string>)
    ensures var r := BackupViews(disk, date, views, server, fuel, failing);
      Stalls(r.outcomes) <==> exists k :: 0 <= k < |views| && ViewResult(date, views[k], server(views[k].id), fuel, failing).Unfinished?
  {
    var r := BackupViews(disk, date, views, server, fuel, failing);
    if Stalls(r.outcomes) {
      StallWitness(r.outcomes, date, views, server, fuel, failing);
    } else {
      NoStallNoneUnfinished(r.outcomes, date, views, server, fuel, failing);
    }
  }

  lemma StallWitness(outs: seq<ViewOutcome>, date: string, views: seq<View>, server: string -> Value -> Response,
                     fuel: nat, failing: set<string>)
    requires Stalls(outs) && |outs| <= |views|
    requires forall k :: 0 <= k < |outs| ==> outs[k] == ViewResult(date, views[k], server(views[k].id), fuel, failing)
    ensures exists k :: 0 <= k < |views| && ViewResult(date, views[k], server(views[k].id), fuel, failing).Unfinished?
  {
    var k := |outs| - 1;
    assert outs[k] == ViewResult(date, views[k], server(views[k].id), fuel, failing);
  }

  lemma NoStallNoneUnfinished(outs: seq<ViewOutcome>, date: string, views: seq<View>, server: string -> Value -> Response,
                              fuel: nat, failing: set<string>)
    requires !Stalls(outs) && |outs| == |views|
    requires forall k :: 0 <= k < |outs| ==> outs[k] == ViewResult(date, views[k], server(views[k].id), fuel, failing)
    requires forall k :: 0 <= k < |outs| - 1 ==> !outs[k].Unfinished?
    ensures forall k :: 0 <= k < |views| ==> !ViewResult(date, views[k], server(views[k].id), fuel, failing).Unfinished?
  {
    forall k | 0 <= k < |views| ensures !ViewResult(date, views[k], server(views[k].id), fuel, failing).Unfinished? {
      assert outs[k] == ViewResult(date, views[k], server(views[k].id), fuel, failing);
    }
  }

  /** `latest/` exists after the loop exactly when it existed before or some view reached as
      far as creating it. */
  lemma {:induction false} LatestCreated(disk: Disk, date: string, views: seq<View>, server: string -> Value -> Response,
                                         fuel: nat, failing: set<string>)
    ensures var r := BackupViews(disk, date, views, server, fuel, failing);
      LatestDir in r.disk.dirs <==>
        LatestDir in disk.dirs || exists k :: 0 <= k < |r.outcomes| && ReachesLatest(date, views[k], server(views[k].id), fuel, failing)
    decreases |views|
  {
    if |views| > 0 {
      var step := BackupView(disk, date, views[0], server(views[0].id), fuel, failing);
      var r := BackupViews(disk, date, views, server, fuel, failing);
      if !step.outcome.Unfinished? {
        LatestCreated(step.disk, date, views[1..], server, fuel, failing);
        var rest := BackupViews(step.disk, date, views[1..], server, fuel, failing);
        assert r == Steps(rest.disk, [step.outcome] + rest.outcomes);
        assert LatestDir in step.disk.dirs <==>
          LatestDir in disk.dirs || ReachesLatest(date, views[0], server(views[0].id), fuel, failing);
        if exists k :: 0 <= k < |r.outcomes| && ReachesLatest(date, views[k], server(views[k].id), fuel, failing) {
          var k :| 0 <= k < |r.outcomes| && ReachesLatest(date, views[k], server(views[k].id), fuel, failing);
          if k > 0 {
            assert views[1..][k - 1] == views[k];
          }
        }
        if exists k :: 0 <= k < |rest.outcomes| && ReachesLatest(date, views[1..][k], server(views[1..][k].id), fuel, failing) {
          var k :| 0 <= k < |rest.outcomes| && ReachesLatest(date, views[1..][k], server(views[1..][k].id), fuel, failing);
          assert views[1..][k] == views[k + 1];
        }
      } else {
        assert r == Steps(step.disk, [step.outcome]);
        assert !ReachesLatest(date, views[0], server(views[0].id), fuel, failing);
      }
    }
  }

  predicate WrittenBy(p: string, date: string, views: seq<View>) {
    exists j :: 0 <= j < |views| && (p == PathIn(date, views[j].filename) || p == PathIn(LatestDir, views[j].filename))
  }

  /** A file that no view writes keeps its content through the loop. */
  lemma {:induction false} Untouched(disk: Disk, date: string, views: seq<View>, server: string -> Value -> Response,
                                     fuel: nat, failing: set<string>, p: string)
    requires p in disk.files && !WrittenBy(p, date, views)
    ensures var r := BackupViews(disk, date, views, server, fuel, failing);
      p in r.disk.files && r.disk.files[p] == disk.files[p]
    decreases |views|
  {
    if |views| > 0 {
      var step := BackupView(disk, date, views[0], server(views[0].id), fuel, failing);
      forall j | 0 <= j < |views| - 1
        ensures p != PathIn(date, views[1..][j].filename) && p != PathIn(LatestDir, views[1..][j].filename)
      {
        assert views[1..][j] == views[j + 1];
      }
      assert p != PathIn(date, views[0].filename) && p != PathIn(LatestDir, views[0].filename);
      Untouched(step.disk, date, views[1..], server, fuel, failing, p);
    }
  }

  /** Distinct file names never produce the same path, and a dated path never lies in `latest/`. */
  lemma PathsApart(date: string, f: string, g: string)
    requires |date| > 0 && IsDigit(date[0])
    ensures PathIn(date, f) != PathIn(LatestDir, g)
    ensures f != g ==> PathIn(date, f) != PathIn(date, g) && PathIn(LatestDir, f) != PathIn(LatestDir, g)
  {
    assert PathIn(date, f)[0] == date[0];
    assert PathIn(LatestDir, g)[0] == 'l';
    if f != g {
      assert PathIn(date, f)[|date| + 1..] == f && PathIn(date, g)[|date| + 1..] == g;
      assert PathIn(LatestDir, f)[|LatestDir| + 1..] == f && PathIn(LatestDir, g)[|LatestDir| + 1..] == g;
    }
  }

  /** A saved view's dated copy and latest copy both hold its records. */
  predicate HoldsSaved(d: Disk, date: string, view: View, o: ViewOutcome) {
    o.Saved? ==>
      && PathIn(date, view.filename) in d.files
      && PathIn(LatestDir, view.filename) in d.files
      && d.files[PathIn(date, view.filename)] == RecordsFile(o.records)
      && d.files[PathIn(LatestDir, view.filename)] == RecordsFile(o.records)
  }

  /** The views after a saved one never overwrite its two copies. */
  lemma SavedHeadKept(disk: Disk, date: string, views: seq<View>, server: string -> Value -> Response,
                      fuel: nat, failing: set<string>)
    requires |date| > 0 && IsDigit(date[0]) && |views| > 0
    requires forall i, j :: 0 <= i < j < |views| ==> views[i].filename != views[j].filename
    ensures var step := BackupView(disk, date, views[0], server(views[0].id), fuel, failing);
      HoldsSaved(BackupViews(step.disk, date, views[1..], server, fuel, failing).disk, date, views[0], step.outcome)
  {
    var step := BackupView(disk, date, views[0], server(views[0].id), fuel, failing);
    if step.outcome.Saved? {
      var rest := views[1..];
      var f := views[0].filename;
      forall j | 0 <= j < |rest| ensures PathIn(date, f) != PathIn(date, rest[j].filename) && PathIn(date, f) != PathIn(LatestDir, rest[j].filename)
                                         && PathIn(LatestDir, f) != PathIn(LatestDir, rest[j].filename) && PathIn(LatestDir, f) != PathIn(date, rest[j].filename)
      {
        assert rest[j] == views[j + 1];
        PathsApart(date, f, rest[j].filename);
        PathsApart(date, rest[j].filename, f);
      }
      PathsApart(date, f, f);
      Untouched(step.disk, date, rest, server, fuel, failing, PathIn(date, f));
      Untouched(step.disk, date, rest, server, fuel, failing, PathIn(LatestDir, f));
    }
  }

  /** Every saved view ends up on disk twice with the same content, its dated copy and its
      latest copy, when the views have distinct file names. */
  lemma {:induction false} SavedTwice(disk: Disk, date: string, views: seq<View>, server: string -> Value -> Response,
                                      fuel: nat, failing: set<string>)
    requires |date| > 0 && IsDigit(date[0])
    requires forall i, j :: 0 <= i < j < |views| ==> views[i].filename != views[j].filename
    ensures var r := BackupViews(disk, date, views, server, fuel, failing);
      forall k :: 0 <= k < |r.outcomes| ==> HoldsSaved(r.disk, date, views[k], r.outcomes[k])
    decreases |views|
  {
    if |views| > 0 {
      var step := BackupView(disk, date, views[0], server(views[0].id), fuel, failing);
      var rest := views[1..];
      var r := BackupViews(disk, date, views, server, fuel, failing);
      if !step.outcome.Unfinished? {
        var tail := BackupViews(step.disk, date, rest, server, fuel, failing);
        SavedTwice(step.disk, date, rest, server, fuel, failing);
        SavedHeadKept(disk, date, views, server, fuel, failing);
        assert r == Steps(tail.disk, [step.outcome] + tail.outcomes);
        forall k | 0 <= k < |r.outcomes| ensures HoldsSaved(r.disk, date, views[k], r.outcomes[k]) {
          if k > 0 {
            assert views[k] == rest[k - 1] && r.outcomes[k] == tail.outcomes[k - 1];
          }
        }
      }
    }
  }

  /** The records saved over all views (`total_records`). */
  function TotalRecords(outcomes: seq<ViewOutcome>): nat {
    if |outcomes| == 0 then 0
    else (if outcomes[0].Saved? then |outcomes[0].records| else 0) + TotalRecords(outcomes[1..])
  }

  /** The records of one outcome count when it was saved, and the tallies of consecutive
      outcomes add up: `total_records` sums the saved views' record counts. */
  lemma {:induction false} TotalRecordsAppend(a: seq<ViewOutcome>, b: seq<ViewOutcome>)
    ensures TotalRecords(a + b) == TotalRecords(a) + TotalRecords(b)
    ensures |a| == 1 ==> TotalRecords(a) == if a[0].Saved? then |a[0].records| else 0
    decreases |a|
  {
    if |a| == 0 {
      assert a + b == b;
    } else {
      assert (a + b)[0] == a[0];
      assert (a + b)[1..] == a[1..] + b;
      TotalRecordsAppend(a[1..], b);
    }
  }

  /** The views saved (`success_count`). */
  function SavedCount(outcomes: seq<ViewOutcome>): (n: nat)
    ensures n <= |outcomes|
    ensures n == |outcomes| <==> forall k :: 0 <= k < |outcomes| ==> outcomes[k].Saved?
  {
    if |outcomes| == 0 then 0
    else
      var rest := SavedCount(outcomes[1..]);
      assert forall k :: 1 <= k < |outcomes| ==> outcomes[k] == outcomes[1..][k - 1];
      (if outcomes[0].Saved? then 1 else 0) + rest
  }

  // The 30-day retention sweep.

  /** A folder that `cleanup_old_backups` deletes: a directory other than `latest` whose name
      `strptime` reads as a date whose midnight lies before `now` minus `days`. */
  predicate Expired(disk: Disk, name: string, now: Instant, days: nat)
    requires ValidInstant(now)
  {
    && name != LatestDir
    && name in disk.dirs
    && Strptime(name).Some?
    && Ordinal(Strptime(name).value) * DayMicros < Micros(now) - days * DayMicros
  }

  predicate Under(path: string, dir: string) {
    |path| > |dir| && path[..|dir| + 1] == dir + "/"
  }

  /** `shutil.rmtree`: the directory and everything under it disappear. */
  function RemoveTree(disk: Disk, name: string): (d: Disk)
    ensures d.dirs == disk.dirs - {name}
    ensures forall p :: p in d.files <==> p in disk.files && !Under(p, name)
    ensures forall p :: p in d.files ==> d.files[p] == disk.files[p]
  {
    Disk(disk.dirs - {name}, map p | p in disk.files && !Under(p, name) :: disk.files[p])
  }

  /** The result of the sweep: the disk after it, the folders deleted in order, and whether an
      exception ended it. */
  datatype Sweep = Sweep(disk: Disk, removed: seq<string>, raised: bool)

  /** The names of `order` that are expired, in order: the reference for the sweep. */
  function ExpiredNames(disk: Disk, order: seq<string>, now: Instant, days: nat): seq<string>
    requires ValidInstant(now)
  {
    if |order| == 0 then []
    else (if Expired(disk, order[0], now, days) then [order[0]] else []) + ExpiredNames(disk, order[1..], now, days)
  }

  /** The loop of `cleanup_old_backups`: only a `ValueError` is caught per folder, so a failing
      `rmtree` ends the whole sweep. */
  function SweepFrom(disk: Disk, order: seq<string>, now: Instant, days: nat, rmFails: set<string>): (r: Sweep)
    requires ValidInstant(now)
    ensures forall k :: 0 <= k < |r.removed| ==> r.removed[k] !in rmFails && r.removed[k] in order
    ensures r.disk.dirs == disk.dirs - (set k | k in r.removed)
    decreases |order|
  {
    if |order| == 0 then Sweep(disk, [], false)
    else if Expired(disk, order[0], now, days) then
      if order[0] in rmFails then Sweep(disk, [], true)
      else
        var rest := SweepFrom(RemoveTree(disk, order[0]), order[1..], now, days, rmFails);
        Sweep(rest.disk, [order[0]] + rest.removed, rest.raised)
    else SweepFrom(disk, order[1..], now, days, rmFails)
  }

  predicate Distinct(xs: seq<string>) {
    forall i, j :: 0 <= i < j < |xs| ==> xs[i] != xs[j]
  }

  /** Every folder the sweep deletes was expired. */
  lemma {:induction false} SweepRemovesExpiredOnly(disk: Disk, order: seq<string>, now: Instant, days: nat, rmFails: set<string>)
    requires ValidInstant(now)
    ensures forall n :: n in SweepFrom(disk, order, now, days, rmFails).removed ==> Expired(disk, n, now, days)
    decreases |order|
  {
    if |order| > 0 && Expired(disk, order[0], now, days) && order[0] !in rmFails {
      var d := RemoveTree(disk, order[0]);
      var rest := SweepFrom(d, order[1..], now, days, rmFails);
      SweepRemovesExpiredOnly(d, order[1..], now, days, rmFails);
      var r := SweepFrom(disk, order, now, days, rmFails);
      assert r.removed == [order[0]] + rest.removed;
      forall n | n in r.removed ensures Expired(disk, n, now, days) {
        if n != order[0] {
          assert n in rest.removed;
          assert Expired(d, n, now, days);
        }
      }
    } else if |order| > 0 && !Expired(disk, order[0], now, days) {
      SweepRemovesExpiredOnly(disk, order[1..], now, days, rmFails);
    }
  }

  /** A file under none of the deleted folders keeps its content through the sweep. */
  lemma {:induction false} SweepKeepsFiles(disk: Disk, order: seq<string>, now: Instant, days: nat, rmFails: set<string>, p: string)
    requires ValidInstant(now)
    ensures var r := SweepFrom(disk, order, now, days, rmFails);
      p in disk.files && (forall n :: n in r.removed ==> !Under(p, n)) ==>
        p in r.disk.files && r.disk.files[p] == disk.files[p]
    decreases |order|
  {
    if |order| > 0 && Expired(disk, order[0], now, days) && order[0] !in rmFails {
      var d := RemoveTree(disk, order[0]);
      var rest := SweepFrom(d, order[1..], now, days, rmFails);
      SweepKeepsFiles(d, order[1..], now, days, rmFails, p);
      var r := SweepFrom(disk, order, now, days, rmFails);
      assert r == Sweep(rest.disk, [order[0]] + rest.removed, rest.raised);
      if p in disk.files && (forall n :: n in r.removed ==> !Under(p, n)) {
        assert order[0] in r.removed;
        assert p in d.files && d.files[p] == disk.files[p];
        assert forall n :: n in rest.removed ==> n in r.removed;
      }
    } else if |order| > 0 && !Expired(disk, order[0], now, days) {
      SweepKeepsFiles(disk, order[1..], now, days, rmFails, p);
    }
  }

  /** A name is among the expired names exactly when it is listed and expired. */
  lemma {:induction false} InExpiredNames(disk: Disk, order: seq<string>, now: Instant, days: nat, name: string)
    requires ValidInstant(now)
    ensures name in ExpiredNames(disk, order, now, days) <==> name in order && Expired(disk, name, now, days)
    decreases |order|
  {
    if |order| > 0 {
      InExpiredNames(disk, order[1..], now, days, name);
      assert order == [order[0]] + order[1..];
    }
  }

  /** A path inside `dir` lies under no other folder whose name is free of '/'. */
  lemma UnderOwnOnly(dir: string, f: string, name: string)
    requires '/' !in dir && '/' !in name && Under(PathIn(dir, f), name)
    ensures name == dir
  {
    var p := PathIn(dir, f);
    assert p[|name|] == (name + "/")[|name|] == '/';
    assert p[|dir|] == '/';
    assert forall i :: 0 <= i < |dir| ==> p[i] == dir[i];
    assert forall i :: 0 <= i < |name| ==> p[i] == (name + "/")[i] == name[i];
  }

  /** The sweep leaves the files of a folder that is not expired as they were. */
  lemma KeptBySweep(disk: Disk, order: seq<string>, now: Instant, days: nat, rmFails: set<string>, dir: string, f: string)
    requires ValidInstant(now) && '/' !in dir && !Expired(disk, dir, now, days) && PathIn(dir, f) in disk.files
    ensures var r := SweepFrom(disk, order, now, days, rmFails);
      PathIn(dir, f) in r.disk.files && r.disk.files[PathIn(dir, f)] == disk.files[PathIn(dir, f)]
  {
    var r := SweepFrom(disk, order, now, days, rmFails);
    SweepRemovesExpiredOnly(disk, order, now, days, rmFails);
    SweepKeepsFiles(disk, order, now, days, rmFails, PathIn(dir, f));
    forall n | n in r.removed ensures !Under(PathIn(dir, f), n) {
      StrptimeChars(n);
      if Under(PathIn(dir, f), n) {
        UnderOwnOnly(dir, f, n);
      }
    }
  }

  /** Removing one folder does not change whether any other name is expired. */
  lemma ExpiredAfterRemove(disk: Disk, name: string, other: string, now: Instant, days: nat)
    requires ValidInstant(now) && name != other
    ensures Expired(RemoveTree(disk, name), other, now, days) == Expired(disk, other, now, days)
  {
  }

  lemma {:induction false} ExpiredNamesAfterRemove(disk: Disk, name: string, order: seq<string>, now: Instant, days: nat)
    requires ValidInstant(now) && name !in order
    ensures ExpiredNames(RemoveTree(disk, name), order, now, days) == ExpiredNames(disk, order, now, days)
    decreases |order|
  {
    if |order| > 0 {
      ExpiredAfterRemove(disk, name, order[0], now, days);
      ExpiredNamesAfterRemove(disk, name, order[1..], now, days);
    }
  }

  /** The sweep deletes the expired folders in listing order, stopping at the first whose
      deletion raises: when none raises it deletes exactly the expired ones. */
  lemma {:induction false} SweepDeletesExpired(disk: Disk, order: seq<string>, now: Instant, days: nat, rmFails: set<string>)
    requires ValidInstant(now) && Distinct(order)
    ensures var r := SweepFrom(disk, order, now, days, rmFails);
      var e := ExpiredNames(disk, order, now, days);
      && (!r.raised ==> r.removed == e && forall k :: 0 <= k < |e| ==> e[k] !in rmFails)
      && (r.raised ==> |r.removed| < |e| && r.removed == e[..|r.removed|] && e[|r.removed|] in rmFails)
    decreases |order|
  {
    if |order| > 0 {
      assert Distinct(order[1..]);
      if Expired(disk, order[0], now, days) && order[0] !in rmFails {
        assert order[0] !in order[1..];
        ExpiredNamesAfterRemove(disk, order[0], order[1..], now, days);
        SweepDeletesExpired(RemoveTree(disk, order[0]), order[1..], now, days, rmFails);
      } else if !Expired(disk, order[0], now, days) {
        SweepDeletesExpired(disk, order[1..], now, days, rmFails);
      }
    }
  }

  /** `cleanup_old_backups(days)`: computing `now - days` raises when it falls before year 1,
      which the outer handler swallows; otherwise the sweep. */
  function CleanupOldBackups(disk: Disk, order: seq<string>, now: Instant, days: nat, rmFails: set<string>): (r: Sweep)
    requires ValidInstant(now)
    ensures Ordinal(now.date) <= days ==> r == Sweep(disk, [], true)
    ensures Ordinal(now.date) > days ==> r == SweepFrom(disk, order, now, days, rmFails)
  {
    if Ordinal(now.date) <= days then Sweep(disk, [], true)
    else SweepFrom(disk, order, now, days, rmFails)
  }

  /** The retention rule in whole days: a date folder is expired when its date lies more than
      `days` days before today, or exactly `days` days before when the run is past midnight;
      in particular today's folder and the last `days` days survive. */
  lemma RetentionInDays(disk: Disk, d: Date, now: Instant, days: nat)
    requires ValidInstant(now) && Valid(d) && Format(d) in disk.dirs
    ensures Expired(disk, Format(d), now, days)
      <==> Ordinal(d) < Ordinal(now.date) - days || (Ordinal(d) == Ordinal(now.date) - days && now.micros > 0)
  {
    StrptimeFormat(d);
    OlderThanDays(d, now, days);
  }

  // The whole run.

  /** How `backup_airtable_data` ended: it returned a flag, an exception escaped it, or a view
      was still paging when the request budget ran out. */
  datatype Exit = Returned(ok: bool) | Escaped | Stalled

  datatype BackupRun = BackupRun(exit: Exit, disk: Disk, outcomes: seq<ViewOutcome>, meta: Option<Metadata>, cleanup: Option<Sweep>)

  /** `if not AIRTABLE_KEY`: absent or empty. */
  predicate HasKey(apiKey: Option<string>) {
    apiKey.Some? && |apiKey.value| > 0
  }

  /** What `os.listdir` returns for the backup directory: each entry once, and every folder
      that was there before the run among them. The two folders the run itself may create need
      not be listed: `latest` is never expired, and today's folder is not expired while
      `WithinRetention` holds. */
  predicate IsListing(disk: Disk, order: seq<string>) {
    Distinct(order) && forall n :: n in disk.dirs ==> n in order
  }

  /** Both copies of the metadata, the dated one and the one in `latest/`, hold `meta`. */
  predicate MetaFilesHold(d: Disk, date: string, meta: Metadata) {
    && PathIn(date, MetadataFile) in d.files && d.files[PathIn(date, MetadataFile)] == MetadataContent(meta)
    && PathIn(LatestDir, MetadataFile) in d.files && d.files[PathIn(LatestDir, MetadataFile)] == MetadataContent(meta)
  }

  /** Whether the sweep's clock reading lies fewer than `DaysToKeep` calendar days after the
      day the backup was dated: then the sweep cannot reach the folder the backup wrote. */
  predicate WithinRetention(now: Instant, sweepNow: Instant)
    requires ValidInstant(now) && ValidInstant(sweepNow)
  {
    Ordinal(sweepNow.date) < Ordinal(now.date) + DaysToKeep
  }

  /** The end of `backup_airtable_data`, after the views: the metadata goes to the dated
      folder and to `latest/` (the latter raises when `latest/` was never created), then the
      30-day sweep runs on a clock reading of its own, `sweepNow`, taken after the paging, and
      the result says whether every view was saved. The metadata counts the records and the
      views saved; both of its copies survive the sweep unless the run lasted a whole retention
      period; and the sweep deletes exactly the folders expired at `sweepNow` unless a deletion
      raises. */
  function FinishRun(before: Disk, steps: Steps, now: Instant, sweepNow: Instant, failing: set<string>, order: seq<string>, rmFails: set<string>): (r: BackupRun)
    requires ValidInstant(now) && ValidInstant(sweepNow)
    requires IsListing(before, order) && before.dirs + {Format(now.date)} <= steps.disk.dirs
    ensures r.outcomes == steps.outcomes
    ensures r.cleanup.None? || WithinRetention(now, sweepNow) ==> Format(now.date) in r.disk.dirs
    ensures r.exit != Stalled
    ensures r.meta.Some? <==> r.exit.Returned?
    ensures r.cleanup.Some? <==> r.meta.Some?
    ensures r.exit == Returned(true) <==> r.exit.Returned? && SavedCount(steps.outcomes) == |Views|
    ensures r.meta.Some? ==>
      r.meta.value == Metadata(Format(now.date), TotalRecords(steps.outcomes), SavedCount(steps.outcomes), |Views|)
    ensures r.meta.Some? && WithinRetention(now, sweepNow) ==> MetaFilesHold(r.disk, Format(now.date), r.meta.value)
    ensures r.cleanup.Some? && !r.cleanup.value.raised ==>
      forall n :: n in before.dirs ==> (n in r.disk.dirs <==> !Expired(before, n, sweepNow, DaysToKeep))
  {
    var date := Format(now.date);
    var meta := Metadata(date, TotalRecords(steps.outcomes), SavedCount(steps.outcomes), |Views|);
    var datedMeta := PathIn(date, MetadataFile);
    var latestMeta := PathIn(LatestDir, MetadataFile);
    if datedMeta in failing then BackupRun(Escaped, steps.disk, steps.outcomes, None, None)
    else
      var d1 := steps.disk.(files := steps.disk.files[datedMeta := MetadataContent(meta)]);
      if LatestDir !in d1.dirs || latestMeta in failing then BackupRun(Escaped, d1, steps.outcomes, None, None)
      else
        var d2 := d1.(files := d1.files[latestMeta := MetadataContent(meta)]);
        var swept := CleanupOldBackups(d2, order, sweepNow, DaysToKeep, rmFails);
        TodaySurvives(d2, order, now, sweepNow, rmFails);
        MetaSurvivesCleanup(d2, order, now, sweepNow, rmFails, meta);
        CleanupDeletesExpired(before, d2, order, sweepNow, rmFails);
        BackupRun(Returned(SavedCount(steps.outcomes) == |Views|), swept.disk, steps.outcomes, Some(meta), Some(swept))
  }

  /** `backup_airtable_data`: the dated folder is created before the key is checked; the views
      are backed up one by one, each with its own outcome; the run stalls exactly when some
      view would still be paging; otherwise it writes the metadata and sweeps (FinishRun).
      `now` is the reading that dates the backup, `sweepNow` the later one the sweep takes. */
  function BackupAirtableData(disk: Disk, apiKey: Option<string>, now: Instant, sweepNow: Instant, server: string -> Value -> Response,
                              fuel: nat, failing: set<string>, order: seq<string>, rmFails: set<string>): (r: BackupRun)
    requires ValidInstant(now) && ValidInstant(sweepNow) && IsListing(disk, order)
    ensures r.cleanup.None? || WithinRetention(now, sweepNow) ==> Format(now.date) in r.disk.dirs
    ensures !HasKey(apiKey) ==> r.exit == Returned(false) && r.outcomes == [] && r.disk.files == disk.files
    ensures r.exit == Returned(true) <==>
      HasKey(apiKey) && r.exit.Returned? && forall k :: 0 <= k < |r.outcomes| ==> r.outcomes[k].Saved?
    ensures forall k :: 0 <= k < |r.outcomes| ==> k < |Views| && r.outcomes[k] == ViewResult(Format(now.date), Views[k], server(Views[k].id), fuel, failing)
    ensures HasKey(apiKey) ==>
      (r.exit == Stalled <==> exists k :: 0 <= k < |Views| && ViewResult(Format(now.date), Views[k], server(Views[k].id), fuel, failing).Unfinished?)
    ensures HasKey(apiKey) && r.exit != Stalled ==> |r.outcomes| == |Views|
    ensures r.meta.Some? <==> HasKey(apiKey) && r.exit.Returned?
    ensures r.cleanup.Some? <==> r.meta.Some?
    ensures r.cleanup.Some? && !r.cleanup.value.raised ==>
      forall n :: n in disk.dirs ==> (n in r.disk.dirs <==> !Expired(disk, n, sweepNow, DaysToKeep))
    ensures r.meta.Some? ==>
      r.meta.value == Metadata(Format(now.date), TotalRecords(r.outcomes), SavedCount(r.outcomes), |Views|)
    ensures r.meta.Some? && WithinRetention(now, sweepNow) ==> MetaFilesHold(r.disk, Format(now.date), r.meta.value)
  {
    var date := Format(now.date);
    var d0 := disk.(dirs := disk.dirs + {date});
    if !HasKey(apiKey) then BackupRun(Returned(false), d0, [], None, None)
    else
      var steps := BackupViews(d0, date, Views, server, fuel, failing);
      StallsExactly(d0, date, Views, server, fuel, failing);
      if Stalls(steps.outcomes) then BackupRun(Stalled, steps.disk, steps.outcomes, None, None)
      else FinishRun(disk, steps, now, sweepNow, failing, order, rmFails)
  }

  /** The sweep deletes exactly the expired folders: unless a deletion raised, a folder that
      was listed is gone afterwards exactly when it was expired. */
  lemma CleanupDeletesExpired(before: Disk, d: Disk, order: seq<string>, now: Instant, rmFails: set<string>)
    requires ValidInstant(now) && IsListing(before, order) && before.dirs <= d.dirs
    ensures var sw := CleanupOldBackups(d, order, now, DaysToKeep, rmFails);
      !sw.raised ==> forall n :: n in before.dirs ==> (n in sw.disk.dirs <==> !Expired(before, n, now, DaysToKeep))
  {
    var sw := CleanupOldBackups(d, order, now, DaysToKeep, rmFails);
    if !sw.raised {
      SweepDeletesExpired(d, order, now, DaysToKeep, rmFails);
      forall n | n in before.dirs ensures n in sw.disk.dirs <==> !Expired(before, n, now, DaysToKeep) {
        InExpiredNames(d, order, now, DaysToKeep, n);
        assert Expired(d, n, now, DaysToKeep) == Expired(before, n, now, DaysToKeep);
      }
    }
  }

  /** The sweep keeps both metadata copies: `latest` is never expired, and the backup's own
      folder is not expired at any reading within the retention period. */
  lemma MetaSurvivesCleanup(d: Disk, order: seq<string>, now: Instant, sweepNow: Instant, rmFails: set<string>, meta: Metadata)
    requires ValidInstant(now) && ValidInstant(sweepNow)
    requires Format(now.date) in d.dirs && MetaFilesHold(d, Format(now.date), meta)
    ensures WithinRetention(now, sweepNow) ==> MetaFilesHold(CleanupOldBackups(d, order, sweepNow, DaysToKeep, rmFails).disk, Format(now.date), meta)
  {
    var date := Format(now.date);
    if WithinRetention(now, sweepNow) && Ordinal(sweepNow.date) > DaysToKeep {
      RetentionInDays(d, now.date, sweepNow, DaysToKeep);
      StrptimeFormat(now.date);
      StrptimeChars(date);
      KeptBySweep(d, order, sweepNow, DaysToKeep, rmFails, date, MetadataFile);
      KeptBySweep(d, order, sweepNow, DaysToKeep, rmFails, LatestDir, MetadataFile);
    }
  }

  /** The sweep that follows a backup, on a clock reading within the retention period of the
      backup's date, never deletes the folder the backup just wrote. */
  lemma TodaySurvives(disk: Disk, order: seq<string>, now: Instant, sweepNow: Instant, rmFails: set<string>)
    requires ValidInstant(now) && ValidInstant(sweepNow) && Format(now.date) in disk.dirs
    ensures WithinRetention(now, sweepNow) ==> Format(now.date) in CleanupOldBackups(disk, order, sweepNow, DaysToKeep, rmFails).disk.dirs
  {
    if WithinRetention(now, sweepNow) && Ordinal(sweepNow.date) > DaysToKeep {
      RetentionInDays(disk, now.date, sweepNow, DaysToKeep);
      NotExpiredNotRemoved(disk, order, sweepNow, DaysToKeep, rmFails, Format(now.date));
    }
  }

  /** A folder that is not expired is never deleted by the sweep. */
  lemma {:induction false} NotExpiredNotRemoved(disk: Disk, order: seq<string>, now: Instant, days: nat, rmFails: set<string>, name: string)
    requires ValidInstant(now) && !Expired(disk, name, now, days)
    ensures name !in SweepFrom(disk, order, now, days, rmFails).removed
    decreases |order|
  {
    if |order| > 0 {
      if Expired(disk, order[0], now, days) && order[0] !in rmFails {
        ExpiredAfterRemove(disk, order[0], name, now, days);
        NotExpiredNotRemoved(RemoveTree(disk, order[0]), order[1..], now, days, rmFails, name);
      } else if !Expired(disk, order[0], now, days) {
        NotExpiredNotRemoved(disk, order[1..], now, days, rmFails, name);
      }
    }
  }

  /** On a first run, when every view raises before its dated copy is written, `latest/` never
      comes into being and writing the latest metadata raises out of the run. */
  lemma FirstRunWithoutDataEscapes(disk: Disk, apiKey: Option<string>, now: Instant, sweepNow: Instant, server: string -> Value -> Response,
                                   fuel: nat, failing: set<string>, order: seq<string>, rmFails: set<string>)
    requires ValidInstant(now) && ValidInstant(sweepNow) && IsListing(disk, order) && HasKey(apiKey) && LatestDir !in disk.dirs
    requires forall k :: 0 <= k < |Views| ==> EndOf(Walk(server(Views[k].id), VNone, fuel)) == Exception
    ensures BackupAirtableData(disk, apiKey, now, sweepNow, server, fuel, failing, order, rmFails).exit == Escaped
  {
    var date := Format(now.date);
    var d0 := disk.(dirs := disk.dirs + {date});
    assert date[0] != 'l';
    var steps := BackupViews(d0, date, Views, server, fuel, failing);
    LatestCreated(d0, date, Views, server, fuel, failing);
    StallsExactly(d0, date, Views, server, fuel, failing);
    forall k | 0 <= k < |Views| ensures !ReachesLatest(date, Views[k], server(Views[k].id), fuel, failing)
      && ViewResult(date, Views[k], server(Views[k].id), fuel, failing) == Failed {
    }
    assert LatestDir !in steps.disk.dirs;
    assert !Stalls(steps.outcomes);
  }
}

=== FILE: crawler.dfy ===
/**
 The news crawler (real-estate-newsletter/src/crawler.py): the headline list of the Naver
 real-estate news page, the text of each article, and the request retry policy.

 Pages are not parsed here. A list page is given as what its CSS selectors match; an
 article page is given as the text of the element each content selector finds, plus
 the text of the whole page. `urljoin` is a parameter, and it may raise.
 */
module Crawler {
  import opened Wrappers
  import opened Text
  import opened Seqs
  import NewsConfig

  /** A news item: the `{'title', 'url', 'content'}` dictionary. */
  datatype News = News(title: string, url: string, content: string)

  /** An anchor matched by a list selector. It holds the text of its `.title` child when it
      has one, its own text (`get_text(strip=True)`), and its `href` when present. */
  datatype Anchor = Anchor(titleText: Option<string>, text: string, href: Option<string>)

  /** An anchor that carries an `href`, as the scan over all links of the page sees it. */
  datatype Link = Link(text: string, href: string)

  /** The list page. `selected` holds, for each of the six list selectors in order, the
      anchors that selector matches; `links` holds every anchor of the page with an `href`. */
  datatype Page = Page(selected: seq<seq<Anchor>>, links: seq<Link>)

  /** `urljoin(base, href)`, or `None` where it raises `ValueError`: `urlsplit` rejects a
      malformed bracketed host such as the one in "//[x". */
  type Joiner = (string, string) -> Option<string>

  /** A joiner that never raises. */
  ghost predicate NeverRaises(join: Joiner) {
    forall base, href :: join(base, href).Some?
  }

  const LandBase := "https://land.naver.com"
  const TitleCap := 80
  const Ellipsis := "..."

  // ---------------------------------------------------------------- the headline list

  /** The first line of a text: everything before its first newline. */
  function FirstLine(s: string): (line: string)
    ensures |line| <= |s| && line == s[..|line|]
    ensures '\n' !in line
    ensures |line| == |s| || s[|line|] == '\n'
  {
    SplitHead(s, '\n');
    Split(s, '\n')[0]
  }

  /** A list anchor's title. It is the `.title` text when there is one. Otherwise it is the
      first line of the anchor's text, and a line over 80 characters keeps its first 80
      characters plus "...". */
  function AnchorTitle(a: Anchor): (t: string)
    ensures a.titleText.Some? ==> t == a.titleText.value
    ensures a.titleText.None? && |FirstLine(a.text)| <= TitleCap ==> t == FirstLine(a.text)
    ensures a.titleText.None? && |FirstLine(a.text)| > TitleCap ==>
      |t| == TitleCap + |Ellipsis| && t[..TitleCap] == a.text[..TitleCap] && t[TitleCap..] == Ellipsis
    ensures a.titleText.None? ==> '\n' !in t && |t| <= TitleCap + |Ellipsis|
  {
    match a.titleText
    case Some(t) => t
    case None =>
      var line := FirstLine(a.text);
      if |line| > TitleCap then line[..TitleCap] + Ellipsis else line
  }

  /** A list anchor becomes an item when its title is longer than 10 characters and its
      `href` is present and not empty. */
  predicate Accepted(a: Anchor) {
    |AnchorTitle(a)| > 10 && a.href.Some? && a.href.value != ""
  }
  /** Where a link points: an absolute address, nowhere the crawler can place, or an
      exception raised by `urljoin`. */
  datatype Placed = At(url: string) | Unplaced | JoinRaised

  /** The absolute address of a link. A site-relative link that mentions news.naver.com gets
      "https:" in front. Any other site-relative link is joined to the land.naver.com root,
      which raises when `urljoin` does. A link starting with "http" is kept as it is. Any
      other link is left unplaced. */
  function Resolve(href: string, join: Joiner): (p: Placed)
    ensures p.Unplaced? <==> !StartsWith(href, "/") && !StartsWith(href, "http")
    ensures StartsWith(href, "http") ==> p == At(href)
    ensures StartsWith(href, "/") && Contains(href, "news.naver.com") ==> p == At("https:" + href)
    ensures StartsWith(href, "/") && !Contains(href, "news.naver.com") && join(LandBase, href).Some? ==>
      p == At(join(LandBase, href).value)
    ensures p.JoinRaised? <==>
      StartsWith(href, "/") && !Contains(href, "news.naver.com") && join(LandBase, href).None?
  {
    SlashIsNotHttp(href);
    if StartsWith(href, "/") then
      if Contains(href, "news.naver.com") then At("https:" + href)
      else
        match join(LandBase, href)
        case Some(u) => At(u)
        case None => JoinRaised
    else if StartsWith(href, "http") then At(href)
    else Unplaced
  }

  lemma SlashIsNotHttp(href: string)
    ensures !(StartsWith(href, "/") && StartsWith(href, "http"))
  {
    if StartsWith(href, "/") {
      assert href[0] == href[..1][0] == '/';
    }
  }

  /** An item of the headline list: a title longer than 10 characters and no content yet. */
  predicate Listed(n: News) {
    |n.title| > 10 && n.content == ""
  }

  /** What one pass of a collecting loop's body does: append an item, go on without one, or
      raise. */
  datatype Take = Append(item: News) | Skip | Raise

  /** The loop body applied to each element of a list. */
  function Takes<A>(xs: seq<A>, f: A -> Take): (ts: seq<Take>)
    ensures |ts| == |xs| && forall k :: 0 <= k < |xs| ==> ts[k] == f(xs[k])
  {
    seq(|xs|, k requires 0 <= k < |xs| => f(xs[k]))
  }

  function AppendedItem(t: Take): Option<News> {
    if t.Append? then Some(t.item) else None
  }

  /** The items a run of loop bodies appends, in order. */
  function Taken(ts: seq<Take>): (items: seq<News>)
    ensures |items| <= |ts|
    ensures forall k :: 0 <= k < |items| ==> Append(items[k]) in ts
  {
    AppendedItemsFrom(ts);
    FilterMap(ts, AppendedItem)
  }

  lemma AppendedItemsFrom(ts: seq<Take>)
    ensures forall k :: 0 <= k < |FilterMap(ts, AppendedItem)| ==> Append(FilterMap(ts, AppendedItem)[k]) in ts
  {
    var items := FilterMap(ts, AppendedItem);
    forall k | 0 <= k < |items| ensures Append(items[k]) in ts {
      var j :| 0 <= j < |ts| && AppendedItem(ts[j]) == Some(items[k]);
      assert ts[j] == Append(items[k]);
    }
  }

  /** Whatever holds of every item the body makes of an element holds of every item
      appended before the first exception. */
  lemma TakenHolds<A>(xs: seq<A>, f: A -> Take, P: News -> bool)
    requires forall j :: 0 <= j < |xs| && f(xs[j]).Append? ==> P(f(xs[j]).item)
    ensures var ts := Takes(xs, f);
      forall k :: 0 <= k < |Taken(ts[..FirstRaise(ts)])| ==> P(Taken(ts[..FirstRaise(ts)])[k])
  {
    var ts := Takes(xs, f);
    var items := Taken(ts[..FirstRaise(ts)]);
    forall k | 0 <= k < |items| ensures P(items[k]) {
      var j :| 0 <= j < |ts[..FirstRaise(ts)]| && ts[..FirstRaise(ts)][j] == Append(items[k]);
      assert f(xs[j]) == Append(items[k]);
    }
  }

  /** The position of the first body that raises, or the number of bodies when none does. */
  function FirstRaise(ts: seq<Take>): (i: nat)
    ensures i <= |ts|
    ensures forall k :: 0 <= k < i ==> !ts[k].Raise?
    ensures i < |ts| ==> ts[i].Raise?
    decreases |ts|
  {
    if |ts| == 0 || ts[0].Raise? then 0
    else
      var i := FirstRaise(ts[1..]);
      assert forall k :: 1 <= k < i + 1 ==> ts[k] == ts[1..][k - 1];
      i + 1
  }

  /** One body that does not raise, in front of the rest: its item, if any, comes first. */
  lemma TakenStep(ts: seq<Take>)
    requires |ts| > 0 && !ts[0].Raise?
    ensures FirstRaise(ts) == FirstRaise(ts[1..]) + 1
    ensures Taken(ts[..FirstRaise(ts)])
      == (if ts[0].Append? then [ts[0].item] else []) + Taken(ts[1..][..FirstRaise(ts[1..])])
  {
    var pre := ts[..FirstRaise(ts)];
    assert pre[0] == ts[0];
    assert pre[1..] == ts[1..][..FirstRaise(ts[1..])];
  }

  /** What a loop over one list leaves behind when an exception may end it early: the items
      appended before the exception, and whether one was raised. */
  datatype Harvest = Harvest(items: seq<News>, raised: bool)

  /** The loop body run over the list in order, stopping at the first exception. */
  function RunTakes(ts: seq<Take>): (h: Harvest)
    ensures h.raised <==> FirstRaise(ts) < |ts|
    ensures h.items == Taken(ts[..FirstRaise(ts)])
    decreases |ts|
  {
    if |ts| == 0 then Harvest([], false)
    else
      match ts[0]
      case Raise => Harvest([], true)
      case Skip =>
        TakenStep(ts);
        RunTakes(ts[1..])
      case Append(n) =>
        TakenStep(ts);
        var rest := RunTakes(ts[1..]);
        Harvest([n] + rest.items, rest.raised)
  }

  /** The loop that appends and then stops once `cap` items are collected. An exception
      raised before that point leaves the function, so nothing is returned. */
  function ScanTakes(ts: seq<Take>, cap: nat): (r: Option<seq<News>>)
    requires cap > 0
    ensures var got := Taken(ts[..FirstRaise(ts)]);
      && (r.None? <==> FirstRaise(ts) < |ts| && |got| < cap)
      && (r.Some? ==> r.value == Prefix(got, cap))
    decreases |ts|
  {
    if |ts| == 0 then Some([])
    else
      match ts[0]
      case Raise => None
      case Skip =>
        TakenStep(ts);
        ScanTakes(ts[1..], cap)
      case Append(n) =>
        TakenStep(ts);
        if cap == 1 then Some([n])
        else
          var rest := ScanTakes(ts[1..], cap - 1);
          var got := Taken(ts[1..][..FirstRaise(ts[1..])]);
          assert Prefix([n] + got, cap) == [n] + Prefix(got, cap - 1);
          if rest.None? then None else Some([n] + rest.value)
  }

  /** What the selector loop makes of one anchor. An anchor that is not accepted is passed
      over. An accepted one becomes an item at its resolved address; a relative link that
      `Resolve` leaves unplaced is joined to the news page's address. Either join may raise. */
  function ListItem(join: Joiner): (f: Anchor -> Take)
    ensures forall a :: f(a).Skip? <==> !Accepted(a)
    ensures forall a :: f(a).Append? ==> Listed(f(a).item) && f(a).item.title == AnchorTitle(a)
    ensures forall a :: f(a).Raise? ==>
      a.href.Some? && (Resolve(a.href.value, join).JoinRaised? ||
                       (Resolve(a.href.value, join).Unplaced? && join(NewsConfig.NaverNewsUrl, a.href.value).None?))
  {
    (a: Anchor) =>
      if !Accepted(a) then Skip
      else
        match Resolve(a.href.value, join)
        case At(u) => Append(News(AnchorTitle(a), u, ""))
        case Unplaced =>
          (match join(NewsConfig.NaverNewsUrl, a.href.value)
           case Some(u) => Append(News(AnchorTitle(a), u, ""))
           case None => Raise)
        case JoinRaised => Raise
  }

  /** The loop over one selector's first `limit` matches. It appends the accepted anchors
      until one of them raises. */
  function SelectorYield(anchors: seq<Anchor>, limit: nat, join: Joiner): (y: Harvest)
    ensures |y.items| <= limit
    ensures forall k :: 0 <= k < |y.items| ==> Listed(y.items[k])
    ensures y.raised <==> exists k :: 0 <= k < |anchors| && k < limit && ListItem(join)(anchors[k]).Raise?
    ensures NeverRaises(join) ==> !y.raised
    ensures anchors == [] ==> y == Harvest([], false)
  {
    SelectorYieldFacts(anchors, limit, join);
    RunTakes(Takes(Prefix(anchors, limit), ListItem(join)))
  }

  lemma SelectorYieldFacts(anchors: seq<Anchor>, limit: nat, join: Joiner)
    ensures var y := RunTakes(Takes(Prefix(anchors, limit), ListItem(join)));
      && (forall k :: 0 <= k < |y.items| ==> Listed(y.items[k]))
      && (y.raised <==> exists k :: 0 <= k < |anchors| && k < limit && ListItem(join)(anchors[k]).Raise?)
  {
    var p := Prefix(anchors, limit);
    var ts := Takes(p, ListItem(join));
    TakenHolds(p, ListItem(join), Listed);
    if FirstRaise(ts) < |ts| {
      var i := FirstRaise(ts);
      assert p[i] == anchors[i] && ListItem(join)(anchors[i]).Raise?;
    } else {
      assert forall k :: 0 <= k < |anchors| && k < limit ==> p[k] == anchors[k] && ts[k] == ListItem(join)(anchors[k]);
    }
  }

  /** The selector loop from the selectors still to try, with the items `acc` collected so
      far. A selector that matches nothing is passed over. A selector that raises keeps the
      items it appended, and the loop goes on to the next selector. A selector that finishes
      ends the loop when anything has been collected by then. */
  function SelectorLoop(selected: seq<seq<Anchor>>, limit: nat, join: Joiner, acc: seq<News>): (items: seq<News>)
    ensures acc <= items
    ensures forall k :: |acc| <= k < |items| ==> Listed(items[k])
    decreases |selected|
  {
    if |selected| == 0 then acc
    else if |selected[0]| == 0 then SelectorLoop(selected[1..], limit, join, acc)
    else
      var y := SelectorYield(selected[0], limit, join);
      var acc' := acc + y.items;
      if !y.raised && acc' != [] then acc'
      else
        var items := SelectorLoop(selected[1..], limit, join, acc');
        assert forall k :: |acc| <= k < |acc'| ==> acc'[k] == y.items[k - |acc|];
        items
  }

  /** From an empty start, the loop collects nothing exactly when no selector yields
      anything, and when no selector raises it collects at most `limit` items. */
  lemma SelectorLoopFromEmpty(selected: seq<seq<Anchor>>, limit: nat, join: Joiner)
    ensures var items := SelectorLoop(selected, limit, join, []);
      && (items == [] <==> forall k :: 0 <= k < |selected| ==> SelectorYield(selected[k], limit, join).items == [])
      && ((forall k :: 0 <= k < |selected| ==> !SelectorYield(selected[k], limit, join).raised) ==> |items| <= limit)
  {
    SelectorLoopEmpty(selected, limit, join);
    if forall k :: 0 <= k < |selected| ==> !SelectorYield(selected[k], limit, join).raised {
      SelectorLoopBound(selected, limit, join);
    }
  }

  lemma {:induction false} SelectorLoopEmpty(selected: seq<seq<Anchor>>, limit: nat, join: Joiner)
    ensures SelectorLoop(selected, limit, join, []) == [] <==>
      forall k :: 0 <= k < |selected| ==> SelectorYield(selected[k], limit, join).items == []
    decreases |selected|
  {
    if |selected| > 0 {
      SelectorLoopEmpty(selected[1..], limit, join);
      SelectorLoopStep(selected, limit, join);
      assert forall k :: 1 <= k < |selected| ==> selected[k] == selected[1..][k - 1];
    }
  }

  lemma {:induction false} SelectorLoopBound(selected: seq<seq<Anchor>>, limit: nat, join: Joiner)
    requires forall k :: 0 <= k < |selected| ==> !SelectorYield(selected[k], limit, join).raised
    ensures |SelectorLoop(selected, limit, join, [])| <= limit
    decreases |selected|
  {
    if |selected| > 0 {
      assert forall k :: 1 <= k < |selected| ==> selected[k] == selected[1..][k - 1];
      SelectorLoopBound(selected[1..], limit, join);
      SelectorLoopStep(selected, limit, join);
    }
  }

  /** One turn of the loop from no items: a first selector that appends nothing is as if it
      were not there, and one that appends something starts the result, which is exactly its
      items when it finishes. */
  lemma SelectorLoopStep(selected: seq<seq<Anchor>>, limit: nat, join: Joiner)
    requires |selected| > 0
    ensures var y := SelectorYield(selected[0], limit, join);
      && (y.items == [] ==> SelectorLoop(selected, limit, join, []) == SelectorLoop(selected[1..], limit, join, []))
      && (y.items != [] ==> y.items <= SelectorLoop(selected, limit, join, []))
      && (y.items != [] && !y.raised ==> SelectorLoop(selected, limit, join, []) == y.items)
  {
    var y := SelectorYield(selected[0], limit, join);
    assert [] + y.items == y.items;
  }

  /** The selector loop: the six selectors in order, from no items. */
  function SelectorPass(selected: seq<seq<Anchor>>, limit: nat, join: Joiner): (items: seq<News>)
    ensures forall k :: 0 <= k < |items| ==> Listed(items[k])
    ensures items == [] <==> forall k :: 0 <= k < |selected| ==> SelectorYield(selected[k], limit, join).items == []
    ensures (forall k :: 0 <= k < |selected| ==> !SelectorYield(selected[k], limit, join).raised) ==> |items| <= limit
  {
    SelectorLoopFromEmpty(selected, limit, join);
    SelectorLoop(selected, limit, join, [])
  }

  /** Selectors that yield nothing leave the loop as it was. */
  lemma {:induction false} SelectorLoopSkips(selected: seq<seq<Anchor>>, limit: nat, join: Joiner, k: nat)
    requires k <= |selected|
    requires forall j :: 0 <= j < k ==> SelectorYield(selected[j], limit, join).items == []
    ensures SelectorLoop(selected, limit, join, []) == SelectorLoop(selected[k..], limit, join, [])
    decreases k
  {
    if k > 0 {
      assert forall j :: 0 <= j < k - 1 ==> selected[1..][j] == selected[j + 1];
      SelectorLoopSkips(selected[1..], limit, join, k - 1);
      assert selected[1..][k - 1..] == selected[k..];
    }
  }

  /** The first selector to yield items decides the start of the list. When it finishes, its
      items are the whole result. When it raises, its items stay and the loop goes on to the
      selectors after it with them. */
  lemma SelectorPassPicksFirst(selected: seq<seq<Anchor>>, limit: nat, join: Joiner, k: nat)
    requires k < |selected| && SelectorYield(selected[k], limit, join).items != []
    requires forall j :: 0 <= j < k ==> SelectorYield(selected[j], limit, join).items == []
    ensures var y := SelectorYield(selected[k], limit, join);
      && y.items <= SelectorPass(selected, limit, join)
      && (!y.raised ==> SelectorPass(selected, limit, join) == y.items)
      && (y.raised ==> SelectorPass(selected, limit, join) == SelectorLoop(selected[k + 1..], limit, join, y.items))
  {
    SelectorLoopSkips(selected, limit, join, k);
    var rest := selected[k..];
    var y := SelectorYield(selected[k], limit, join);
    assert rest[0] == selected[k] && rest[1..] == selected[k + 1..];
    assert |rest[0]| > 0;
    assert [] + y.items == y.items;
    assert SelectorLoop(rest, limit, join, [])
      == if !y.raised then y.items else SelectorLoop(selected[k + 1..], limit, join, y.items);
  }

  /** Items carry over: when the first selector with items raises and the next selector
      finishes, the list is the first one's items followed by the next one's. */
  lemma SelectorPassCarriesPartial(selected: seq<seq<Anchor>>, limit: nat, join: Joiner, k: nat)
    requires k + 1 < |selected| && SelectorYield(selected[k], limit, join).items != []
    requires forall j :: 0 <= j < k ==> SelectorYield(selected[j], limit, join).items == []
    requires SelectorYield(selected[k], limit, join).raised
    requires selected[k + 1] != [] && !SelectorYield(selected[k + 1], limit, join).raised
    ensures SelectorPass(selected, limit, join)
      == SelectorYield(selected[k], limit, join).items + SelectorYield(selected[k + 1], limit, join).items
  {
    SelectorPassPicksFirst(selected, limit, join, k);
    var rest := selected[k + 1..];
    assert rest[0] == selected[k + 1];
  }

  /** A link the scan over all links takes. Its address mentions "/news/" or news.naver.com,
      and its text is 11 to 99 characters long. */
  predicate NewsLink(l: Link) {
    (Contains(l.href, "/news/") || Contains(l.href, "news.naver.com")) && 10 < |l.text| < 100
  }

  /** What the scan over all links makes of one link. A link `Resolve` cannot place is
      passed over, and one whose join raises raises. */
  function LinkItem(join: Joiner): (f: Link -> Take)
    ensures forall l :: f(l).Append? <==> NewsLink(l) && Resolve(l.href, join).At?
    ensures forall l :: f(l).Raise? <==> NewsLink(l) && Resolve(l.href, join).JoinRaised?
    ensures forall l :: f(l).Append? ==> Listed(f(l).item) && |f(l).item.title| < 100
  {
    (l: Link) =>
      if !NewsLink(l) then Skip
      else
        match Resolve(l.href, join)
        case At(u) => Append(News(l.text, u, ""))
        case Unplaced => Skip
        case JoinRaised => Raise
  }

  /** The scan's stopping count: the test `len(news_items) >= limit` comes after an append,
      so a limit of 0 lets one item through. */
  function ScanCap(limit: nat): (cap: nat)
    ensures cap > 0 && (limit > 0 ==> cap == limit)
  {
    if limit == 0 then 1 else limit
  }

  /** The scan over all links, used when no selector yields anything. It stops once `limit`
      items are collected. A join that raises before then ends the whole list with `None`. */
  function LinkScan(links: seq<Link>, limit: nat, join: Joiner): (r: Option<seq<News>>)
    ensures var ts := Takes(links, LinkItem(join));
      var got := Taken(ts[..FirstRaise(ts)]);
      && (r.None? <==> FirstRaise(ts) < |ts| && |got| < ScanCap(limit))
      && (r.Some? ==> r.value == Prefix(got, ScanCap(limit)))
    ensures r.Some? ==> forall k :: 0 <= k < |r.value| ==> Listed(r.value[k]) && |r.value[k].title| < 100
    ensures NeverRaises(join) ==> r == Some(Prefix(Taken(Takes(links, LinkItem(join))), ScanCap(limit)))
  {
    LinkScanFacts(links, join);
    ScanTakes(Takes(links, LinkItem(join)), ScanCap(limit))
  }

  lemma LinkScanFacts(links: seq<Link>, join: Joiner)
    ensures var ts := Takes(links, LinkItem(join));
      && (forall k :: 0 <= k < |Taken(ts[..FirstRaise(ts)])| ==>
            Listed(Taken(ts[..FirstRaise(ts)])[k]) && |Taken(ts[..FirstRaise(ts)])[k].title| < 100)
      && (NeverRaises(join) ==> ts[..FirstRaise(ts)] == ts)
  {
    var ts := Takes(links, LinkItem(join));
    TakenHolds(links, LinkItem(join), (n: News) => Listed(n) && |n.title| < 100);
  }

  /** The titles of a list of items. */
  function Titles(items: seq<News>): set<string> {
    set k | 0 <= k < |items| :: items[k].title
  }

  /** Dropping repeated titles, keeping the first item with each title. `seen` holds the titles
      already taken. */
  function Dedupe(items: seq<News>, seen: set<string>): (r: seq<News>)
    ensures |r| <= |items|
    ensures forall k :: 0 <= k < |r| ==> r[k] in items && r[k].title !in seen
    ensures forall i, j :: 0 <= i < j < |r| ==> r[i].title != r[j].title
    ensures forall k :: 0 <= k < |items| ==> items[k].title in seen || items[k].title in Titles(r)
    decreases |items|
  {
    if |items| == 0 then []
    else if items[0].title in seen then Dedupe(items[1..], seen)
    else
      var rest := Dedupe(items[1..], seen + {items[0].title});
      assert forall k :: 0 <= k < |rest| ==> rest[k].title != items[0].title;
      TitlesCons(items[0], rest);
      [items[0]] + rest
  }

  lemma TitlesCons(x: News, items: seq<News>)
    ensures Titles([x] + items) == {x.title} + Titles(items)
  {
    forall t | t in Titles([x] + items) ensures t in {x.title} + Titles(items) {
      var k :| 0 <= k < |[x] + items| && ([x] + items)[k].title == t;
      if k > 0 {
        assert ([x] + items)[k] == items[k - 1];
      }
    }
    forall t | t in Titles(items) ensures t in Titles([x] + items) {
      var k :| 0 <= k < |items| && items[k].title == t;
      assert ([x] + items)[k + 1] == items[k];
    }
    assert ([x] + items)[0] == x;
  }

  /** Deduplication runs item by item: the result for `a + b` is the result for `a` followed by
      the items of `b` whose titles neither `seen` nor `a` already holds, first ones first. */
  lemma {:induction false} DedupeAppend(a: seq<News>, b: seq<News>, seen: set<string>)
    ensures Dedupe(a + b, seen) == Dedupe(a, seen) + Dedupe(b, seen + Titles(a))
    decreases |a|
  {
    if |a| == 0 {
      assert a + b == b;
      assert Titles(a) == {};
      assert seen + Titles(a) == seen;
    } else {
      var x := a[0];
      assert a == [x] + a[1..];
      assert (a + b)[0] == x;
      assert (a + b)[1..] == a[1..] + b;
      TitlesCons(x, a[1..]);
      if x.title in seen {
        DedupeAppend(a[1..], b, seen);
        assert seen + Titles(a[1..]) == seen + Titles(a);
      } else {
        DedupeAppend(a[1..], b, seen + {x.title});
        assert seen + {x.title} + Titles(a[1..]) == seen + Titles(a);
      }
    }
  }

  /** `get_top_news_list(limit)`. `page` is the fetched list page, or `None` when no page
      content could be had. The result is the selector items, or else the link-scan items,
      without repeated titles, cut to `limit`; a join that raises during the link scan
      reaches the outer handler, which returns `[]`. */
  function TopNewsList(page: Option<Page>, limit: nat, join: Joiner): (r: seq<News>)
    ensures page.None? ==> r == []
    ensures |r| <= limit
    ensures forall k :: 0 <= k < |r| ==> Listed(r[k])
    ensures forall i, j :: 0 <= i < j < |r| ==> r[i].title != r[j].title
  {
    match page
    case None => []
    case Some(p) =>
      var found := SelectorPass(p.selected, limit, join);
      if found != [] then DedupedPrefix(found, limit); Prefix(Dedupe(found, {}), limit)
      else
        match LinkScan(p.links, limit, join)
        case None => []
        case Some(items) => DedupedPrefix(items, limit); Prefix(Dedupe(items, {}), limit)
  }

  /** The first `limit` deduplicated items of a list of listed items are listed items with
      no title twice. */
  lemma DedupedPrefix(items: seq<News>, limit: nat)
    requires forall k :: 0 <= k < |items| ==> Listed(items[k])
    ensures var r := Prefix(Dedupe(items, {}), limit);
      && |r| <= limit
      && (forall k :: 0 <= k < |r| ==> Listed(r[k]))
      && (forall i, j :: 0 <= i < j < |r| ==> r[i].title != r[j].title)
  {
    var d := Dedupe(items, {});
    var r := Prefix(d, limit);
    forall k | 0 <= k < |r| ensures Listed(r[k]) {
      assert r[k] == d[k];
      assert d[k] in items;
    }
  }

  /** When selector `k` is the first to yield items and finishes, the list is made of that
      selector's items alone. When it raises, its items start the list and the selectors after
      it add theirs. */
  lemma TopNewsFromSelector(p: Page, limit: nat, join: Joiner, k: nat)
    requires k < |p.selected| && SelectorYield(p.selected[k], limit, join).items != []
    requires forall j :: 0 <= j < k ==> SelectorYield(p.selected[j], limit, join).items == []
    ensures var y := SelectorYield(p.selected[k], limit, join);
      && (!y.raised ==> TopNewsList(Some(p), limit, join) == Dedupe(y.items, {}))
      && (y.raised ==> TopNewsList(Some(p), limit, join)
                       == Prefix(Dedupe(SelectorLoop(p.selected[k + 1..], limit, join, y.items), {}), limit))
  {
    SelectorPassPicksFirst(p.selected, limit, join, k);
  }

  /** When no selector yields, the list comes from the link scan: `[]` when a join raised
      first, and otherwise the first `limit` news links (one when `limit` is 0),
      deduplicated, cut to `limit`. */
  lemma TopNewsFromLinks(p: Page, limit: nat, join: Joiner)
    requires forall j :: 0 <= j < |p.selected| ==> SelectorYield(p.selected[j], limit, join).items == []
    ensures LinkScan(p.links, limit, join).None? ==> TopNewsList(Some(p), limit, join) == []
    ensures NeverRaises(join) ==>
      (TopNewsList(Some(p), limit, join)
       == Prefix(Dedupe(Prefix(Taken(Takes(p.links, LinkItem(join))), ScanCap(limit)), {}), limit))
  {
  }
  // ---------------------------------------------------------------- one article

  /** An article page. `found` holds, for each of the sixteen content selectors in order, the
      text of the element it finds (if any). `allText` is the text of the whole page. */
  datatype Article = Article(found: seq<Option<string>>, allText: string)

  /** A selector text is "meaningful" when it is longer than this. */
  const Meaningful := 100
  const ParagraphMin := 30
  const ParagraphMax := 500
  const MaxParagraphs := 10
  const ContentCap := 2000
  const MinContent := 50
  const SkipWords: seq<string> := ["로그인", "회원가입", "댓글", "광고", "구독", "팔로우"]

  /** The content-selector loop. Each element found replaces the text so far, and the loop
      stops at the first text longer than 100 characters. */
  function SelectorText(found: seq<Option<string>>, content: string): (c: string)
    ensures c == content || Some(c) in found
    decreases |found|
  {
    if |found| == 0 then content
    else
      match found[0]
      case None => SelectorText(found[1..], content)
      case Some(t) => if |t| > Meaningful then t else SelectorText(found[1..], t)
  }

  /** The loop returns the first text longer than 100 characters. */
  lemma {:induction false} SelectorTextFirstLong(found: seq<Option<string>>, content: string, k: nat)
    requires k < |found| && found[k].Some? && |found[k].value| > Meaningful
    requires forall j :: 0 <= j < k ==> found[j].None? || |found[j].value| <= Meaningful
    ensures SelectorText(found, content) == found[k].value
    decreases k
  {
    if k > 0 {
      var next := if found[0].Some? then found[0].value else content;
      SelectorTextFirstLong(found[1..], next, k - 1);
    }
  }

  /** A stripped line of the page becomes a candidate paragraph when it is longer than 30. */
  function ParagraphOf(line: string): (p: Option<string>)
    ensures p.Some? ==> p.value == Strip(line) && |p.value| > ParagraphMin
  {
    var s := Strip(line);
    if |s| > ParagraphMin then Some(s) else None
  }

  /** A paragraph that looks like article text: 31 to 499 characters and no skip word. */
  predicate GoodParagraph(p: string) {
    ParagraphMin < |p| < ParagraphMax && !ContainsAny(p, SkipWords)
  }

  function KeepGood(p: string): (r: Option<string>)
    ensures r.Some? <==> GoodParagraph(p)
    ensures r.Some? ==> r.value == p
  {
    if GoodParagraph(p) then Some(p) else None
  }

  /** The paragraphs kept from a page's text: the good ones among its long stripped lines,
      the loop stopping at ten. */
  function KeptParagraphs(text: string): (kept: seq<string>)
    ensures kept == Prefix(FilterMap(FilterMap(Split(text, '\n'), ParagraphOf), KeepGood), MaxParagraphs)
  {
    UpToIsPrefix(FilterMap(Split(text, '\n'), ParagraphOf), KeepGood, MaxParagraphs);
    FilterMapUpTo(FilterMap(Split(text, '\n'), ParagraphOf), KeepGood, MaxParagraphs)
  }

  /** Every line, stripped. */
  function Stripped(lines: seq<string>): (r: seq<string>)
    ensures |r| == |lines|
    ensures forall j :: 0 <= j < |lines| ==> r[j] == Strip(lines[j])
  {
    seq(|lines|, j requires 0 <= j < |lines| => Strip(lines[j]))
  }

  /** `p` is one of the stripped lines, with no newline in it. */
  predicate FromLines(p: string, lines: seq<string>) {
    p in Stripped(lines) && '\n' !in p
  }

  /** Each candidate paragraph is a stripped line, and holds no newline when no line does. */
  lemma CandidatesAreLines(lines: seq<string>)
    requires forall j :: 0 <= j < |lines| ==> '\n' !in lines[j]
    ensures var ps := FilterMap(lines, ParagraphOf);
      forall i :: 0 <= i < |ps| ==> FromLines(ps[i], lines)
  {
    var ps := FilterMap(lines, ParagraphOf);
    forall i | 0 <= i < |ps| ensures FromLines(ps[i], lines) {
      assert Produced(ps[i], lines, ParagraphOf);
      var j :| 0 <= j < |lines| && ParagraphOf(lines[j]) == Some(ps[i]);
      StripLacks(lines[j], '\n');
      assert Stripped(lines)[j] == ps[i];
    }
  }

  /** Each kept paragraph is a good paragraph, the stripped form of one line of the page. */
  lemma KeptParagraphsAreLines(text: string)
    ensures var kept := KeptParagraphs(text);
      && |kept| <= MaxParagraphs
      && forall k :: 0 <= k < |kept| ==> GoodParagraph(kept[k]) && FromLines(kept[k], Split(text, '\n'))
  {
    var lines := Split(text, '\n');
    SplitPiecesLackSep(text, '\n');
    KeptAreGood(lines);
    var kept := KeptParagraphs(text);
    assert kept == Prefix(FilterMap(FilterMap(lines, ParagraphOf), KeepGood), MaxParagraphs);
  }

  lemma KeptAreGood(lines: seq<string>)
    requires forall j :: 0 <= j < |lines| ==> '\n' !in lines[j]
    ensures var kept := Prefix(FilterMap(FilterMap(lines, ParagraphOf), KeepGood), MaxParagraphs);
      forall k :: 0 <= k < |kept| ==> GoodParagraph(kept[k]) && FromLines(kept[k], lines)
  {
    CandidatesAreLines(lines);
    GoodKeptFromLines(FilterMap(lines, ParagraphOf), lines);
  }

  /** Keeping the good candidates keeps what the candidates share. */
  lemma GoodKeptFromLines(ps: seq<string>, lines: seq<string>)
    requires forall i :: 0 <= i < |ps| ==> FromLines(ps[i], lines)
    ensures var kept := Prefix(FilterMap(ps, KeepGood), MaxParagraphs);
      forall k :: 0 <= k < |kept| ==> GoodParagraph(kept[k]) && FromLines(kept[k], lines)
  {
    var good := FilterMap(ps, KeepGood);
    var kept := Prefix(good, MaxParagraphs);
    GoodAreCandidates(ps);
    forall k | 0 <= k < |kept| ensures GoodParagraph(kept[k]) && FromLines(kept[k], lines) {
      assert kept[k] == good[k];
      var i :| 0 <= i < |ps| && ps[i] == good[k];
    }
  }

  /** The good paragraphs are candidates that pass the test. */
  lemma GoodAreCandidates(ps: seq<string>)
    ensures var good := FilterMap(ps, KeepGood);
      forall k :: 0 <= k < |good| ==> GoodParagraph(good[k]) && good[k] in ps
  {
    var good := FilterMap(ps, KeepGood);
    forall k | 0 <= k < |good| ensures GoodParagraph(good[k]) && good[k] in ps {
      assert Produced(good[k], ps, KeepGood);
      var i :| 0 <= i < |ps| && KeepGood(ps[i]) == Some(good[k]);
    }
  }

  /** The text made of the kept paragraphs, one per line. */
  function ParagraphText(text: string): string {
    Join(KeptParagraphs(text), "\n")
  }

  /** The paragraph text reads back into the same paragraphs: splitting it on newlines gives
      the kept paragraphs again. */
  lemma ParagraphTextRoundTrip(text: string)
    requires KeptParagraphs(text) != []
    ensures Split(ParagraphText(text), '\n') == KeptParagraphs(text)
  {
    KeptParagraphsAreLines(text);
    SplitJoin(KeptParagraphs(text), '\n');
  }

  /** A text over 2000 characters keeps its first 2000 plus "...". */
  function Clip(c: string): (r: string)
    ensures |c| <= ContentCap ==> r == c
    ensures |c| > ContentCap ==> |r| == ContentCap + |Ellipsis| && r[..ContentCap] == c[..ContentCap] && r[ContentCap..] == Ellipsis
  {
    if |c| > ContentCap then c[..ContentCap] + Ellipsis else c
  }

  /** `get_news_content(url)`. `article` is the fetched page, or `None` when the request
      failed. A text of 100 characters or fewer found by the selectors gives way to the
      paragraph text only when it is shorter than 100. The result is returned only when it
      is longer than 50 characters. */
  function NewsContent(article: Option<Article>): (r: Option<string>)
    ensures article.None? ==> r.None?
    ensures r.Some? ==> MinContent < |r.value| <= ContentCap + |Ellipsis|
  {
    match article
    case None => None
    case Some(a) =>
      var picked := SelectorText(a.found, "");
      var content := Clip(if |picked| < Meaningful then ParagraphText(a.allText) else picked);
      if |content| > MinContent then Some(content) else None
  }

  /** When selector `k` is the first to find a text longer than 100 characters, the article is
      that text, clipped to 2000 characters. */
  lemma NewsContentFromSelector(a: Article, k: nat)
    requires k < |a.found| && a.found[k].Some? && |a.found[k].value| > Meaningful
    requires forall j :: 0 <= j < k ==> a.found[j].None? || |a.found[j].value| <= Meaningful
    ensures NewsContent(Some(a)) == Some(Clip(a.found[k].value))
  {
    SelectorTextFirstLong(a.found, "", k);
  }

  /** When no selector finds anything, the article is the paragraph text, if that is long
      enough. */
  lemma NewsContentFromParagraphs(a: Article)
    requires forall j :: 0 <= j < |a.found| ==> a.found[j].None?
    ensures NewsContent(Some(a)) == var c := Clip(ParagraphText(a.allText)); if |c| > MinContent then Some(c) else None
  {
    assert Some(SelectorText(a.found, "")) !in a.found;
  }

  /** The content used when an article could not be read. */
  function Placeholder(title: string): string {
    "제목: " + title + "\n\n상세 내용을 확인하려면 링크를 방문하세요."
  }

  /** The loop of `get_complete_news_data`. `fetch(url)` is the article page at `url`, or
      `None` when the request failed. Each item gets its article text, or else the
      placeholder built from its title. Title and address stay as they were. */
  function FillContents(list: seq<News>, fetch: string -> Option<Article>): (r: seq<News>)
    ensures |r| == |list|
    ensures forall k :: 0 <= k < |r| ==> r[k].title == list[k].title && r[k].url == list[k].url && r[k].content != ""
    ensures forall k :: 0 <= k < |r| ==>
      r[k].content == (if NewsContent(fetch(list[k].url)).Some? then NewsContent(fetch(list[k].url)).value
                       else Placeholder(list[k].title))
  {
    seq(|list|, k requires 0 <= k < |list| => Filled(list[k], fetch))
  }

  /** One item of the loop: its article text, or else the placeholder. */
  function Filled(n: News, fetch: string -> Option<Article>): (m: News)
    ensures m.title == n.title && m.url == n.url && m.content != ""
    ensures m.content == if NewsContent(fetch(n.url)).Some? then NewsContent(fetch(n.url)).value else Placeholder(n.title)
  {
    News(n.title, n.url, NewsContent(fetch(n.url)).GetOr(Placeholder(n.title)))
  }

  /** `get_complete_news_data(limit)`: the headline list, each item with a non-empty content,
      at most `limit` items, no title twice. */
  function CompleteNewsData(page: Option<Page>, limit: nat, join: Joiner, fetch: string -> Option<Article>): (r: seq<News>)
    ensures |r| <= limit
    ensures page.None? ==> r == []
    ensures forall k :: 0 <= k < |r| ==> |r[k].title| > 10 && r[k].content != ""
    ensures forall i, j :: 0 <= i < j < |r| ==> r[i].title != r[j].title
  {
    FillContents(TopNewsList(page, limit, join), fetch)
  }

  // ---------------------------------------------------------------- requests

  /** How a request went: the attempt that succeeded (counted from 0), if any, and the
      seconds slept before each retry. */
  datatype Requested = Requested(success: Option<nat>, waits: seq<nat>)

  function Pow2(k: nat): (p: nat)
    ensures p >= 1
  {
    if k == 0 then 1 else 2 * Pow2(k - 1)
  }

  function Sum(xs: seq<nat>): nat {
    if |xs| == 0 then 0 else xs[0] + Sum(xs[1..])
  }

  /** `_make_request(url, retries)`. `ok(k)` says whether attempt `k` gets a good response.
      A failed attempt is retried after sleeping 2^k seconds while fewer than `MAX_RETRIES`
      retries have been made. */
  function MakeRequest(ok: nat -> bool, retries: nat): (r: Requested)
    ensures forall k :: 0 <= k < |r.waits| ==> r.waits[k] == Pow2(retries + k)
    ensures |r.waits| == 0 || retries + |r.waits| <= NewsConfig.MaxRetries
    ensures r.success.Some? ==> r.success.value == retries + |r.waits| && ok(r.success.value)
    ensures forall j :: retries <= j < retries + |r.waits| ==> !ok(j)
    ensures r.success.None? ==> !ok(retries + |r.waits|) && retries + |r.waits| >= NewsConfig.MaxRetries
    decreases if retries < NewsConfig.MaxRetries then NewsConfig.MaxRetries - retries else 0
  {
    if ok(retries) then Requested(Some(retries), [])
    else if retries < NewsConfig.MaxRetries then
      var rest := MakeRequest(ok, retries + 1);
      Requested(rest.success, [Pow2(retries)] + rest.waits)
    else Requested(None, [])
  }

  /** The waits double: together they come to 2^(retries + n) - 2^retries seconds. */
  lemma {:induction false} WaitsSum(w: seq<nat>, retries: nat)
    requires forall k :: 0 <= k < |w| ==> w[k] == Pow2(retries + k)
    ensures Sum(w) == Pow2(retries + |w|) - Pow2(retries)
    decreases |w|
  {
    if |w| > 0 {
      WaitsSum(w[1..], retries + 1);
    }
  }

  /** From a first call: at most four attempts, at most 1 + 2 + 4 seconds of waiting, and
      failure exactly when all four attempts fail. */
  lemma RequestBudget(ok: nat -> bool)
    ensures var r := MakeRequest(ok, 0);
      && |r.waits| <= 3 && Sum(r.waits) <= 7
      && (r.success.None? <==> !ok(0) && !ok(1) && !ok(2) && !ok(3))
  {
    var r := MakeRequest(ok, 0);
    WaitsSum(r.waits, 0);
    assert Pow2(3) == 8;
  }
}

=== FILE: dates.dfy ===
/**
 Calendar dates as the backup scripts use them: folder names written with
 `strftime('%Y-%m-%d')`, read back with `strptime(name, '%Y-%m-%d')`, compared as
 naive datetimes, and sorted as strings.

 `Strptime` follows the pattern Python compiles for that format: four digits for the
 year; `1[0-2]|0[1-9]|[1-9]` for the month; `3[01]|[12]\d|0[1-9]|[1-9]| [1-9]` for the
 day, the first alternative that matches winning; then no unconverted text may remain
 and the date must exist. Digits are ASCII digits.
 */
module Dates {
  import opened Wrappers
  import opened Text

  datatype Date = Date(year: int, month: int, day: int)

  predicate IsLeap(y: int) {
    y % 4 == 0 && (y % 100 != 0 || y % 400 == 0)
  }

  function DaysInMonth(y: int, m: int): int {
    if m == 2 then (if IsLeap(y) then 29 else 28)
    else if m == 4 || m == 6 || m == 9 || m == 11 then 30
    else 31
  }

  function YearLength(y: int): int {
    if IsLeap(y) then 366 else 365
  }

  /** The dates `datetime(year, month, day)` accepts. */
  predicate Valid(d: Date) {
    1 <= d.year <= 9999 && 1 <= d.month <= 12 && 1 <= d.day <= DaysInMonth(d.year, d.month)
  }

  /** Chronological order of dates. */
  predicate Before(a: Date, b: Date) {
    || a.year < b.year
    || (a.year == b.year && a.month < b.month)
    || (a.year == b.year && a.month == b.month && a.day < b.day)
  }

  function DaysBeforeYear(y: int): nat
    requires y >= 1
    decreases y
  {
    if y == 1 then 0 else DaysBeforeYear(y - 1) + YearLength(y - 1)
  }

  function DaysBeforeMonth(y: int, m: int): nat
    requires 1 <= m <= 13
    decreases m
  {
    if m == 1 then 0 else DaysBeforeMonth(y, m - 1) + DaysInMonth(y, m - 1)
  }

  /** The proleptic Gregorian day number `date.toordinal()`: 0001-01-01 is day 1. */
  function Ordinal(d: Date): (n: int)
    requires Valid(d)
    ensures n >= 1
  {
    DaysBeforeYear(d.year) + DaysBeforeMonth(d.year, d.month) + d.day
  }

  lemma {:induction false} MonthsAddUp(y: int, m: int, m': int)
    requires 1 <= m < m' <= 13
    ensures DaysBeforeMonth(y, m) + DaysInMonth(y, m) <= DaysBeforeMonth(y, m')
    decreases m'
  {
    if m' > m + 1 {
      MonthsAddUp(y, m, m' - 1);
    }
  }

  /** The twelve months add up to the year. */
  lemma MonthsFillYear(y: int)
    ensures DaysBeforeMonth(y, 13) == YearLength(y)
  {
    assert DaysBeforeMonth(y, 2) == 31;
    assert DaysBeforeMonth(y, 4) == DaysBeforeMonth(y, 3) + 31;
    assert DaysBeforeMonth(y, 6) == DaysBeforeMonth(y, 5) + 31;
    assert DaysBeforeMonth(y, 8) == DaysBeforeMonth(y, 7) + 31;
    assert DaysBeforeMonth(y, 10) == DaysBeforeMonth(y, 9) + 30;
    assert DaysBeforeMonth(y, 12) == DaysBeforeMonth(y, 11) + 30;
  }

  lemma {:induction false} YearsAddUp(y: int, y': int)
    requires 1 <= y < y'
    ensures DaysBeforeYear(y) + YearLength(y) <= DaysBeforeYear(y')
    decreases y'
  {
    if y' > y + 1 {
      YearsAddUp(y, y' - 1);
    }
  }

  lemma OrdinalMonotone(a: Date, b: Date)
    requires Valid(a) && Valid(b) && Before(a, b)
    ensures Ordinal(a) < Ordinal(b)
  {
    if a.year < b.year {
      MonthsAddUp(a.year, a.month, 13);
      MonthsFillYear(a.year);
      YearsAddUp(a.year, b.year);
    } else if a.month < b.month {
      MonthsAddUp(a.year, a.month, b.month);
    }
  }

  /** Day numbers order valid dates chronologically and tell them apart. */
  lemma OrdinalOrder(a: Date, b: Date)
    requires Valid(a) && Valid(b)
    ensures Before(a, b) <==> Ordinal(a) < Ordinal(b)
    ensures a == b <==> Ordinal(a) == Ordinal(b)
  {
    if Before(a, b) {
      OrdinalMonotone(a, b);
    } else if Before(b, a) {
      OrdinalMonotone(b, a);
    }
  }

  /** Microseconds in a day: naive datetimes are compared at that resolution. */
  const DayMicros: int := 86_400_000_000

  /** A naive `datetime`: a date and the microseconds elapsed since its midnight. */
  datatype Instant = Instant(date: Date, micros: int)

  predicate ValidInstant(t: Instant) {
    Valid(t.date) && 0 <= t.micros < DayMicros
  }

  /** The instant as microseconds since the start of day 0 (comparisons use only differences). */
  function Micros(t: Instant): int
    requires ValidInstant(t)
  {
    Ordinal(t.date) * DayMicros + t.micros
  }

  /** `date < now - timedelta(days=n)` for a midnight `date`, in whole days: strictly more than
      `n` days back, or exactly `n` days back when `now` is past midnight. */
  lemma OlderThanDays(d: Date, now: Instant, n: nat)
    requires Valid(d) && ValidInstant(now)
    ensures Ordinal(d) * DayMicros < Micros(now) - n * DayMicros
      <==> (Ordinal(d) < Ordinal(now.date) - n || (Ordinal(d) == Ordinal(now.date) - n && now.micros > 0))
  {
    var k := Ordinal(now.date) - n - Ordinal(d);
    assert Micros(now) - n * DayMicros - Ordinal(d) * DayMicros == k * DayMicros + now.micros;
    if k >= 1 {
      assert k * DayMicros >= DayMicros;
    } else if k <= -1 {
      assert k * DayMicros <= -DayMicros;
    }
  }

  // Decimal text.

  function DigitChar(n: int): (c: char)
    requires 0 <= n <= 9
    ensures IsDigit(c) && c as int - '0' as int == n
  {
    ('0' as int + n) as char
  }

  function DigitOf(c: char): int {
    c as int - '0' as int
  }

  function Pow10(w: nat): (p: nat)
    ensures p >= 1
  {
    if w == 0 then 1 else 10 * Pow10(w - 1)
  }

  /** `n` written with exactly `w` digits, zero-padded (`%04d`, `%02d`). */
  function Pad(n: nat, w: nat): (s: string)
    ensures |s| == w
    ensures forall i :: 0 <= i < |s| ==> IsDigit(s[i])
  {
    if w == 0 then "" else Pad(n / 10, w - 1) + [DigitChar(n % 10)]
  }

  /** Reading a padded number back gives the number, when it fits the width. */
  lemma {:induction false} PadValue(n: nat, w: nat)
    requires n < Pow10(w)
    ensures DigitsValue(Pad(n, w)) == n
  {
    if w > 0 {
      var s := Pad(n, w);
      assert s[..|s| - 1] == Pad(n / 10, w - 1);
      PadValue(n / 10, w - 1);
    }
  }

  /** Padded numbers of one width sort as strings exactly as they sort as numbers. */
  lemma {:induction false} PadOrder(a: nat, b: nat, w: nat)
    requires a < Pow10(w) && b < Pow10(w)
    ensures LexLess(Pad(a, w), Pad(b, w)) <==> a < b
    ensures Pad(a, w) == Pad(b, w) <==> a == b
  {
    PadValue(a, w);
    PadValue(b, w);
    if w > 0 {
      PadOrder(a / 10, b / 10, w - 1);
      LexLessConcat(Pad(a / 10, w - 1), [DigitChar(a % 10)], Pad(b / 10, w - 1), [DigitChar(b % 10)]);
      assert LexLess([DigitChar(a % 10)], [DigitChar(b % 10)]) <==> a % 10 < b % 10;
    }
  }

  /** `strftime('%Y-%m-%d')`. */
  function Format(d: Date): (s: string)
    requires Valid(d)
    ensures |s| == 10 && s[4] == '-' && s[7] == '-'
  {
    Pad(d.year, 4) + "-" + Pad(d.month, 2) + "-" + Pad(d.day, 2)
  }

  /** Canonical folder names sort as strings exactly as their dates sort in time. */
  lemma FormatOrder(a: Date, b: Date)
    requires Valid(a) && Valid(b)
    ensures LexLess(Format(a), Format(b)) <==> Before(a, b)
    ensures Format(a) == Format(b) <==> a == b
  {
    PadOrder(a.year, b.year, 4);
    PadOrder(a.month, b.month, 2);
    PadOrder(a.day, b.day, 2);
    var ya, yb := Pad(a.year, 4) + "-", Pad(b.year, 4) + "-";
    var ma, mb := Pad(a.month, 2) + "-", Pad(b.month, 2) + "-";
    var da, db := Pad(a.day, 2), Pad(b.day, 2);
    assert Format(a) == ya + (ma + da) && Format(b) == yb + (mb + db);
    LexLessConcat(ya, ma + da, yb, mb + db);
    LexLessConcat(Pad(a.year, 4), "-", Pad(b.year, 4), "-");
    LexLessIrreflexive("-");
    LexLessConcat(ma, da, mb, db);
    LexLessConcat(Pad(a.month, 2), "-", Pad(b.month, 2), "-");
    assert ya == yb <==> Pad(a.year, 4) == Pad(b.year, 4) by {
      if ya == yb { assert ya[..4] == Pad(a.year, 4) && yb[..4] == Pad(b.year, 4); }
    }
    assert ma == mb <==> Pad(a.month, 2) == Pad(b.month, 2) by {
      if ma == mb { assert ma[..2] == Pad(a.month, 2) && mb[..2] == Pad(b.month, 2); }
    }
    assert Format(a) == Format(b) <==> ya == yb && ma + da == mb + db by {
      if Format(a) == Format(b) {
        assert ya == Format(a)[..5] && yb == Format(b)[..5];
        assert ma + da == Format(a)[5..] && mb + db == Format(b)[5..];
      }
    }
    assert ma + da == mb + db <==> ma == mb && da == db by {
      if ma + da == mb + db {
        assert ma == (ma + da)[..3] && mb == (mb + db)[..3];
        assert da == (ma + da)[3..] && db == (mb + db)[3..];
      }
    }
  }

  /** One regular-expression alternative that matched: the value read and where it ended. */
  datatype Piece = Piece(value: int, end: nat)

  /** The month group `1[0-2]|0[1-9]|[1-9]` at position `p`. */
  function MatchMonth(s: string, p: nat): (r: Option<Piece>)
    ensures r.Some? ==> 1 <= r.value.value <= 12 && p < r.value.end <= |s|
  {
    if p + 1 < |s| && s[p] == '1' && '0' <= s[p + 1] <= '2' then Some(Piece(10 + DigitOf(s[p + 1]), p + 2))
    else if p + 1 < |s| && s[p] == '0' && '1' <= s[p + 1] <= '9' then Some(Piece(DigitOf(s[p + 1]), p + 2))
    else if p < |s| && '1' <= s[p] <= '9' then Some(Piece(DigitOf(s[p]), p + 1))
    else None
  }

  /** The day group `3[01]|[12]\d|0[1-9]|[1-9]| [1-9]` at position `p`. */
  function MatchDay(s: string, p: nat): (r: Option<Piece>)
    ensures r.Some? ==> 1 <= r.value.value <= 31 && p < r.value.end <= |s|
  {
    if p + 1 < |s| && s[p] == '3' && '0' <= s[p + 1] <= '1' then Some(Piece(30 + DigitOf(s[p + 1]), p + 2))
    else if p + 1 < |s| && '1' <= s[p] <= '2' && IsDigit(s[p + 1]) then Some(Piece(10 * DigitOf(s[p]) + DigitOf(s[p + 1]), p + 2))
    else if p + 1 < |s| && s[p] == '0' && '1' <= s[p + 1] <= '9' then Some(Piece(DigitOf(s[p + 1]), p + 2))
    else if p < |s| && '1' <= s[p] <= '9' then Some(Piece(DigitOf(s[p]), p + 1))
    else if p + 1 < |s| && s[p] == ' ' && '1' <= s[p + 1] <= '9' then Some(Piece(DigitOf(s[p + 1]), p + 2))
    else None
  }

  /** `datetime.strptime(s, '%Y-%m-%d')`: the date, or `None` where it raises `ValueError`. */
  function Strptime(s: string): (r: Option<Date>)
    ensures r.Some? ==> Valid(r.value)
  {
    if |s| < 5 || !IsDigits(s[..4]) || s[4] != '-' then None
    else match MatchMonth(s, 5)
      case None => None
      case Some(m) =>
        if m.end >= |s| || s[m.end] != '-' then None
        else match MatchDay(s, m.end + 1)
          case None => None
          case Some(d) =>
            var date := Date(DigitsValue(s[..4]), m.value, d.value);
            if d.end == |s| && Valid(date) then Some(date) else None
  }

  lemma PadTwo(n: nat)
    requires n < 100
    ensures Pad(n, 2) == [DigitChar(n / 10), DigitChar(n % 10)]
  {
    var q := n / 10;
    assert n == 10 * q + n % 10;
    assert q < 10 && q % 10 == q && q / 10 == 0;
    assert Pad(q, 1) == Pad(0, 0) + [DigitChar(q)];
  }

  /** A name that `strptime` accepts is made of digits, dashes and the day's padding space:
      in particular it holds no path separator. */
  lemma StrptimeChars(s: string)
    requires Strptime(s).Some?
    ensures forall i :: 0 <= i < |s| ==> IsDigit(s[i]) || s[i] == '-' || s[i] == ' '
    ensures '/' !in s
  {
    var m := MatchMonth(s, 5).value;
    var d := MatchDay(s, m.end + 1).value;
    forall i | 0 <= i < |s| ensures IsDigit(s[i]) || s[i] == '-' || s[i] == ' ' {
      if i < 4 {
        assert s[..4][i] == s[i];
      }
    }
  }

  /** Every date that `strftime` writes, `strptime` reads back. */
  lemma StrptimeFormat(d: Date)
    requires Valid(d)
    ensures Strptime(Format(d)) == Some(d)
  {
    var s := Format(d);
    PadValue(d.year, 4);
    PadTwo(d.month);
    PadTwo(d.day);
    assert s[..4] == Pad(d.year, 4);
    assert s[5..7] == Pad(d.month, 2);
    assert s[8..] == Pad(d.day, 2);
    assert MatchMonth(s, 5) == Some(Piece(d.month, 7));
    assert MatchDay(s, 8) == Some(Piece(d.day, 10));
  }

  /** The space-padded day that `strptime` also accepts: "2024-03- 5". */
  function SpacedDay(d: Date): (s: string)
    requires Valid(d) && d.day < 10
    ensures |s| == 10 && s[8] == ' '
  {
    Format(d)[..8] + [' ', DigitChar(d.day)]
  }

  lemma StrptimeSpacedDay(d: Date)
    requires Valid(d) && d.day < 10
    ensures Strptime(SpacedDay(d)) == Some(d)
  {
    var s := SpacedDay(d);
    PadValue(d.year, 4);
    PadTwo(d.month);
    assert s[..4] == Format(d)[..4] == Pad(d.year, 4);
    assert s[5..7] == Format(d)[5..7] == Pad(d.month, 2);
    assert MatchMonth(s, 5) == Some(Piece(d.month, 7));
    assert MatchDay(s, 8) == Some(Piece(d.day, 10));
  }

  /** Conversely, a ten-character name that `strptime` accepts is the canonical spelling of
      its date or the space-padded one. */
  lemma StrptimeTenChars(s: string)
    requires |s| == 10 && Strptime(s).Some?
    ensures var d := Strptime(s).value;
      s == Format(d) || (d.day < 10 && s == SpacedDay(d))
  {
    var d := Strptime(s).value;
    var m := MatchMonth(s, 5).value;
    var e := MatchDay(s, m.end + 1).value;
    assert m.end == 7 && e.end == 10;
    assert d == Date(DigitsValue(s[..4]), m.value, e.value);
    PadDigits(s[..4]);
    MonthSpelling(s, 5);
    DaySpelling(s, 8);
    TenChars(s);
    if s[8] == ' ' {
      assert Format(d)[..8] == Pad(d.year, 4) + "-" + Pad(d.month, 2) + "-";
    }
  }

  /** A two-character month match is the zero-padded month. */
  lemma MonthSpelling(s: string, p: nat)
    requires MatchMonth(s, p).Some? && MatchMonth(s, p).value.end == p + 2
    ensures s[p..p + 2] == Pad(MatchMonth(s, p).value.value, 2)
  {
    PadTwo(MatchMonth(s, p).value.value);
  }

  /** A two-character day match is the zero-padded day or a space and one digit. */
  lemma DaySpelling(s: string, p: nat)
    requires MatchDay(s, p).Some? && MatchDay(s, p).value.end == p + 2
    ensures var v := MatchDay(s, p).value.value;
      || (s[p] == ' ' && v < 10 && s[p + 1] == DigitChar(v))
      || (s[p] != ' ' && s[p..p + 2] == Pad(v, 2))
  {
    PadTwo(MatchDay(s, p).value.value);
  }

  lemma TenChars(s: string)
    requires |s| == 10
    ensures s == s[..4] + [s[4]] + s[5..7] + [s[7]] + s[8..]
    ensures s == s[..8] + [s[8], s[9]]
  {
  }

  /** A digit string is the padding of its own value. */
  lemma {:induction false} PadDigits(x: string)
    requires forall i :: 0 <= i < |x| ==> IsDigit(x[i])
    ensures DigitsValue(x) < Pow10(|x|)
    ensures Pad(DigitsValue(x), |x|) == x
    decreases |x|
  {
    if |x| > 0 {
      var init := x[..|x| - 1];
      PadDigits(init);
      var n := DigitsValue(x);
      assert n / 10 == DigitsValue(init) && n % 10 == DigitOf(x[|x| - 1]);
      assert x == init + [x[|x| - 1]];
    }
  }
}

=== FILE: envfile.dfy ===
/**
 The `.env` rewrite of the token manager (token_manager.py, `update_env_file`): the
 access-token line is replaced (or appended), then the update-time comment is replaced
 (or appended).

 `re.sub(MARKER + '.*', line, text)` with a marker that holds no newline: `.` does not
 match a newline, so every match lies inside one line, and once a match has run to the
 end of its line the scan resumes on the next one. Each line is therefore rewritten
 from its first marker on, and the other lines are kept: that is `SubLines`.
 */
module EnvFile {
  import opened Wrappers
  import opened Text

  const TokenMarker := "THREADS_ACCESS_TOKEN="
  const StampMarker := "# THREADS_TOKEN_UPDATED="

  // ---------------------------------------------------------------- occurrences

  /** `m` ends with a character it holds nowhere else, so no proper prefix of `m` is also
      a suffix of it and two occurrences of `m` never overlap. */
  predicate UniqueLast(m: string) {
    m != "" && m[|m| - 1] !in m[..|m| - 1]
  }

  lemma MarkersUniqueLast()
    ensures UniqueLast(TokenMarker) && UniqueLast(StampMarker)
  {
    assert TokenMarker[..|TokenMarker| - 1] == "THREADS_ACCESS_TOKEN";
    assert StampMarker[..|StampMarker| - 1] == "# THREADS_TOKEN_UPDATED";
  }

  /** The token marker holds no '#'. */
  lemma TokenMarkerHasNoHash()
    ensures '#' !in TokenMarker
  {
    assert forall i :: 0 <= i < |TokenMarker| ==> TokenMarker[i] != '#';
  }

  /** Nothing occurs before position `i`. */
  predicate NoneBefore(s: string, m: string, i: nat) {
    forall j: nat :: j < i ==> !OccursAt(s, m, j)
  }

  /** An occurrence inside a prefix is an occurrence in the whole text. */
  lemma OccursInPrefix(s: string, m: string, n: nat, j: nat)
    requires n <= |s| && OccursAt(s[..n], m, j)
    ensures OccursAt(s, m, j)
  {
    assert s[..n][j..j + |m|] == s[j..j + |m|];
  }

  /** A text that holds `a + b` holds `a`. */
  lemma ContainsPrefixOf(s: string, a: string, b: string)
    requires Contains(s, a + b)
    ensures Contains(s, a)
  {
    var j: nat :| j <= |s| && OccursAt(s, a + b, j);
    assert s[j..j + |a|] == (a + b)[..|a|];
    assert OccursAt(s, a, j);
  }

  /** A text without the character `c` does not hold a marker containing `c`. */
  lemma LacksChar(s: string, m: string, c: char, at: nat)
    requires at < |m| && m[at] == c && c !in s
    ensures !Contains(s, m)
  {
    forall j: nat | j <= |s| ensures !OccursAt(s, m, j) {
      if j + |m| <= |s| {
        assert s[j..j + |m|][at] == s[j + at];
      }
    }
  }

  // ---------------------------------------------------------------- one line

  /** One line rewritten from its first marker on; a line without the marker is kept. */
  function SubLine(line: string, marker: string, repl: string): (r: string)
    requires marker != ""
    ensures !Contains(line, marker) ==> r == line
    ensures Contains(line, marker) ==>
      && |repl| <= |r| && OccursAt(line, marker, |r| - |repl|)
      && r == line[..|r| - |repl|] + repl
      && NoneBefore(line, marker, |r| - |repl|)
  {
    IndexOfDecidesContains(line, marker);
    IndexOfFinds(line, marker);
    match IndexOf(line, marker)
    case None => line
    case Some(i) => line[..i] + repl
  }

  /** A rewritten line holds its new content right where the old marker stood. */
  lemma SubLineHolds(line: string, marker: string, value: string)
    requires marker != "" && Contains(line, marker)
    ensures var r := SubLine(line, marker, marker + value);
      OccursAt(r, marker + value, |r| - |marker + value|) && Contains(r, marker + value)
  {
    var r := SubLine(line, marker, marker + value);
    assert r[|r| - |marker + value|..] == marker + value;
    assert OccursAt(r, marker + value, |r| - |marker + value|);
  }

  /** Rewriting a rewritten line changes nothing: the first marker is still the one
      written (nothing before it, and no occurrence overlaps it because the marker's last
      character appears only there). */
  lemma SubLineIdempotent(line: string, marker: string, value: string)
    requires UniqueLast(marker) && Contains(line, marker)
    ensures var r := SubLine(line, marker, marker + value);
      SubLine(r, marker, marker + value) == r
  {
    var repl := marker + value;
    var r := SubLine(line, marker, repl);
    var i := |r| - |repl|;
    var n := |marker|;
    assert r == line[..i] + repl;
    assert OccursAt(r, marker, i) by { assert r[i..i + n] == repl[..n]; }
    forall j: nat | j < i ensures !OccursAt(r, marker, j) {
      if j + n <= i {
        assert r[j..j + n] == line[j..j + n];
        assert !OccursAt(line, marker, j);
      } else {
        NoOverlap(r, marker, i, j);
      }
    }
    IndexOfDecidesContains(r, marker);
    assert NoneBefore(r, marker, i);
    var r' := SubLine(r, marker, repl);
    var i' := |r'| - |repl|;
    assert i' <= i && i <= i';
  }

  /** An occurrence at `j` would end inside the one at `i`, at a character other than the
      marker's last one. */
  lemma NoOverlap(s: string, marker: string, i: nat, j: nat)
    requires UniqueLast(marker) && OccursAt(s, marker, i)
    requires j < i < j + |marker|
    ensures !OccursAt(s, marker, j)
  {
    var n := |marker|;
    var e := j + n - 1;
    assert s[e] == s[i..i + n][e - i];
    assert marker[..n - 1][e - i] == marker[e - i];
    assert s[j..j + n][n - 1] == s[e];
  }

  /** Every line rewritten from its first marker on. */
  function MapLines(lines: seq<string>, marker: string, repl: string): (r: seq<string>)
    requires marker != ""
    ensures |r| == |lines|
    ensures forall k :: 0 <= k < |lines| ==> r[k] == SubLine(lines[k], marker, repl)
  {
    seq(|lines|, k requires 0 <= k < |lines| => SubLine(lines[k], marker, repl))
  }

  // ---------------------------------------------------------------- lines of a text

  /** Some line holds `m`. */
  predicate SomeLineHas(lines: seq<string>, m: string) {
    exists k :: 0 <= k < |lines| && Contains(lines[k], m)
  }

  /** An occurrence in `a + sep + b` lies in `a` or in `b` when `m` cannot hold the
      one-character separator; and what `a` or `b` holds, `a + sep + b` holds. */
  lemma ContainsAcrossBreak(a: string, sep: char, b: string, m: string)
    requires sep !in m
    ensures Contains(a + [sep] + b, m) <==> Contains(a, m) || Contains(b, m)
  {
    if Contains(a + [sep] + b, m) {
      OccurrenceSides(a, sep, b, m);
    }
    if Contains(a, m) || Contains(b, m) {
      ContainsInJoin([a, b], [sep], if Contains(a, m) then 0 else 1, m);
      assert Join([a, b], [sep]) == a + [sep] + b by {
        assert [a, b][1..] == [b];
      }
    }
  }

  /** An occurrence in `a + sep + b` of a marker without `sep` lies on one side. */
  lemma OccurrenceSides(a: string, sep: char, b: string, m: string)
    requires sep !in m && Contains(a + [sep] + b, m)
    ensures Contains(a, m) || Contains(b, m)
  {
    var s := a + [sep] + b;
    forall j: nat | j <= |a| < j + |m| && j + |m| <= |s| ensures !OccursAt(s, m, j) {
      assert s[j..j + |m|][|a| - j] == sep;
    }
    var j: nat :| j <= |s| && OccursAt(s, m, j);
    if j + |m| <= |a| {
      assert s[j..j + |m|] == a[j..j + |m|];
      assert OccursAt(a, m, j);
    } else if j > |a| {
      assert s[j..j + |m|] == b[j - |a| - 1..j - |a| - 1 + |m|];
      assert OccursAt(b, m, j - |a| - 1);
    }
  }

  /** A marker without a newline occurs in the lines joined by newlines exactly when
      it occurs in one of the lines. */
  lemma {:induction false} ContainsJoin(lines: seq<string>, m: string)
    requires m != "" && '\n' !in m
    ensures Contains(Join(lines, "\n"), m) <==> SomeLineHas(lines, m)
    decreases |lines|
  {
    if |lines| == 0 {
      assert !OccursAt("", m, 0);
    } else if |lines| == 1 {
      assert Join(lines, "\n") == lines[0];
    } else {
      var rest := lines[1..];
      ContainsJoin(rest, m);
      ContainsAcrossBreak(lines[0], '\n', Join(rest, "\n"), m);
      assert Join(lines, "\n") == lines[0] + ['\n'] + Join(rest, "\n");
      if SomeLineHas(rest, m) {
        var k :| 0 <= k < |rest| && Contains(rest[k], m);
        assert lines[k + 1] == rest[k];
      }
      if SomeLineHas(lines, m) && !Contains(lines[0], m) {
        var k :| 0 <= k < |lines| && Contains(lines[k], m);
        assert rest[k - 1] == lines[k];
      }
    }
  }

  // ---------------------------------------------------------------- replace or append

  /** `re.sub(marker + '.*', line, s)`: every line rewritten from its first marker on. */
  function SubLines(s: string, marker: string, line: string): string
    requires marker != ""
  {
    Join(MapLines(Split(s, '\n'), marker, line), "\n")
  }

  /** One pass of `update_env_file`: when `re.search` finds the marker, every line holding
      it is rewritten to `marker + value` from the marker on; otherwise the line
      `marker + value` is appended between newlines. */
  function ReplaceOrAppend(s: string, marker: string, value: string): string
    requires marker != ""
  {
    if Contains(s, marker) then SubLines(s, marker, marker + value)
    else s + "\n" + (marker + value) + "\n"
  }

  /** The same pass on the list of lines. */
  function ReplaceOrAppendLines(lines: seq<string>, marker: string, value: string): seq<string>
    requires marker != ""
  {
    if SomeLineHas(lines, marker) then MapLines(lines, marker, marker + value)
    else lines + [marker + value, ""]
  }

  /** The lines of the rewritten text are the rewritten lines of the text. */
  lemma ReplaceOrAppendByLines(s: string, marker: string, value: string)
    requires marker != "" && '\n' !in marker + value
    ensures Split(ReplaceOrAppend(s, marker, value), '\n') == ReplaceOrAppendLines(Split(s, '\n'), marker, value)
  {
    var lines := Split(s, '\n');
    assert Contains(s, marker) <==> SomeLineHas(lines, marker) by {
      JoinSplit(s, '\n');
      assert "\n" == ['\n'];
      ContainsJoin(lines, marker);
    }
    if Contains(s, marker) {
      ReplacedLines(s, marker, marker + value);
    } else {
      AppendedLines(s, marker + value);
    }
  }

  /** Rewritten lines are still lines, so splitting their join gives them back. */
  lemma ReplacedLines(s: string, marker: string, line: string)
    requires marker != "" && '\n' !in line
    ensures Split(SubLines(s, marker, line), '\n') == MapLines(Split(s, '\n'), marker, line)
  {
    var lines := Split(s, '\n');
    var mapped := MapLines(lines, marker, line);
    SplitPiecesLackSep(s, '\n');
    forall k | 0 <= k < |mapped| ensures '\n' !in mapped[k] {
      if Contains(lines[k], marker) {
        var r := mapped[k];
        assert r == lines[k][..|r| - |line|] + line;
        assert '\n' !in lines[k][..|r| - |line|];
      }
    }
    SplitJoin(mapped, '\n');
    assert "\n" == ['\n'];
  }

  /** Appending a line between newlines adds that line and an empty last line. */
  lemma AppendedLines(s: string, line: string)
    requires '\n' !in line
    ensures Split(s + "\n" + line + "\n", '\n') == Split(s, '\n') + [line, ""]
  {
    assert Split(line + "\n", '\n') == [line, ""] by {
      assert line + "\n" == line + ['\n'] + "";
      SplitAppend(line, '\n', "");
    }
    Assoc(s + "\n", line, "\n");
    assert s + "\n" == s + ['\n'];
    SplitAppend(s, '\n', line + "\n");
  }

  /** `re.sub` takes its replacement as a template: a backslash in it starts an escape that
      is expanded or raises `re.error`. The rewrite copies both new lines verbatim when the
      stamp holds no backslash and the token either holds none or is appended rather than
      substituted (no line holds the marker). */
  predicate Verbatim(content: string, token: string, stamp: string) {
    ('\\' !in token || !Contains(content, TokenMarker)) && '\\' !in stamp
  }

  /** The escapes a template turns into one character: \a \b \f \n \r \t \v and \\. */
  predicate KnownEscape(c: char) {
    c in "abfnrtv\\"
  }

  predicate AsciiLetter(c: char) {
    'a' <= c <= 'z' || 'A' <= c <= 'Z'
  }

  predicate OctDigit(c: char) {
    '0' <= c <= '7'
  }

  /** A group name that refers to the whole match: decimal digits worth 0. */
  predicate WholeMatchName(name: string) {
    name != "" && forall i :: 0 <= i < |name| ==> name[i] == '0'
  }

  /** Whether `re.sub` raises on the replacement template `t`. The template is read before
      anything is substituted, and it raises on: a backslash at its end; `\g` not followed
      by `<name>`, or a name other than a decimal 0 (the patterns here have no groups, so
      only the whole match exists); `\1` to `\9` not starting a three-digit octal escape,
      which is a group reference; a three-digit octal escape above 0o377; and a backslash
      before any other ASCII letter that is not a known escape. Any other backslash pair is
      expanded or kept. */
  function TemplateRaises(t: string): bool
    decreases |t|
  {
    if |t| == 0 then false
    else if t[0] != '\\' then TemplateRaises(t[1..])
    else if |t| == 1 then true
    else
      var c, rest := t[1], t[2..];
      if c == 'g' then
        if |rest| == 0 || rest[0] != '<' || '>' !in rest then true
        else
          var close := FirstIndexOf(rest, '>');
          !WholeMatchName(rest[1..close]) || TemplateRaises(rest[close + 1..])
      else if '1' <= c <= '9' then
        if |rest| >= 2 && OctDigit(c) && OctDigit(rest[0]) && OctDigit(rest[1]) then
          '4' <= c || TemplateRaises(rest[2..])
        else true
      else if AsciiLetter(c) && !KnownEscape(c) then true
      else TemplateRaises(rest)
  }

  /** Text without a backslash in front of a template changes nothing about whether it
      raises; in particular a template without a backslash never raises. */
  lemma {:induction false} PlainPrefix(p: string, t: string)
    requires '\\' !in p
    ensures TemplateRaises(p + t) == TemplateRaises(t)
    decreases |p|
  {
    if |p| > 0 {
      assert (p + t)[0] == p[0] && (p + t)[1..] == p[1..] + t;
      assert '\\' !in p[1..];
      PlainPrefix(p[1..], t);
    } else {
      assert p + t == t;
    }
  }

  /** `update_env_file` raises in one of its two `re.sub` calls. The token line's template
      is read only when some line holds the token marker, and the stamp line's only when the
      text after the token pass holds the stamp marker. */
  predicate RewriteRaises(content: string, token: string, stamp: string) {
    || (Contains(content, TokenMarker) && TemplateRaises(TokenMarker + token))
    || (Contains(ReplaceOrAppend(content, TokenMarker, token), StampMarker) && TemplateRaises(StampMarker + stamp))
  }

  /** A rewrite that copies its lines verbatim never raises, and a token template raises
      exactly when the token alone would. */
  lemma VerbatimDoesNotRaise(content: string, token: string, stamp: string)
    ensures Verbatim(content, token, stamp) ==> !RewriteRaises(content, token, stamp)
    ensures TemplateRaises(TokenMarker + token) == TemplateRaises(token)
  {
    PlainPrefix(TokenMarker, token);
    PlainPrefix(StampMarker, stamp);
    if '\\' !in stamp {
      PlainPrefix(stamp, []);
      assert stamp + [] == stamp;
    }
    if '\\' !in token {
      PlainPrefix(token, []);
      assert token + [] == token;
    }
  }

  /** `update_env_file`'s new content: the token pass, then the time-stamp pass. `stamp`
      is the formatted current time. Both new lines are copied verbatim (see Verbatim). */
  function UpdateEnv(content: string, token: string, stamp: string): string {
    ReplaceOrAppend(ReplaceOrAppend(content, TokenMarker, token), StampMarker, stamp)
  }

  // ---------------------------------------------------------------- the token survives

  /** A line the token pass leaves alone: if it holds the token marker, it has no '#'
      and is already in rewritten form. */
  predicate TokenFixed(l: string, token: string) {
    Contains(l, TokenMarker) ==> '#' !in l && SubLine(l, TokenMarker, TokenMarker + token) == l
  }

  /** A line the stamp pass leaves alone. */
  predicate StampFixed(l: string, stamp: string) {
    Contains(l, StampMarker) ==> SubLine(l, StampMarker, StampMarker + stamp) == l
  }

  /** What holds after the token pass: every line is fixed for it, and one holds the new
      token line. */
  predicate TokenDone(lines: seq<string>, token: string) {
    && (forall k :: 0 <= k < |lines| ==> TokenFixed(lines[k], token))
    && SomeLineHas(lines, TokenMarker + token)
  }

  /** What holds after the stamp pass: every line is fixed for it, and one holds the
      stamp marker. */
  predicate StampDone(lines: seq<string>, stamp: string) {
    && (forall k :: 0 <= k < |lines| ==> StampFixed(lines[k], stamp))
    && SomeLineHas(lines, StampMarker)
  }

  /** The line `marker + value` is already in rewritten form. */
  lemma FreshLineDone(marker: string, value: string)
    requires marker != ""
    ensures Contains(marker + value, marker) && Contains(marker + value, marker + value)
    ensures SubLine(marker + value, marker, marker + value) == marker + value
  {
    var l := marker + value;
    assert l[..|marker|] == marker;
    assert OccursAt(l, marker, 0);
    assert OccursAt(l, l, 0);
  }

  /** The token pass on lines where every line that holds the token marker is free of '#'. */
  lemma TokenPass(lines: seq<string>, token: string)
    requires '#' !in token
    requires forall k :: 0 <= k < |lines| && Contains(lines[k], TokenMarker) ==> '#' !in lines[k]
    ensures TokenDone(ReplaceOrAppendLines(lines, TokenMarker, token), token)
  {
    if SomeLineHas(lines, TokenMarker) {
      TokenReplaced(lines, token);
    } else {
      TokenAppended(lines, token);
    }
  }

  /** One line through the token pass. */
  lemma TokenLine(l: string, token: string)
    requires '#' !in token
    requires Contains(l, TokenMarker) ==> '#' !in l
    ensures TokenFixed(SubLine(l, TokenMarker, TokenMarker + token), token)
  {
    var line := TokenMarker + token;
    if Contains(l, TokenMarker) {
      var r := SubLine(l, TokenMarker, line);
      assert r == l[..|r| - |line|] + line;
      assert '#' !in l[..|r| - |line|];
      TokenMarkerHasNoHash();
      MarkersUniqueLast();
      SubLineIdempotent(l, TokenMarker, token);
    }
  }

  lemma TokenReplaced(lines: seq<string>, token: string)
    requires '#' !in token && SomeLineHas(lines, TokenMarker)
    requires forall k :: 0 <= k < |lines| && Contains(lines[k], TokenMarker) ==> '#' !in lines[k]
    ensures TokenDone(MapLines(lines, TokenMarker, TokenMarker + token), token)
  {
    var out := MapLines(lines, TokenMarker, TokenMarker + token);
    forall k | 0 <= k < |lines| ensures TokenFixed(out[k], token) {
      TokenLine(lines[k], token);
    }
    var k :| 0 <= k < |lines| && Contains(lines[k], TokenMarker);
    SubLineHolds(lines[k], TokenMarker, token);
  }

  lemma TokenAppended(lines: seq<string>, token: string)
    requires '#' !in token && !SomeLineHas(lines, TokenMarker)
    ensures TokenDone(lines + [TokenMarker + token, ""], token)
  {
    var line := TokenMarker + token;
    var out := lines + [line, ""];
    FreshLineDone(TokenMarker, token);
    TokenMarkerHasNoHash();
    assert !OccursAt("", TokenMarker, 0);
    assert forall k :: 0 <= k < |lines| ==> out[k] == lines[k];
    assert out[|lines|] == line && out[|lines| + 1] == "";
  }

  /** A line without the token marker, rewritten by the stamp pass with a stamp free of
      'C', still lacks the token marker: an occurrence cannot cover the stamp marker's
      '#', and after it there is no 'C' while the token marker holds one. */
  lemma StampLineLacksToken(y: string, stamp: string)
    requires !Contains(y, TokenMarker) && 'C' !in stamp
    ensures !Contains(y + StampMarker + stamp, TokenMarker)
  {
    var s := y + StampMarker + stamp;
    forall j: nat | j <= |s| ensures !OccursAt(s, TokenMarker, j) {
      StampLineLacksTokenAt(y, stamp, j);
    }
  }

  /** The token marker's tenth character is a 'C'. */
  lemma TokenMarkerTenthIsC()
    ensures |TokenMarker| == 21 && TokenMarker[9] == 'C'
  {
  }

  /** No occurrence of the token marker starts at `j` in a line rewritten by the stamp pass. */
  lemma StampLineLacksTokenAt(y: string, stamp: string, j: nat)
    requires !Contains(y, TokenMarker) && 'C' !in stamp
    ensures !OccursAt(y + StampMarker + stamp, TokenMarker, j)
  {
    var s := y + StampMarker + stamp;
    var t := StampMarker + stamp;
    var n := |TokenMarker|;
    if j + n <= |s| {
      if j + n <= |y| {
        assert s[j..j + n] == y[j..j + n];
        assert !OccursAt(y, TokenMarker, j);
      } else if j <= |y| {
        assert s[|y|] == StampMarker[0] == '#';
        assert s[j..j + n][|y| - j] == s[|y|];
        TokenMarkerHasNoHash();
        assert TokenMarker[|y| - j] != '#';
      } else {
        TokenMarkerTenthIsC();
        assert 'C' !in t;
        assert s[j..j + n][9] == s[j + 9] == t[j + 9 - |y|];
      }
    }
  }

  /** The stamp pass keeps what the token pass established and establishes its own part. */
  lemma StampPass(lines: seq<string>, token: string, stamp: string)
    requires TokenDone(lines, token) && 'C' !in stamp
    ensures var out := ReplaceOrAppendLines(lines, StampMarker, stamp);
      TokenDone(out, token) && StampDone(out, stamp)
  {
    if SomeLineHas(lines, StampMarker) {
      StampReplaced(lines, token, stamp);
    } else {
      StampAppended(lines, token, stamp);
    }
  }

  /** The line holding the new token line has no '#', so it holds no stamp marker. */
  lemma TokenLineWithoutStamp(lines: seq<string>, token: string) returns (w: nat)
    requires TokenDone(lines, token)
    ensures w < |lines| && Contains(lines[w], TokenMarker + token)
    ensures !Contains(lines[w], StampMarker)
  {
    var k :| 0 <= k < |lines| && Contains(lines[k], TokenMarker + token);
    w := k;
    ContainsPrefixOf(lines[w], TokenMarker, token);
    assert TokenFixed(lines[w], token);
    LacksChar(lines[w], StampMarker, '#', 0);
  }

  /** One line through the stamp pass: a line fixed for the token pass stays so, and
      becomes fixed for the stamp pass. */
  lemma StampLine(l: string, token: string, stamp: string)
    requires TokenFixed(l, token) && 'C' !in stamp
    ensures var r := SubLine(l, StampMarker, StampMarker + stamp);
      TokenFixed(r, token) && StampFixed(r, stamp)
  {
    var line := StampMarker + stamp;
    if Contains(l, StampMarker) {
      MarkersUniqueLast();
      if Contains(l, TokenMarker) {
        LacksChar(l, StampMarker, '#', 0);
      }
      var r := SubLine(l, StampMarker, line);
      var y := l[..|r| - |line|];
      assert r == y + StampMarker + stamp;
      if Contains(y, TokenMarker) {
        var j: nat :| j <= |y| && OccursAt(y, TokenMarker, j);
        OccursInPrefix(l, TokenMarker, |y|, j);
      }
      StampLineLacksToken(y, stamp);
      SubLineIdempotent(l, StampMarker, stamp);
    }
  }

  lemma StampReplaced(lines: seq<string>, token: string, stamp: string)
    requires TokenDone(lines, token) && 'C' !in stamp && SomeLineHas(lines, StampMarker)
    ensures var out := MapLines(lines, StampMarker, StampMarker + stamp);
      TokenDone(out, token) && StampDone(out, stamp)
  {
    var out := MapLines(lines, StampMarker, StampMarker + stamp);
    forall k | 0 <= k < |lines| ensures TokenFixed(out[k], token) && StampFixed(out[k], stamp) {
      StampLine(lines[k], token, stamp);
    }
    var w := TokenLineWithoutStamp(lines, token);
    assert out[w] == lines[w];
    var k :| 0 <= k < |lines| && Contains(lines[k], StampMarker);
    SubLineHolds(lines[k], StampMarker, stamp);
    ContainsPrefixOf(out[k], StampMarker, stamp);
  }

  lemma StampAppended(lines: seq<string>, token: string, stamp: string)
    requires TokenDone(lines, token) && 'C' !in stamp && !SomeLineHas(lines, StampMarker)
    ensures var out := lines + [StampMarker + stamp, ""];
      TokenDone(out, token) && StampDone(out, stamp)
  {
    StampAppendedKeepsToken(lines, token, stamp);
    StampAppendedStamps(lines, stamp);
  }

  /** The appended stamp line and the empty line after it leave the token pass done. */
  lemma StampAppendedKeepsToken(lines: seq<string>, token: string, stamp: string)
    requires TokenDone(lines, token) && 'C' !in stamp
    ensures TokenDone(lines + [StampMarker + stamp, ""], token)
  {
    var line := StampMarker + stamp;
    var out := lines + [line, ""];
    forall k | 0 <= k < |out| ensures TokenFixed(out[k], token) {
      if k < |lines| {
        assert out[k] == lines[k];
      } else if k == |lines| {
        StampLineLacksToken("", stamp);
        assert "" + StampMarker + stamp == line;
      } else {
        assert out[k] == "" && !OccursAt("", TokenMarker, 0);
      }
    }
    var w :| 0 <= w < |lines| && Contains(lines[w], TokenMarker + token);
    assert out[w] == lines[w];
  }

  /** Appending the stamp line to lines without the stamp marker finishes the stamp pass. */
  lemma StampAppendedStamps(lines: seq<string>, stamp: string)
    requires !SomeLineHas(lines, StampMarker)
    ensures StampDone(lines + [StampMarker + stamp, ""], stamp)
  {
    var line := StampMarker + stamp;
    var out := lines + [line, ""];
    FreshLineDone(StampMarker, stamp);
    forall k | 0 <= k < |out| ensures StampFixed(out[k], stamp) {
      if k < |lines| {
        assert out[k] == lines[k];
      } else if k > |lines| {
        assert out[k] == "" && !OccursAt("", StampMarker, 0);
      }
    }
    assert out[|lines|] == line;
  }

  /** Lines in which the token pass is done are left as they are by it. */
  lemma TokenDoneIsFixed(lines: seq<string>, token: string)
    requires TokenDone(lines, token)
    ensures ReplaceOrAppendLines(lines, TokenMarker, token) == lines
  {
    var w :| 0 <= w < |lines| && Contains(lines[w], TokenMarker + token);
    ContainsPrefixOf(lines[w], TokenMarker, token);
    var out := MapLines(lines, TokenMarker, TokenMarker + token);
    forall k | 0 <= k < |lines| ensures out[k] == lines[k] {
      assert TokenFixed(lines[k], token);
    }
  }

  /** Lines in which the stamp pass is done are left as they are by it. */
  lemma StampDoneIsFixed(lines: seq<string>, stamp: string)
    requires StampDone(lines, stamp)
    ensures ReplaceOrAppendLines(lines, StampMarker, stamp) == lines
  {
    var out := MapLines(lines, StampMarker, StampMarker + stamp);
    forall k | 0 <= k < |lines| ensures out[k] == lines[k] {
      assert StampFixed(lines[k], stamp);
    }
  }

  /** A pass that leaves the lines alone leaves the text alone. */
  lemma FixedByLines(s: string, marker: string, value: string)
    requires marker != "" && '\n' !in marker + value
    requires ReplaceOrAppendLines(Split(s, '\n'), marker, value) == Split(s, '\n')
    ensures ReplaceOrAppend(s, marker, value) == s
  {
    ReplaceOrAppendByLines(s, marker, value);
    JoinSplit(s, '\n');
    JoinSplit(ReplaceOrAppend(s, marker, value), '\n');
  }

  /** The hypotheses under which the token manager's rewrite is well behaved: the token
      and the time stamp are single lines free of backslashes (so `re.sub` copies them), the
      token holds no '#', the stamp no 'C' (a `strftime` stamp holds digits and punctuation),
      and no line holding the token marker holds a '#' (it is not commented out). */
  predicate WellFormed(content: string, token: string, stamp: string) {
    && '\n' !in token && '#' !in token && '\\' !in token
    && '\n' !in stamp && 'C' !in stamp && '\\' !in stamp
    && forall k :: 0 <= k < |Split(content, '\n')| && Contains(Split(content, '\n')[k], TokenMarker) ==>
         '#' !in Split(content, '\n')[k]
  }

  /** The lines of the new content: both passes done. */
  lemma UpdateEnvLines(content: string, token: string, stamp: string)
    requires WellFormed(content, token, stamp)
    ensures TokenDone(Split(UpdateEnv(content, token, stamp), '\n'), token)
    ensures StampDone(Split(UpdateEnv(content, token, stamp), '\n'), stamp)
  {
    var mid := ReplaceOrAppend(content, TokenMarker, token);
    assert '\n' !in TokenMarker + token && '\n' !in StampMarker + stamp;
    ReplaceOrAppendByLines(content, TokenMarker, token);
    TokenPass(Split(content, '\n'), token);
    ReplaceOrAppendByLines(mid, StampMarker, stamp);
    StampPass(Split(mid, '\n'), token, stamp);
  }

  /** After the rewrite the file holds the new token line. */
  lemma UpdateEnvKeepsToken(content: string, token: string, stamp: string)
    requires WellFormed(content, token, stamp)
    ensures Contains(UpdateEnv(content, token, stamp), TokenMarker + token)
  {
    var r := UpdateEnv(content, token, stamp);
    UpdateEnvLines(content, token, stamp);
    LinesHold(r, TokenMarker + token);
  }

  /** A line holding neither marker keeps its place and its text: the rewrite touches
      only the lines the two patterns match (and may add lines after the old ones). */
  lemma UpdateEnvKeepsOtherLines(content: string, token: string, stamp: string, k: nat)
    requires '\n' !in token && '\n' !in stamp
    requires k < |Split(content, '\n')|
    requires !Contains(Split(content, '\n')[k], TokenMarker) && !Contains(Split(content, '\n')[k], StampMarker)
    ensures k < |Split(UpdateEnv(content, token, stamp), '\n')|
    ensures Split(UpdateEnv(content, token, stamp), '\n')[k] == Split(content, '\n')[k]
  {
    var mid := ReplaceOrAppend(content, TokenMarker, token);
    assert '\n' !in TokenMarker + token && '\n' !in StampMarker + stamp;
    ReplaceOrAppendByLines(content, TokenMarker, token);
    PassKeepsLine(Split(content, '\n'), TokenMarker, token, k);
    ReplaceOrAppendByLines(mid, StampMarker, stamp);
    PassKeepsLine(Split(mid, '\n'), StampMarker, stamp, k);
  }

  /** One pass keeps a line without its marker where it was. */
  lemma PassKeepsLine(lines: seq<string>, marker: string, value: string, k: nat)
    requires marker != "" && k < |lines| && !Contains(lines[k], marker)
    ensures k < |ReplaceOrAppendLines(lines, marker, value)|
    ensures ReplaceOrAppendLines(lines, marker, value)[k] == lines[k]
  {
  }

  /** A text holds what one of its lines holds. */
  lemma LinesHold(s: string, m: string)
    requires SomeLineHas(Split(s, '\n'), m)
    ensures Contains(s, m)
  {
    var lines := Split(s, '\n');
    var k :| 0 <= k < |lines| && Contains(lines[k], m);
    JoinSplit(s, '\n');
    assert "\n" == ['\n'];
    ContainsInJoin(lines, "\n", k, m);
  }

  /** What a line holds, the lines joined hold. */
  lemma {:induction false} ContainsInJoin(lines: seq<string>, sep: string, k: nat, m: string)
    requires k < |lines| && Contains(lines[k], m)
    ensures Contains(Join(lines, sep), m)
    decreases |lines|
  {
    if |lines| > 1 {
      var rest := Join(lines[1..], sep);
      assert Join(lines, sep) == lines[0] + (sep + rest);
      if k == 0 {
        var j: nat :| j <= |lines[0]| && OccursAt(lines[0], m, j);
        assert (lines[0] + (sep + rest))[j..j + |m|] == lines[0][j..j + |m|];
        assert OccursAt(Join(lines, sep), m, j);
      } else {
        assert lines[1..][k - 1] == lines[k];
        ContainsInJoin(lines[1..], sep, k - 1, m);
        var j: nat :| j <= |rest| && OccursAt(rest, m, j);
        var d := |lines[0]| + |sep|;
        assert (lines[0] + (sep + rest))[d + j..d + j + |m|] == rest[j..j + |m|];
        assert OccursAt(Join(lines, sep), m, d + j);
      }
    }
  }

  /** Running the rewrite again with the same token and stamp changes nothing. */
  lemma UpdateEnvIdempotent(content: string, token: string, stamp: string)
    requires WellFormed(content, token, stamp)
    ensures UpdateEnv(UpdateEnv(content, token, stamp), token, stamp) == UpdateEnv(content, token, stamp)
  {
    var r := UpdateEnv(content, token, stamp);
    UpdateEnvLines(content, token, stamp);
    assert '\n' !in TokenMarker + token && '\n' !in StampMarker + stamp;
    assert ReplaceOrAppend(r, TokenMarker, token) == r by {
      TokenDoneIsFixed(Split(r, '\n'), token);
      FixedByLines(r, TokenMarker, token);
    }
    assert ReplaceOrAppend(r, StampMarker, stamp) == r by {
      StampDoneIsFixed(Split(r, '\n'), stamp);
      FixedByLines(r, StampMarker, stamp);
    }
  }
}

=== FILE: images.dfy ===
/**
 The recommended-building image fetch (fetch_recomm_images.py): from the records of one
 table response, take each record's first photo, name the file after the record's place
 in the list and the url's extension, and download it.

 The request, the JSON decoding of a text-valued photo field and each download (fetch
 and write) are parameters.
 */
module RecommImages {
  import opened Wrappers
  import opened Text
  import opened Seqs
  import opened Values

  /** The photo field of the table ("representative photo"). */
  const PhotoField := "대표사진"

  const FilePrefix := "recomm_"

  // ---------------------------------------------------------------- the file name

  /** `url.split('.')[-1].split('?')[0]`: the text after the last '.', cut at the first '?'. */
  function Extension(url: string): (ext: string)
    ensures '.' !in ext && '?' !in ext
    ensures var last := Split(url, '.')[|Split(url, '.')| - 1];
      |ext| <= |last| && ext == last[..|ext|]
  {
    var pieces := Split(url, '.');
    SplitPiecesLackSep(url, '.');
    var last := pieces[|pieces| - 1];
    SplitHead(last, '?');
    Split(last, '?')[0]
  }

  /** A url whose last '.' starts the extension and whose query holds no '.' gives that
      extension. */
  lemma ExtensionWithQuery(base: string, ext: string, query: string)
    requires '.' !in ext && '?' !in ext && '.' !in query
    ensures Extension(base + "." + ext + "?" + query) == ext
  {
    var tail := ext + "?" + query;
    assert tail == ext + ['?'] + query;
    assert '.' !in tail by {
      assert forall i :: 0 <= i < |tail| ==> tail[i] == (if i < |ext| then ext[i] else if i == |ext| then '?' else query[i - |ext| - 1]);
    }
    LastPiece(base, tail);
    assert base + "." + ext + "?" + query == base + "." + tail by {
      Assoc(base + "." + ext, "?", query);
      Assoc(base + ".", ext, "?" + query);
    }
    SplitAppend(ext, '?', query);
    assert Split(ext, '?') == [ext];
  }

  /** A url ending in '.' and an extension without '?' gives that extension. */
  lemma ExtensionPlain(base: string, ext: string)
    requires '.' !in ext && '?' !in ext
    ensures Extension(base + "." + ext) == ext
  {
    LastPiece(base, ext);
  }

  /** The extension is read from the whole url, query included: a '.' in the query wins
      over the one before the real extension. */
  lemma QueryDotWins()
    ensures Extension("a.jpg?v=1.5") == "5"
  {
    assert "a.jpg?v=1" + "." + "5" == "a.jpg?v=1.5";
    ExtensionPlain("a.jpg?v=1", "5");
  }

  /** The last '.'-piece of `base + "." + tail`, for a tail without '.', is the tail. */
  lemma LastPiece(base: string, tail: string)
    requires '.' !in tail
    ensures var pieces := Split(base + "." + tail, '.');
      pieces[|pieces| - 1] == tail
  {
    assert base + "." + tail == base + ['.'] + tail;
    SplitAppend(base, '.', tail);
  }

  /** `f"recomm_{n}.{ext}"`. */
  function FileName(n: nat, ext: string): (name: string)
    ensures |name| > |FilePrefix| && name[..|FilePrefix|] == FilePrefix
  {
    FilePrefix + NatToString(n) + "." + ext
  }

  /** The number can be read back from a file name: the text between the prefix and the
      first '.' is the number's decimal form. */
  lemma FileNameNumbered(n: nat, ext: string)
    ensures var name := FileName(n, ext);
      var digits := Split(name[|FilePrefix|..], '.')[0];
      IsDigits(digits) && DigitsValue(digits) == n
  {
    var name := FileName(n, ext);
    var d := NatToString(n);
    assert name[|FilePrefix|..] == d + ['.'] + ext;
    SplitAppend(d, '.', ext);
    assert '.' !in d by {
      assert forall i :: 0 <= i < |d| ==> IsDigit(d[i]);
    }
    NatToStringRoundTrip(n);
  }

  /** Two records at different places never share a file name. */
  lemma FileNamesDistinct(n: nat, m: nat, ext: string, ext': string)
    requires n != m
    ensures FileName(n, ext) != FileName(m, ext')
  {
    FileNameNumbered(n, ext);
    FileNameNumbered(m, ext');
  }

  // ---------------------------------------------------------------- the photo

  /** What the loop makes of a record's photo field: nothing to fetch, a text that does not
      decode (skipped), a first photo without a text `url` (the script raises and stops),
      or the url to fetch. */
  datatype Pick = NoPhoto | Undecodable | Malformed | PhotoUrl(url: string)

  /** `photos[0]['url']` followed by `.split`: only a dictionary with a text `url` gets
      through; anything else raises. */
  function FirstUrl(first: Value): (u: Option<string>)
    ensures u.Some? <==> first.VDict? && "url" in first.entries && first.entries["url"].VStr?
    ensures u.Some? ==> u.value == first.entries["url"].s
  {
    match first
    case VDict(entries) =>
      if "url" in entries && entries["url"].VStr? then Some(entries["url"].s) else None
    case _ => None
  }

  /** The photo list after `or []` and the decoding of a text value. */
  function PickPhoto(fields: map<string, Value>, decode: string -> Option<Value>): (p: Pick)
    ensures !Truthy(Get(fields, PhotoField)) ==> p == NoPhoto
    ensures Get(fields, PhotoField).VStr? && |Get(fields, PhotoField).s| > 0 && decode(Get(fields, PhotoField).s).None?
      ==> p == Undecodable
    ensures p.PhotoUrl? ==> exists items :: PhotoList(fields, decode, items) && |items| > 0 && FirstUrl(items[0]) == Some(p.url)
  {
    var v := Get(fields, PhotoField);
    var photos := if Truthy(v) then v else VList([]);
    match photos
    case VStr(s) =>
      (match decode(s)
       case None => Undecodable
       case Some(decoded) => FromList(decoded))
    case _ => FromList(photos)
  }

  /** The list the script reads the first photo from, when it has one. */
  predicate PhotoList(fields: map<string, Value>, decode: string -> Option<Value>, items: seq<Value>) {
    var v := Get(fields, PhotoField);
    || v == VList(items)
    || (v.VStr? && decode(v.s) == Some(VList(items)))
  }

  /** `if isinstance(photos, list) and photos:` and the first photo's url. */
  function FromList(photos: Value): (p: Pick)
    ensures p != Undecodable
    ensures p.PhotoUrl? ==> photos.VList? && |photos.items| > 0 && FirstUrl(photos.items[0]) == Some(p.url)
    ensures p == NoPhoto <==> !photos.VList? || |photos.items| == 0
  {
    if photos.VList? && |photos.items| > 0 then
      match FirstUrl(photos.items[0])
      case None => Malformed
      case Some(u) => PhotoUrl(u)
    else NoPhoto
  }

  /** Only the first photo matters: lists that agree on it give the same pick. */
  lemma OnlyFirstPhoto(first: Value, more: seq<Value>, more': seq<Value>)
    ensures FromList(VList([first] + more)) == FromList(VList([first] + more'))
  {
  }

  // ---------------------------------------------------------------- the loop

  /** What happened to one record. */
  datatype Outcome = Skip | Abort | Saved(name: string) | DownloadFailed(name: string)

  /** One turn of the loop for the record at place `i` (counting from 0). `download`
      fetches a url into a file name and says whether both the fetch and the write
      succeeded. */
  function RecordOutcome(i: nat, rec: Record, decode: string -> Option<Value>,
                         download: (string, string) -> bool): (o: Outcome)
    ensures o.Saved? || o.DownloadFailed? <==> PickPhoto(rec.fields, decode).PhotoUrl?
    ensures o == Abort <==> PickPhoto(rec.fields, decode) == Malformed
    ensures o.Saved? || o.DownloadFailed? ==>
      var u := PickPhoto(rec.fields, decode).url;
      && o.name == FileName(i + 1, Extension(u))
      && (o.Saved? <==> download(u, o.name))
  {
    match PickPhoto(rec.fields, decode)
    case NoPhoto => Skip
    case Undecodable => Skip
    case Malformed => Abort
    case PhotoUrl(u) =>
      var name := FileName(i + 1, Extension(u));
      if download(u, name) then Saved(name) else DownloadFailed(name)
  }

  /** The files written and the files that failed, in order, and whether the loop was
      stopped by an exception. */
  datatype Images = Images(saved: seq<string>, failed: seq<string>, aborted: bool)

  function SavedName(o: Outcome): Option<string> {
    if o.Saved? then Some(o.name) else None
  }

  function FailedName(o: Outcome): Option<string> {
    if o.DownloadFailed? then Some(o.name) else None
  }

  /** The loop over the outcomes: a failed download is reported and the loop goes on; an
      exception ends it, keeping the files already written. */
  function Collect(outs: seq<Outcome>): (r: Images)
    ensures r.aborted <==> Abort in outs
    ensures |r.saved| + |r.failed| <= |outs|
    ensures forall k :: 0 <= k < |r.saved| ==> Saved(r.saved[k]) in outs
    decreases |outs|
  {
    if |outs| == 0 then Images([], [], false)
    else
      var rest := Collect(outs[1..]);
      assert forall o :: o in outs[1..] ==> o in outs;
      match outs[0]
      case Skip => rest
      case Abort => Images([], [], true)
      case Saved(n) => Images([n] + rest.saved, rest.failed, rest.aborted)
      case DownloadFailed(n) => Images(rest.saved, [n] + rest.failed, rest.aborted)
  }

  /** Outcomes before any exception are reported in order, and the loop carries on with
      the rest. */
  lemma {:induction false} CollectAppend(pre: seq<Outcome>, post: seq<Outcome>)
    requires Abort !in pre
    ensures var (r, rest) := (Collect(pre + post), Collect(post));
      && r.saved == FilterMap(pre, SavedName) + rest.saved
      && r.failed == FilterMap(pre, FailedName) + rest.failed
      && r.aborted == rest.aborted
    decreases |pre|
  {
    if |pre| == 0 {
      assert pre + post == post;
    } else {
      assert (pre + post)[0] == pre[0];
      assert (pre + post)[1..] == pre[1..] + post;
      assert pre[0] != Abort;
      CollectAppend(pre[1..], post);
      var rest := Collect(post);
      match pre[0]
      case Saved(n) => ConsAssoc(n, FilterMap(pre[1..], SavedName), rest.saved);
      case DownloadFailed(n) => ConsAssoc(n, FilterMap(pre[1..], FailedName), rest.failed);
      case Skip =>
    }
  }

  /** Without an exception every written and every failed file is reported, in order. */
  lemma CollectAll(outs: seq<Outcome>)
    requires Abort !in outs
    ensures Collect(outs) == Images(FilterMap(outs, SavedName), FilterMap(outs, FailedName), false)
  {
    CollectAppend(outs, []);
    assert outs + [] == outs;
  }

  /** A failed download does not stop the records after it. */
  lemma FailedDownloadContinues(name: string, post: seq<Outcome>)
    ensures Collect([DownloadFailed(name)] + post).saved == Collect(post).saved
    ensures Collect([DownloadFailed(name)] + post).aborted == Collect(post).aborted
  {
    assert ([DownloadFailed(name)] + post)[1..] == post;
  }

  /** An exception stops the loop: what comes after it is never reached. */
  lemma AbortStops(pre: seq<Outcome>, post: seq<Outcome>)
    requires Abort !in pre
    ensures Collect(pre + [Abort] + post) == Images(FilterMap(pre, SavedName), FilterMap(pre, FailedName), true)
  {
    CollectAppend(pre, [Abort] + post);
    Assoc(pre, [Abort], post);
    assert FilterMap(pre, SavedName) + [] == FilterMap(pre, SavedName);
    assert FilterMap(pre, FailedName) + [] == FilterMap(pre, FailedName);
  }

  /** `fetch_airtable_images` over the records of the single response read. */
  function FetchImages(records: seq<Record>, decode: string -> Option<Value>,
                       download: (string, string) -> bool): Images {
    Collect(Enumerate(records, 0, (i, rec) => RecordOutcome(i, rec, decode, download)))
  }

  /** Every file written belongs to a record with a usable first photo: it is named after
      that record's place among all records (counting from 1) and its url's extension, and
      its download succeeded. */
  lemma SavedFilesNamedByPlace(records: seq<Record>, decode: string -> Option<Value>,
                               download: (string, string) -> bool, k: nat)
    requires k < |FetchImages(records, decode, download).saved|
    ensures var name := FetchImages(records, decode, download).saved[k];
      exists j :: 0 <= j < |records| && PickPhoto(records[j].fields, decode).PhotoUrl?
        && name == FileName(j + 1, Extension(PickPhoto(records[j].fields, decode).url))
        && download(PickPhoto(records[j].fields, decode).url, name)
  {
    var f := (i, rec) => RecordOutcome(i, rec, decode, download);
    var outs := Enumerate(records, 0, f);
    var name := Collect(outs).saved[k];
    assert Saved(name) in outs;
    var j :| 0 <= j < |outs| && outs[j] == Saved(name);
    assert outs[j] == RecordOutcome(j, records[j], decode, download);
  }

  /** A record without a photo, or whose text photo field does not decode, writes no file
      and stops nothing. */
  lemma NoPhotoNoFile(i: nat, rec: Record, decode: string -> Option<Value>,
                      download: (string, string) -> bool)
    requires var v := Get(rec.fields, PhotoField);
      !Truthy(v) || (v.VStr? && decode(v.s).None?)
    ensures RecordOutcome(i, rec, decode, download) == Skip
  {
  }
}

=== FILE: listings.dfy ===
/**
 The listing ingestion shared by the map scripts: page through the table, keep the
 records that have an address and a publishable status, normalise the price and project
 the popup fields. `get_airtable_data` exists twice (SellDatafromNavermap.py and
 SellBuildingData.py) with identical logic, so it is modelled once; debug_airtable_map.py
 adds a truthiness-based variant that also carries the record id, and a one-page probe.
 */
module Listings {
  import opened Wrappers
  import opened Text
  import opened Values
  import opened Pagination

  const AddressField := "지번 주소"
  const PriceField := "매가(만원)"
  const StatusField := "현황"

  /** The statuses under which a listing is shown on the map. */
  const ValidStatuses: seq<string> := ["네이버", "디스코", "당근", "비공개"]

  /** The popup fields of the map scripts, in display order. */
  const PopupFields: seq<string> := [
    "토지면적(㎡)", "연면적(㎡)", "건폐율(%)", "용적률(%)", "용도지역", "주용도", "층수",
    "사용승인일", "보증금(만원)", "월세(만원)", "인접역", "거리(m)", "상세설명"
  ]

  /** The popup fields of the debug script: the map scripts' fields plus two yield fields. */
  const DebugPopupFields: seq<string> := PopupFields + ["실투자금", "융자제외수익률(%)"]

  /** A sequence without repetitions has as many distinct elements as entries. */
  lemma {:induction false} DistinctCount(xs: seq<string>)
    requires forall i, j :: 0 <= i < j < |xs| ==> xs[i] != xs[j]
    ensures |set k | k in xs| == |xs|
  {
    if |xs| > 0 {
      var last := xs[|xs| - 1];
      var init := xs[..|xs| - 1];
      DistinctCount(init);
      assert (set k | k in xs) == (set k | k in init) + {last};
      assert last !in init;
    }
  }

  /** Each projected row carries exactly 13 popup fields (15 in the debug script). */
  lemma PopupFieldCounts()
    ensures |set k | k in PopupFields| == 13
    ensures |set k | k in DebugPopupFields| == 15
  {
    DistinctCount(PopupFields);
    DistinctCount(DebugPopupFields);
  }

  /** A status value names a publishable status: a string from the list, or a list holding one. */
  predicate IsValidStatus(status: Value) {
    match status
    case VStr(s) => s in ValidStatuses
    case VList(items) => exists k :: 0 <= k < |items| && items[k].VStr? && items[k].s in ValidStatuses
    case _ => false
  }

  /** The map scripts' filter: the address is present (possibly empty) and the status is valid. */
  predicate Keep(rec: Record) {
    Get(rec.fields, AddressField) != VNone && IsValidStatus(Get(rec.fields, StatusField))
  }

  /** The debug script's filter: the address is truthy (an empty string is rejected),
      and the status is truthy and valid. */
  predicate KeepTruthy(rec: Record) {
    var status := Get(rec.fields, StatusField);
    Truthy(Get(rec.fields, AddressField)) && Truthy(status) && IsValidStatus(status)
  }

  /** The two filters differ only on addresses that are present but falsy. */
  lemma KeepTruthyIsStricter(rec: Record)
    ensures KeepTruthy(rec) ==> Keep(rec)
    ensures Keep(rec) && Truthy(Get(rec.fields, AddressField)) ==> KeepTruthy(rec)
    ensures Keep(rec) && Get(rec.fields, AddressField) == VStr("") ==> !KeepTruthy(rec)
  {
  }

  /** A publishable status is never falsy, so the debug script's extra `if status:` rejects
      nothing the status list accepts: its filter is a truthy address and a valid status. */
  lemma ValidStatusIsTruthy(rec: Record)
    ensures IsValidStatus(Get(rec.fields, StatusField)) ==> Truthy(Get(rec.fields, StatusField))
    ensures KeepTruthy(rec) <==> Truthy(Get(rec.fields, AddressField)) && IsValidStatus(Get(rec.fields, StatusField))
  {
    var status := Get(rec.fields, StatusField);
    if status.VStr? && status.s in ValidStatuses {
      assert forall k :: 0 <= k < |ValidStatuses| ==> |ValidStatuses[k]| > 0;
    }
  }

  /** The price conversion: a digit string becomes its integer, an int stays, a bool
      becomes 0 or 1 (Python's `int(True)`), anything else passes through. */
  function NormalizePrice(price: Value): (r: Value)
    ensures price.VStr? && IsDigits(price.s) ==> r == VInt(DigitsValue(price.s))
    ensures price.VInt? ==> r == price
    ensures price.VBool? ==> r == VInt(if price.b then 1 else 0)
    ensures !price.VStr? && !price.VInt? && !price.VBool? ==> r == price
    ensures price.VStr? && !IsDigits(price.s) ==> r == price
  {
    match price
    case VStr(s) => if IsDigits(s) then VInt(DigitsValue(s)) else price
    case VInt(_) => price
    case VBool(b) => VInt(if b then 1 else 0)
    case _ => price
  }

  /** Normalising twice changes nothing more, and the decimal text of a number normalises to it. */
  lemma NormalizePriceProperties(price: Value, n: nat)
    ensures NormalizePrice(NormalizePrice(price)) == NormalizePrice(price)
    ensures NormalizePrice(VStr(NatToString(n))) == VInt(n)
  {
    NatToStringRoundTrip(n);
  }

  /** One map marker: `[name, address, price, status, field_values]`. */
  datatype Row = Row(name: Value, address: Value, price: Value, status: Value, extra: map<string, Value>)

  /** One row of the debug script: the marker plus `record['id']`. */
  datatype TaggedRow = TaggedRow(row: Row, recordId: Value)

  /** `[name, address, price, status, field_values]`: the address doubles as the name, the
      price is normalised, and the popup map holds the `get` value of every listed field. */
  function MakeRow(rec: Record, fields: seq<string>): (row: Row)
    ensures row.name == row.address == Get(rec.fields, AddressField)
    ensures row.price == NormalizePrice(Get(rec.fields, PriceField))
    ensures row.status == Get(rec.fields, StatusField)
    ensures row.extra.Keys == set f | f in fields
    ensures forall f :: f in row.extra ==> row.extra[f] == Get(rec.fields, f)
  {
    var address := Get(rec.fields, AddressField);
    Row(address, address, NormalizePrice(Get(rec.fields, PriceField)),
        Get(rec.fields, StatusField), Project(rec.fields, fields))
  }

  /** `row` is the row of one of the records. */
  predicate BuiltFrom(row: Row, records: seq<Record>) {
    exists j :: 0 <= j < |records| && row == MakeRow(records[j], PopupFields)
  }

  /** The processing loop of `get_airtable_data`: filter, then build one row per kept record. */
  function ToRows(records: seq<Record>): (rows: seq<Row>)
    ensures |rows| <= |records|
    ensures forall k :: 0 <= k < |rows| ==> rows[k].name == rows[k].address != VNone
    ensures forall k :: 0 <= k < |rows| ==> IsValidStatus(rows[k].status)
    ensures forall k :: 0 <= k < |rows| ==> rows[k].extra.Keys == set f | f in PopupFields
    ensures forall k :: 0 <= k < |rows| ==> BuiltFrom(rows[k], records)
  {
    if |records| == 0 then []
    else
      var rest := ToRows(records[1..]);
      ShiftWitness(records, rest);
      if Keep(records[0]) then [MakeRow(records[0], PopupFields)] + rest else rest
  }

  /** A row built from a record of the tail was built from a record of the whole list. */
  lemma ShiftWitness(records: seq<Record>, rest: seq<Row>)
    requires |records| > 0
    requires forall k :: 0 <= k < |rest| ==> BuiltFrom(rest[k], records[1..])
    ensures forall k :: 0 <= k < |rest| ==> BuiltFrom(rest[k], records)
  {
    forall k | 0 <= k < |rest| ensures BuiltFrom(rest[k], records) {
      var j :| 0 <= j < |records[1..]| && rest[k] == MakeRow(records[1..][j], PopupFields);
      assert records[1..][j] == records[j + 1];
    }
  }

  /** The rows of a concatenation are the concatenated rows: the filter keeps input order. */
  lemma {:induction false} ToRowsAppend(a: seq<Record>, b: seq<Record>)
    ensures ToRows(a + b) == ToRows(a) + ToRows(b)
    decreases |a|
  {
    if |a| == 0 {
      assert a + b == b;
    } else {
      assert (a + b)[0] == a[0];
      assert (a + b)[1..] == a[1..] + b;
      ToRowsAppend(a[1..], b);
    }
  }

  /** A single record yields its row exactly when it passes the filter. */
  lemma ToRowsSingle(rec: Record)
    ensures ToRows([rec]) == if Keep(rec) then [MakeRow(rec, PopupFields)] else []
  {
    assert [rec][1..] == [];
  }

  /** `get_airtable_data`: any exception yields `[]`; otherwise the rows of everything the
      pages delivered before the loop stopped, including after a non-200 page. `None` when
      the request budget ran out while the program would still be paging. */
  method GetAirtableData(server: Value -> Response, fuel: nat) returns (rows: Option<seq<Row>>)
    ensures var w := Walk(server, VNone, fuel);
      && (rows.None? <==> EndOf(w) == OutOfFuel)
      && (EndOf(w) == Exception ==> rows == Some([]))
      && (Stopped(EndOf(w)) ==> rows == Some(ToRows(Gathered(w))))
  {
    var f := FetchAll(server, fuel);
    if f.end == OutOfFuel {
      return None;
    } else if f.end == Exception {
      return Some([]);
    }
    rows := Some(ToRows(f.records));
  }

  /** The processing loop of `enhanced_get_airtable_data`. */
  function ToTaggedRows(records: seq<Record>): (rows: seq<TaggedRow>)
    ensures |rows| <= |records|
    ensures forall k :: 0 <= k < |rows| ==> rows[k].row.name == rows[k].row.address && Truthy(rows[k].row.address)
    ensures forall k :: 0 <= k < |rows| ==> rows[k].row.extra.Keys == set f | f in DebugPopupFields
  {
    if |records| == 0 then []
    else
      var rest := ToTaggedRows(records[1..]);
      if KeepTruthy(records[0]) then [TaggedRow(MakeRow(records[0], DebugPopupFields), records[0].id)] + rest
      else rest
  }

  lemma {:induction false} ToTaggedRowsAppend(a: seq<Record>, b: seq<Record>)
    ensures ToTaggedRows(a + b) == ToTaggedRows(a) + ToTaggedRows(b)
    decreases |a|
  {
    if |a| == 0 {
      assert a + b == b;
    } else {
      assert (a + b)[0] == a[0];
      assert (a + b)[1..] == a[1..] + b;
      ToTaggedRowsAppend(a[1..], b);
    }
  }

  lemma ToTaggedRowsSingle(rec: Record)
    ensures ToTaggedRows([rec]) == if KeepTruthy(rec) then [TaggedRow(MakeRow(rec, DebugPopupFields), rec.id)] else []
  {
    assert [rec][1..] == [];
  }

  /** `enhanced_get_airtable_data`: the rows and the number of page requests issued; `None`
      rows when the request budget ran out while the program would still be paging. */
  method EnhancedGetAirtableData(server: Value -> Response, fuel: nat) returns (rows: Option<seq<TaggedRow>>, pageCount: nat)
    ensures var w := Walk(server, VNone, fuel);
      && pageCount == |w|
      && (rows.None? <==> EndOf(w) == OutOfFuel)
      && (EndOf(w) == Exception ==> rows == Some([]))
      && (Stopped(EndOf(w)) ==> rows == Some(ToTaggedRows(Gathered(w))))
  {
    var f := FetchAll(server, fuel);
    pageCount := f.requests;
    if f.end == OutOfFuel {
      return None, pageCount;
    } else if f.end == Exception {
      return Some([]), pageCount;
    }
    rows := Some(ToTaggedRows(f.records));
  }

  /** The number of records that pass the debug script's filter. */
  function CountValid(records: seq<Record>): (n: nat)
    ensures n <= |records|
    ensures n == |ToTaggedRows(records)|
  {
    if |records| == 0 then 0
    else (if KeepTruthy(records[0]) then 1 else 0) + CountValid(records[1..])
  }

  /** What `debug_airtable_data` returns and logs. */
  datatype DebugReport = DebugReport(records: seq<Record>, valid: nat, invalid: nat)

  /** `debug_airtable_data`: one unpaginated request; an exception, a non-200 status or an
      empty page returns `[]`; otherwise every record, unfiltered, with the tallies. */
  function DebugAirtableData(response: Response): (r: DebugReport)
    ensures response.Raised? || response.status != 200 || |response.records| == 0 ==> r.records == []
    ensures response.Http? && response.status == 200 ==> r.records == response.records
    ensures r.valid + r.invalid == |r.records|
    ensures r.valid == |ToTaggedRows(r.records)|
  {
    if response.Raised? || response.status != 200 || |response.records| == 0 then DebugReport([], 0, 0)
    else
      var valid := CountValid(response.records);
      DebugReport(response.records, valid, |response.records| - valid)
  }
}

=== FILE: migration.dfy ===
/**
 The one-off migration from dated backup folders to a single folder
 (cleanup_old_backups.py): find the date folders, copy the data files and the image
 folder of the latest one up to the backup root, delete every date folder and `latest/`,
 and leave a migration note.

 The backup root is a tree of named nodes. Which filesystem operations raise is a set
 of `Op`s; the listing order of the root and the note's text (which holds the clock) are
 parameters.
 */
module Migration {
  import opened Wrappers
  import opened Text
  import opened Dates

  datatype Node = File(data: string) | Dir(children: map<string, Node>)

  /** A filesystem operation that may raise. */
  datatype Op = ListDir | Copy(name: string) | RmTree(name: string) | Move | WriteNote

  const DataFiles: seq<string> := [
    "all_properties.json", "reconstruction_properties.json", "high_yield_properties.json",
    "low_cost_properties.json", "metadata.json"
  ]
  const RequiredFiles: seq<string> := DataFiles[..4]
  const ImagesDir := "images"
  const LatestDir := "latest"
  const NoteFile := "migration_metadata.json"

  /** `str.count` of a single character. */
  function CountChar(s: string, c: char): (n: nat)
    ensures n <= |s|
    ensures n == 0 <==> c !in s
  {
    if |s| == 0 then 0 else (if s[0] == c then 1 else 0) + CountChar(s[1..], c)
  }

  /** The count is how many times the character occurs in the string. */
  lemma {:induction false} CountCharIsMultiplicity(s: string, c: char)
    ensures CountChar(s, c) == multiset(s)[c]
  {
    if |s| > 0 {
      CountCharIsMultiplicity(s[1..], c);
      assert s == [s[0]] + s[1..];
      assert multiset(s) == multiset{s[0]} + multiset(s[1..]);
    }
  }

  /** `isdir(item) and len(item) == 10 and item.count('-') == 2` and `strptime` accepts it. */
  predicate IsDateFolder(root: map<string, Node>, name: string) {
    && name in root && root[name].Dir?
    && |name| == 10 && CountChar(name, '-') == 2
    && Strptime(name).Some?
  }

  /** The elements of `xs` that satisfy `keep`, in order. */
  function Filter(xs: seq<string>, keep: string -> bool): (ys: seq<string>)
    ensures forall k :: 0 <= k < |ys| ==> ys[k] in xs && keep(ys[k])
    ensures forall k :: 0 <= k < |xs| && keep(xs[k]) ==> xs[k] in ys
  {
    if |xs| == 0 then []
    else (if keep(xs[0]) then [xs[0]] else []) + Filter(xs[1..], keep)
  }

  /** The elements of `xs` that fail `keep`, in order. */
  function Reject(xs: seq<string>, keep: string -> bool): (ys: seq<string>)
    ensures forall k :: 0 <= k < |ys| ==> ys[k] in xs && !keep(ys[k])
    ensures forall k :: 0 <= k < |xs| && !keep(xs[k]) ==> xs[k] in ys
  {
    if |xs| == 0 then []
    else (if keep(xs[0]) then [] else [xs[0]]) + Reject(xs[1..], keep)
  }

  /** A filter and its complement split a list: together they hold every element exactly as often. */
  lemma {:induction false} FilterSplits(xs: seq<string>, keep: string -> bool)
    ensures multiset(Filter(xs, keep)) + multiset(Reject(xs, keep)) == multiset(xs)
  {
    if |xs| > 0 {
      FilterSplits(xs[1..], keep);
      SplitStep(xs, keep(xs[0]), Filter(xs, keep), Reject(xs, keep), Filter(xs[1..], keep), Reject(xs[1..], keep));
    }
  }

  /** Putting the head on the side its test chooses keeps the two lists a split of the input. */
  lemma SplitStep(xs: seq<string>, kept: bool, f: seq<string>, r: seq<string>, a: seq<string>, b: seq<string>)
    requires |xs| > 0 && multiset(a) + multiset(b) == multiset(xs[1..])
    requires f == (if kept then [xs[0]] else []) + a && r == (if kept then [] else [xs[0]]) + b
    ensures multiset(f) + multiset(r) == multiset(xs)
  {
    assert xs == [xs[0]] + xs[1..];
  }

  /** The classification test as a function value. */
  function DateFolderTest(root: map<string, Node>): string -> bool {
    n => IsDateFolder(root, n)
  }

  /** `date_folders`: the date folders of the listing, in listing order. */
  function DateFolders(root: map<string, Node>, items: seq<string>): (ds: seq<string>)
    ensures forall k :: 0 <= k < |ds| ==> ds[k] in items && IsDateFolder(root, ds[k])
    ensures forall k :: 0 <= k < |items| && IsDateFolder(root, items[k]) ==> items[k] in ds
  {
    Filter(items, DateFolderTest(root))
  }

  /** `other_items`: everything else, in listing order. */
  function OtherItems(root: map<string, Node>, items: seq<string>): (os: seq<string>)
    ensures forall k :: 0 <= k < |os| ==> os[k] in items && !IsDateFolder(root, os[k])
    ensures forall k :: 0 <= k < |items| && !IsDateFolder(root, items[k]) ==> items[k] in os
  {
    Reject(items, DateFolderTest(root))
  }

  /** Every listed item lands in exactly one of the two lists. */
  lemma Partition(root: map<string, Node>, items: seq<string>)
    ensures multiset(DateFolders(root, items)) + multiset(OtherItems(root, items)) == multiset(items)
  {
    FilterSplits(items, DateFolderTest(root));
  }

  /** Every date folder that passes the length and dash test is spelled canonically or with a
      space-padded day; when none uses the space, the chosen folder is the latest date. */
  lemma LatestIsNewest(root: map<string, Node>, items: seq<string>)
    requires |DateFolders(root, items)| > 0
    requires forall k :: 0 <= k < |DateFolders(root, items)| ==> DateFolders(root, items)[k][8] != ' '
    ensures var ds := DateFolders(root, items);
      var latest := Strptime(MaxString(ds)).value;
      forall k :: 0 <= k < |ds| ==> !Before(latest, Strptime(ds[k]).value)
  {
    var ds := DateFolders(root, items);
    var m := MaxString(ds);
    forall k | 0 <= k < |ds| ensures !Before(Strptime(m).value, Strptime(ds[k]).value) {
      var a, b := Strptime(m).value, Strptime(ds[k]).value;
      StrptimeTenChars(m);
      StrptimeTenChars(ds[k]);
      assert m == Format(a) && ds[k] == Format(b);
      FormatOrder(a, b);
    }
  }

  /** A step of the migration that may raise: whether it got through, and the root it left
      either way. */
  datatype Step = Step(ok: bool, root: map<string, Node>)

  /** `shutil.copy2` of one name goes through: the source lacks it (and it is skipped), or it
      is a file whose copy does not fail. */
  predicate CopyOk(src: map<string, Node>, n: string, fails: set<Op>) {
    n !in src || (src[n].File? && Copy(n) !in fails)
  }

  /** The index of the first name whose copy raises, or the number of names. */
  function FirstFailing(src: map<string, Node>, names: seq<string>, fails: set<Op>): (i: nat)
    ensures i <= |names|
    ensures forall k :: 0 <= k < i ==> CopyOk(src, names[k], fails)
    ensures i < |names| ==> !CopyOk(src, names[i], fails)
  {
    if |names| == 0 then 0
    else if !CopyOk(src, names[0], fails) then 0
    else 1 + FirstFailing(src, names[1..], fails)
  }

  /** Copy the data files that exist in the source folder (`shutil.copy2`): onto the root, or
      into a directory of the same name there; a source that is a directory, or a copy that
      fails, raises, and the files copied before it stay where they were put. */
  function CopyFiles(root: map<string, Node>, src: map<string, Node>, names: seq<string>, fails: set<Op>): (r: Step)
    ensures r.ok <==> FirstFailing(src, names, fails) == |names|
    ensures forall n :: n in root ==> n in r.root
    ensures forall k :: 0 <= k < FirstFailing(src, names, fails) && names[k] in src ==> names[k] in r.root
    ensures forall n :: n in r.root && n !in names[..FirstFailing(src, names, fails)] ==> n in root && r.root[n] == root[n]
    decreases |names|
  {
    if |names| == 0 then Step(true, root)
    else
      var n := names[0];
      if n !in src then
        var rest := CopyFiles(root, src, names[1..], fails);
        assert names[..FirstFailing(src, names, fails)] == [n] + names[1..][..FirstFailing(src, names[1..], fails)];
        rest
      else if src[n].Dir? || Copy(n) in fails then Step(false, root)
      else
        var placed := if n in root && root[n].Dir? then Dir(root[n].children[n := src[n]]) else src[n];
        var rest := CopyFiles(root[n := placed], src, names[1..], fails);
        assert names[..FirstFailing(src, names, fails)] == [n] + names[1..][..FirstFailing(src, names[1..], fails)];
        rest
  }

  /** A file copied onto a root without a directory of that name lands at the root, and a later
      copy of another name leaves it alone. */
  lemma {:induction false} CopiedFiles(root: map<string, Node>, src: map<string, Node>, names: seq<string>, fails: set<Op>)
    requires forall i, j :: 0 <= i < j < |names| ==> names[i] != names[j]
    requires CopyFiles(root, src, names, fails).ok
    ensures var r := CopyFiles(root, src, names, fails).root;
      forall k :: 0 <= k < |names| && names[k] in src && !(names[k] in root && root[names[k]].Dir?) ==>
        names[k] in r && r[names[k]] == src[names[k]]
    ensures var r := CopyFiles(root, src, names, fails).root;
      forall k :: 0 <= k < |names| && names[k] !in src ==> (names[k] in r <==> names[k] in root) && (names[k] in root ==> r[names[k]] == root[names[k]])
    decreases |names|
  {
    if |names| > 0 {
      var n, tail := names[0], names[1..];
      var r := CopyFiles(root, src, names, fails).root;
      assert forall k :: 1 <= k < |names| ==> names[k] == tail[k - 1];
      assert n !in tail[..FirstFailing(src, tail, fails)];
      var start := if n !in src then root
        else root[n := if n in root && root[n].Dir? then Dir(root[n].children[n := src[n]]) else src[n]];
      assert r == CopyFiles(start, src, tail, fails).root;
      CopiedFiles(start, src, tail, fails);
    }
  }

  /** Move the source folder's `images` up, replacing any `images` at the root: `rmtree` of the
      old one (which raises on a file), then `shutil.move`. A move that raises leaves the root
      without `images` once the old one is gone. */
  function MoveImages(root: map<string, Node>, latest: string, fails: set<Op>): (r: Step)
    requires latest in root && root[latest].Dir? && latest != ImagesDir
    ensures r.ok && ImagesDir in root[latest].children ==>
      && ImagesDir in r.root && r.root[ImagesDir] == root[latest].children[ImagesDir]
      && latest in r.root && r.root[latest] == Dir(root[latest].children - {ImagesDir})
    ensures ImagesDir !in root[latest].children ==> r == Step(true, root)
    ensures r.ok <==> (ImagesDir !in root[latest].children ||
      (Move !in fails && (ImagesDir in root ==> root[ImagesDir].Dir? && RmTree(ImagesDir) !in fails)))
    ensures forall n :: n in root && n != ImagesDir ==> n in r.root
    ensures !r.ok ==> forall n :: n != ImagesDir ==> (n in r.root <==> n in root) && (n in r.root ==> r.root[n] == root[n])
    ensures !r.ok ==> (ImagesDir in r.root <==> ImagesDir in root && (root[ImagesDir].File? || RmTree(ImagesDir) in fails))
    ensures !r.ok && ImagesDir in r.root ==> r.root[ImagesDir] == root[ImagesDir]
    ensures forall n :: n in r.root && n != ImagesDir && n != latest ==> n in root && r.root[n] == root[n]
    ensures latest in r.root && r.root[latest].Dir?
  {
    var src := root[latest].children;
    if ImagesDir !in src then Step(true, root)
    else if ImagesDir in root && (root[ImagesDir].File? || RmTree(ImagesDir) in fails) then Step(false, root)
    else
      var cleared := root - {ImagesDir};
      if Move in fails then Step(false, cleared)
      else Step(true, cleared[ImagesDir := src[ImagesDir]][latest := Dir(src - {ImagesDir})])
  }

  /** Delete the given folders one by one; a failure is logged and skipped. Returns the root and
      `removed_count`. */
  function DeleteFolders(root: map<string, Node>, names: seq<string>, fails: set<Op>): (r: (map<string, Node>, nat))
    ensures r.0.Keys <= root.Keys
    ensures forall n :: n in r.0 ==> r.0[n] == root[n]
    decreases |names|
  {
    if |names| == 0 then (root, 0)
    else
      var n := names[0];
      if n in root && root[n].Dir? && RmTree(n) !in fails then
        var rest := DeleteFolders(root - {n}, names[1..], fails);
        (rest.0, rest.1 + 1)
      else DeleteFolders(root, names[1..], fails)
  }

  /** `removed_count` never exceeds the number of folders to delete. */
  lemma {:induction false} DeleteCountBound(root: map<string, Node>, names: seq<string>, fails: set<Op>)
    ensures DeleteFolders(root, names, fails).1 <= |names|
    decreases |names|
  {
    if |names| > 0 {
      var n := names[0];
      if n in root && root[n].Dir? && RmTree(n) !in fails {
        DeleteCountBound(root - {n}, names[1..], fails);
      } else {
        DeleteCountBound(root, names[1..], fails);
      }
    }
  }

  /** Exactly the named directories whose deletion does not fail disappear. */
  lemma {:induction false} DeleteEffect(root: map<string, Node>, names: seq<string>, fails: set<Op>)
    ensures var r := DeleteFolders(root, names, fails);
      forall n :: n in r.0 <==> n in root && (n !in names || RmTree(n) in fails || root[n].File?)
    decreases |names|
  {
    if |names| > 0 {
      var n := names[0];
      assert forall m :: m in names <==> m == n || m in names[1..];
      if n in root && root[n].Dir? && RmTree(n) !in fails {
        DeleteEffect(root - {n}, names[1..], fails);
      } else {
        DeleteEffect(root, names[1..], fails);
      }
    }
  }

  /** Every folder deleted counts once: with distinct directory names and no failures, the count
      is the number of folders. */
  lemma {:induction false} DeleteCount(root: map<string, Node>, names: seq<string>, fails: set<Op>)
    requires forall i, j :: 0 <= i < j < |names| ==> names[i] != names[j]
    requires forall k :: 0 <= k < |names| ==> names[k] in root && root[names[k]].Dir? && RmTree(names[k]) !in fails
    ensures DeleteFolders(root, names, fails).1 == |names|
    decreases |names|
  {
    if |names| > 0 {
      assert forall k :: 1 <= k < |names| ==> names[k] == names[1..][k - 1];
      DeleteCount(root - {names[0]}, names[1..], fails);
    }
  }

  lemma DistinctTail(names: seq<string>)
    requires |names| > 0 && forall i, j :: 0 <= i < j < |names| ==> names[i] != names[j]
    ensures forall i, j :: 0 <= i < j < |names[1..]| ==> names[1..][i] != names[1..][j]
  {
    forall i, j | 0 <= i < j < |names[1..]| ensures names[1..][i] != names[1..][j] {
      assert names[1..][i] == names[i + 1] && names[1..][j] == names[j + 1];
    }
  }

  lemma SetStep(keys: set<string>, kept: set<string>, n: string)
    requires n in keys && kept <= keys - {n}
    ensures |keys - kept| == |(keys - {n}) - kept| + 1
  {
    assert keys - kept == ((keys - {n}) - kept) + {n};
  }

  /** `removed_count` is the number of entries that actually vanished. */
  lemma {:induction false} DeleteCountIsVanished(root: map<string, Node>, names: seq<string>, fails: set<Op>)
    ensures var r := DeleteFolders(root, names, fails);
      r.1 == |root.Keys - r.0.Keys|
    decreases |names|
  {
    var r := DeleteFolders(root, names, fails);
    if |names| == 0 {
      assert root.Keys - r.0.Keys == {};
    } else {
      var n := names[0];
      if n in root && root[n].Dir? && RmTree(n) !in fails {
        var rest := DeleteFolders(root - {n}, names[1..], fails);
        DeleteCountIsVanished(root - {n}, names[1..], fails);
        assert (root - {n}).Keys == root.Keys - {n};
        assert r.0 == rest.0 && r.1 == rest.1 + 1;
        SetStep(root.Keys, r.0.Keys, n);
      } else {
        DeleteCountIsVanished(root, names[1..], fails);
      }
    }
  }

  /** How the migration ended, and the root it left. */
  datatype Migrated = Migrated(ok: bool, root: map<string, Node>, removed: nat, dateFolders: seq<string>)

  /** `items` is what `os.listdir` returns for `root`: each entry once. */
  predicate IsListing(root: map<string, Node>, items: seq<string>) {
    (forall i, j :: 0 <= i < j < |items| ==> items[i] != items[j])
    && (forall n :: n in root ==> n in items)
    && (forall k :: 0 <= k < |items| ==> items[k] in root)
  }

  /** Whether a root differs from another only in the data files and `images`, the entries the
      copy-and-move phase writes. */
  predicate SameBesideCopied(a: map<string, Node>, b: map<string, Node>) {
    && (forall n :: n in a && n !in DataFiles && n != ImagesDir ==> n in b && a[n] == b[n])
    && (forall n :: n in b && n !in DataFiles && n != ImagesDir ==> n in a)
  }

  /** `cleanup_old_backup_folders`: the sort only changes the order of the log lines and the
      last element, the greatest name, becomes the source of the migration. */
  function CleanupOldBackupFolders(rootExists: bool, root: map<string, Node>, items: seq<string>, fails: set<Op>, note: string): (r: Migrated)
    requires IsListing(root, items)
    ensures !rootExists || ListDir in fails ==> !r.ok && r.root == root
    ensures !r.ok ==> SameBesideCopied(r.root, root) && forall k :: 0 <= k < |r.dateFolders| ==> r.dateFolders[k] in r.root
    ensures r.ok ==> r.removed <= |r.dateFolders|
    ensures r.ok ==> forall n :: n in root && n !in r.dateFolders && n != LatestDir ==> n in r.root
    ensures r.ok ==> forall k :: 0 <= k < |r.dateFolders| && r.dateFolders[k] in r.root ==> RmTree(r.dateFolders[k]) in fails
    ensures r.ok && LatestDir in r.root ==> LatestDir in root && (RmTree(LatestDir) in fails || root[LatestDir].File?)
    ensures rootExists && ListDir !in fails && |DateFolders(root, items)| > 0 ==>
      var src := root[MaxString(DateFolders(root, items))].children;
      forall k :: 0 <= k < FirstFailing(src, DataFiles, fails) && DataFiles[k] in src ==> DataFiles[k] in r.root
  {
    if !rootExists || ListDir in fails then Migrated(false, root, 0, [])
    else
      var ds := DateFolders(root, items);
      if |ds| > 0 then
        FromLatestKeepsCopies(root, ds, fails, note);
        FromLatest(root, ds, fails, note)
      else Finish(root, ds, fails, note)
  }

  /** The copy-and-move phase from the folder `latest`: the data files, then `images`. It stops
      at the first step that raises, and the root it returns holds what was done up to there:
      the data files copied before a failing copy, and no `images` when the old one was deleted
      and the move then raised. */
  function CopyPhase(root: map<string, Node>, latest: string, fails: set<Op>): (r: Step)
    requires latest in root && root[latest].Dir? && latest !in DataFiles && latest != ImagesDir
    ensures !r.ok ==> SameBesideCopied(r.root, root)
    ensures forall n :: n in root && (r.ok || n != ImagesDir) ==> n in r.root
  {
    var src := root[latest].children;
    var copied := CopyFiles(root, src, DataFiles, fails);
    CopyTouchesDataFiles(root, src, fails);
    if !copied.ok then copied
    else
      assert latest in copied.root && copied.root[latest] == root[latest];
      var moved := MoveImages(copied.root, latest, fails);
      MoveFailureSame(copied.root, latest, fails);
      if !moved.ok then SameBesideTrans(moved.root, copied.root, root); moved
      else moved
  }

  /** Besides the data files and `images`, the phase changes only the folder `latest`, which
      stays a folder. */
  lemma CopyPhaseFrame(root: map<string, Node>, latest: string, fails: set<Op>)
    requires latest in root && root[latest].Dir? && latest !in DataFiles && latest != ImagesDir
    ensures var r := CopyPhase(root, latest, fails);
      && (forall n :: n in r.root && n !in DataFiles && n != ImagesDir && n != latest ==> n in root && r.root[n] == root[n])
      && latest in r.root && r.root[latest].Dir?
  {
    var src := root[latest].children;
    var copied := CopyFiles(root, src, DataFiles, fails);
    CopyTouchesDataFiles(root, src, fails);
    assert latest in copied.root && copied.root[latest] == root[latest];
  }

  /** The phase keeps the data files copied before a failing copy. */
  lemma CopyPhaseKeepsCopies(root: map<string, Node>, latest: string, fails: set<Op>)
    requires latest in root && root[latest].Dir? && latest !in DataFiles && latest != ImagesDir
    ensures var src := root[latest].children;
      forall k :: 0 <= k < FirstFailing(src, DataFiles, fails) && DataFiles[k] in src ==> DataFiles[k] in CopyPhase(root, latest, fails).root
  {
    var src := root[latest].children;
    var copied := CopyFiles(root, src, DataFiles, fails);
    if copied.ok {
      assert latest in copied.root && copied.root[latest] == root[latest];
      assert forall k :: 0 <= k < |DataFiles| ==> DataFiles[k] != ImagesDir;
    }
  }

  /** A copy that raises stops the phase. */
  lemma CopyPhaseCopyFails(root: map<string, Node>, latest: string, fails: set<Op>)
    requires latest in root && root[latest].Dir? && latest !in DataFiles && latest != ImagesDir
    ensures FirstFailing(root[latest].children, DataFiles, fails) < |DataFiles| ==> !CopyPhase(root, latest, fails).ok
  {
  }

  /** A move that raises after the old `images` was deleted leaves no `images`. */
  lemma CopyPhaseMoveFails(root: map<string, Node>, latest: string, fails: set<Op>)
    requires latest in root && root[latest].Dir? && latest !in DataFiles && latest != ImagesDir
    ensures var src := root[latest].children;
      (FirstFailing(src, DataFiles, fails) == |DataFiles| && ImagesDir in src && ImagesDir in root && root[ImagesDir].Dir? &&
       RmTree(ImagesDir) !in fails && Move in fails) ==> !CopyPhase(root, latest, fails).ok && ImagesDir !in CopyPhase(root, latest, fails).root
  {
    var src := root[latest].children;
    var copied := CopyFiles(root, src, DataFiles, fails);
    CopyTouchesDataFiles(root, src, fails);
    if copied.ok {
      assert latest in copied.root && copied.root[latest] == root[latest];
      assert ImagesDir in root ==> ImagesDir in copied.root && copied.root[ImagesDir] == root[ImagesDir];
    }
  }

  /** The migration once date folders were found: copy from the greatest name, move its images,
      then delete. A step that raises returns `False` with whatever it had already done to the
      root. */
  function FromLatest(root: map<string, Node>, ds: seq<string>, fails: set<Op>, note: string): (r: Migrated)
    requires |ds| > 0
    requires forall k :: 0 <= k < |ds| ==> ds[k] in root && root[ds[k]].Dir? && |ds[k]| == 10
    ensures r.dateFolders == ds
    ensures !r.ok ==> SameBesideCopied(r.root, root) && forall k :: 0 <= k < |ds| ==> ds[k] in r.root
    ensures r.ok ==> r.removed <= |ds|
    ensures r.ok ==> forall n :: n in root && n !in ds && n != LatestDir ==> n in r.root
    ensures r.ok ==> forall k :: 0 <= k < |ds| && ds[k] in r.root ==> RmTree(ds[k]) in fails
    ensures r.ok && LatestDir in r.root ==> LatestDir in root && (RmTree(LatestDir) in fails || root[LatestDir].File?)
  {
    var latest := MaxString(ds);
    NotDataFile(latest);
    var p := CopyPhase(root, latest, fails);
    FromLatestDeletes(root, ds, fails, note);
    if !p.ok then
      DatedNotData(ds);
      Migrated(false, p.root, 0, ds)
    else Finish(p.root, ds, fails, note)
  }

  /** After a successful copy phase, a date folder or `latest` is left only when its `rmtree`
      raised or `latest` is a file. */
  lemma FromLatestDeletes(root: map<string, Node>, ds: seq<string>, fails: set<Op>, note: string)
    requires |ds| > 0
    requires forall k :: 0 <= k < |ds| ==> ds[k] in root && root[ds[k]].Dir? && |ds[k]| == 10
    requires MaxString(ds) !in DataFiles && MaxString(ds) != ImagesDir
    ensures var p := CopyPhase(root, MaxString(ds), fails);
      var r := Finish(p.root, ds, fails, note);
      && (forall k :: 0 <= k < |ds| && ds[k] in r.root ==> RmTree(ds[k]) in fails)
      && (LatestDir in r.root ==> LatestDir in root && (RmTree(LatestDir) in fails || root[LatestDir].File?))
  {
    var latest := MaxString(ds);
    var p := CopyPhase(root, latest, fails);
    DatedKeptByPhase(root, ds, fails);
    CopyPhaseFrame(root, latest, fails);
    FinishLeaves(root, p.root, latest, ds, fails, note);
  }

  /** The deletion phase on the root `phased` that the copy-then-move step left, which changed
      only the data files, `images` and the folder `latest` of `root`, and kept every date
      folder a folder: a date folder is left only when its `rmtree` raised, and `latest/` only
      when it is a file or its `rmtree` raised. */
  lemma FinishLeaves(root: map<string, Node>, phased: map<string, Node>, latest: string, ds: seq<string>, fails: set<Op>, note: string)
    requires |latest| == 10
    requires forall n :: n in phased && n !in DataFiles && n != ImagesDir && n != latest ==> n in root && phased[n] == root[n]
    requires forall k :: 0 <= k < |ds| ==> ds[k] in phased && phased[ds[k]].Dir? && |ds[k]| == 10
    ensures var r := Finish(phased, ds, fails, note);
      && (forall k :: 0 <= k < |ds| && ds[k] in r.root ==> RmTree(ds[k]) in fails)
      && (LatestDir in r.root ==> LatestDir in root && (RmTree(LatestDir) in fails || root[LatestDir].File?))
  {
    assert |LatestDir| != 10;
    assert LatestDir !in ds;
    LatestDirPlain();
  }

  /** The name `latest` is neither a data file nor `images`. */
  lemma LatestDirPlain()
    ensures LatestDir !in DataFiles && LatestDir != ImagesDir
  {
    assert forall k :: 0 <= k < |DataFiles| ==> |DataFiles[k]| != |LatestDir|;
  }

  /** Every date folder is still a folder after the copy-then-move step. */
  lemma DatedKeptByPhase(root: map<string, Node>, ds: seq<string>, fails: set<Op>)
    requires |ds| > 0
    requires forall k :: 0 <= k < |ds| ==> ds[k] in root && root[ds[k]].Dir? && |ds[k]| == 10
    requires MaxString(ds) !in DataFiles && MaxString(ds) != ImagesDir
    ensures var p := CopyPhase(root, MaxString(ds), fails);
      forall k :: 0 <= k < |ds| ==> ds[k] in p.root && p.root[ds[k]].Dir?
  {
    var latest := MaxString(ds);
    var p := CopyPhase(root, latest, fails);
    CopyPhaseFrame(root, latest, fails);
    DatedNotData(ds);
    forall k | 0 <= k < |ds|
      ensures ds[k] in p.root && p.root[ds[k]].Dir?
    {
      if ds[k] != latest {
        assert ds[k] in p.root;
      }
    }
  }

  /** A copy that raises fails the migration. */
  lemma FromLatestCopyFails(root: map<string, Node>, ds: seq<string>, fails: set<Op>, note: string)
    requires |ds| > 0
    requires forall k :: 0 <= k < |ds| ==> ds[k] in root && root[ds[k]].Dir? && |ds[k]| == 10
    ensures FirstFailing(root[MaxString(ds)].children, DataFiles, fails) < |DataFiles| ==> !FromLatest(root, ds, fails, note).ok
  {
    NotDataFile(MaxString(ds));
  }

  /** Every data file the copy reached before any failure is at the root afterwards, whatever
      happened next. */
  lemma FromLatestKeepsCopies(root: map<string, Node>, ds: seq<string>, fails: set<Op>, note: string)
    requires |ds| > 0
    requires forall k :: 0 <= k < |ds| ==> ds[k] in root && root[ds[k]].Dir? && |ds[k]| == 10
    ensures var src := root[MaxString(ds)].children;
      forall k :: 0 <= k < FirstFailing(src, DataFiles, fails) && DataFiles[k] in src ==> DataFiles[k] in FromLatest(root, ds, fails, note).root
  {
    var latest := MaxString(ds);
    NotDataFile(latest);
    var p := CopyPhase(root, latest, fails);
    CopyPhaseKeepsCopies(root, latest, fails);
    if p.ok {
      DataFilesNotDated(ds);
    }
  }

  /** A move that raises after the old `images` was deleted fails the migration and leaves the
      root without `images`. */
  lemma FromLatestMoveFails(root: map<string, Node>, ds: seq<string>, fails: set<Op>, note: string)
    requires |ds| > 0
    requires forall k :: 0 <= k < |ds| ==> ds[k] in root && root[ds[k]].Dir? && |ds[k]| == 10
    ensures var src := root[MaxString(ds)].children;
      (FirstFailing(src, DataFiles, fails) == |DataFiles| && ImagesDir in src && ImagesDir in root && root[ImagesDir].Dir? &&
       RmTree(ImagesDir) !in fails && Move in fails) ==> !FromLatest(root, ds, fails, note).ok && ImagesDir !in FromLatest(root, ds, fails, note).root
  {
    NotDataFile(MaxString(ds));
    CopyPhaseMoveFails(root, MaxString(ds), fails);
  }

  /** A date folder is none of the data files and not `images`. */
  lemma DatedNotData(ds: seq<string>)
    requires forall k :: 0 <= k < |ds| ==> |ds[k]| == 10
    ensures forall k :: 0 <= k < |ds| ==> ds[k] !in DataFiles && ds[k] != ImagesDir
  {
    forall k | 0 <= k < |ds| ensures ds[k] !in DataFiles && ds[k] != ImagesDir {
      NotDataFile(ds[k]);
    }
  }

  /** No data file is named like a date folder or `latest`. */
  lemma DataFilesNotDated(ds: seq<string>)
    requires forall k :: 0 <= k < |ds| ==> |ds[k]| == 10
    ensures forall k :: 0 <= k < |DataFiles| ==> DataFiles[k] !in ds && DataFiles[k] != LatestDir
  {
    forall k | 0 <= k < |DataFiles| ensures DataFiles[k] !in ds && DataFiles[k] != LatestDir {
      assert |DataFiles[k]| != 10;
    }
  }

  /** The copy only writes the data files it reached. */
  lemma CopyTouchesDataFiles(root: map<string, Node>, src: map<string, Node>, fails: set<Op>)
    ensures SameBesideCopied(CopyFiles(root, src, DataFiles, fails).root, root)
  {
    var r := CopyFiles(root, src, DataFiles, fails);
    var i := FirstFailing(src, DataFiles, fails);
    assert forall n :: n !in DataFiles ==> n !in DataFiles[..i];
  }

  /** A move that raises changes at most `images`. */
  lemma MoveFailureSame(root: map<string, Node>, latest: string, fails: set<Op>)
    requires latest in root && root[latest].Dir? && latest != ImagesDir
    ensures !MoveImages(root, latest, fails).ok ==> SameBesideCopied(MoveImages(root, latest, fails).root, root)
  {
  }

  lemma SameBesideTrans(a: map<string, Node>, b: map<string, Node>, c: map<string, Node>)
    requires SameBesideCopied(a, b) && SameBesideCopied(b, c)
    ensures SameBesideCopied(a, c)
  {
  }

  /** Delete the date folders and `latest/`, then write the note. */
  function Finish(root: map<string, Node>, ds: seq<string>, fails: set<Op>, note: string): (r: Migrated)
    requires forall k :: 0 <= k < |ds| ==> |ds[k]| == 10
    ensures r.ok && r.dateFolders == ds && r.removed <= |ds|
    ensures forall n :: n in root && n !in ds && n != LatestDir ==> n in r.root
    ensures forall k :: 0 <= k < |ds| && ds[k] in r.root ==> ds[k] in root && (RmTree(ds[k]) in fails || root[ds[k]].File?)
    ensures LatestDir in r.root ==> LatestDir in root && (RmTree(LatestDir) in fails || root[LatestDir].File? || LatestDir in ds)
  {
    var (afterDates, count) := DeleteFolders(root, ds, fails);
    DeleteEffect(root, ds, fails);
    DeleteCountBound(root, ds, fails);
    var afterLatest :=
      if LatestDir in afterDates && afterDates[LatestDir].Dir? && RmTree(LatestDir) !in fails
      then afterDates - {LatestDir} else afterDates;
    var final :=
      if WriteNote in fails || (NoteFile in afterLatest && afterLatest[NoteFile].Dir?)
      then afterLatest else afterLatest[NoteFile := File(note)];
    Migrated(true, final, count, ds)
  }

  /** `verify_backup_structure`: the required data files that are missing, in order. */
  function MissingFiles(root: map<string, Node>): (missing: seq<string>)
    ensures forall k :: 0 <= k < |missing| ==> missing[k] in RequiredFiles && missing[k] !in root
    ensures forall k :: 0 <= k < |RequiredFiles| && RequiredFiles[k] !in root ==> RequiredFiles[k] in missing
  {
    MissingOf(root, RequiredFiles)
  }

  function MissingOf(root: map<string, Node>, names: seq<string>): (missing: seq<string>)
    ensures forall k :: 0 <= k < |missing| ==> missing[k] in names && missing[k] !in root
    ensures forall k :: 0 <= k < |names| && names[k] !in root ==> names[k] in missing
  {
    if |names| == 0 then []
    else (if names[0] in root then [] else [names[0]]) + MissingOf(root, names[1..])
  }

  /** The structure check passes exactly when all four data files exist. */
  function VerifyBackupStructure(root: map<string, Node>): (ok: bool)
    ensures ok <==> forall k :: 0 <= k < |RequiredFiles| ==> RequiredFiles[k] in root
  {
    var missing := MissingFiles(root);
    assert |missing| > 0 ==> missing[0] in RequiredFiles;
    |missing| == 0
  }

  /** The four data files are all at the root. */
  predicate HasRequired(root: map<string, Node>) {
    forall k :: 0 <= k < 4 ==> RequiredFiles[k] in root
  }

  /** A migration that succeeds from a latest folder holding the four data files passes the
      structure check. */
  lemma MigrationPassesCheck(rootExists: bool, root: map<string, Node>, items: seq<string>, fails: set<Op>, note: string)
    requires IsListing(root, items)
    requires |DateFolders(root, items)| > 0
    requires var latest := MaxString(DateFolders(root, items));
      forall k :: 0 <= k < 4 ==> RequiredFiles[k] in root[latest].children
    requires CleanupOldBackupFolders(rootExists, root, items, fails, note).ok
    ensures VerifyBackupStructure(CleanupOldBackupFolders(rootExists, root, items, fails, note).root)
  {
    var ds := DateFolders(root, items);
    assert CleanupOldBackupFolders(rootExists, root, items, fails, note) == FromLatest(root, ds, fails, note);
    FromLatestPassesCheck(root, ds, fails, note);
  }

  lemma FromLatestPassesCheck(root: map<string, Node>, ds: seq<string>, fails: set<Op>, note: string)
    requires |ds| > 0
    requires forall k :: 0 <= k < |ds| ==> ds[k] in root && root[ds[k]].Dir? && |ds[k]| == 10
    requires forall k :: 0 <= k < 4 ==> RequiredFiles[k] in root[MaxString(ds)].children
    requires FromLatest(root, ds, fails, note).ok
    ensures VerifyBackupStructure(FromLatest(root, ds, fails, note).root)
  {
    var latest := MaxString(ds);
    NotDataFile(latest);
    var p := CopyPhase(root, latest, fails);
    assert p.ok;
    CopyMoveKeepsRequired(root, latest, fails);
    FinishKeepsRequired(p.root, ds, fails, note);
  }

  /** Copying from a folder holding the data files, then moving the images, leaves them at the root. */
  lemma CopyMoveKeepsRequired(root: map<string, Node>, latest: string, fails: set<Op>)
    requires latest in root && root[latest].Dir? && latest !in DataFiles && latest != ImagesDir
    requires forall k :: 0 <= k < 4 ==> RequiredFiles[k] in root[latest].children
    requires CopyPhase(root, latest, fails).ok
    ensures HasRequired(CopyPhase(root, latest, fails).root)
  {
    var src := root[latest].children;
    RequiredNames();
    CopyPhaseKeepsCopies(root, latest, fails);
    assert FirstFailing(src, DataFiles, fails) == |DataFiles| by {
      CopyPhaseCopyFails(root, latest, fails);
    }
    forall k | 0 <= k < 4 ensures RequiredFiles[k] in CopyPhase(root, latest, fails).root {
      assert DataFiles[k] == RequiredFiles[k];
    }
  }

  /** Deleting ten-character folders and `latest/` keeps the data files. */
  lemma FinishKeepsRequired(root: map<string, Node>, ds: seq<string>, fails: set<Op>, note: string)
    requires forall k :: 0 <= k < |ds| ==> |ds[k]| == 10
    requires HasRequired(root)
    ensures VerifyBackupStructure(Finish(root, ds, fails, note).root)
  {
    RequiredNames();
    forall k | 0 <= k < 4 ensures RequiredFiles[k] !in ds {
      forall j | 0 <= j < |ds| ensures ds[j] != RequiredFiles[k] {
        assert |ds[j]| != |RequiredFiles[k]|;
      }
    }
  }

  /** A ten-character name is none of the data files and not `images`. */
  lemma NotDataFile(n: string)
    requires |n| == 10
    ensures n !in DataFiles && n != ImagesDir
  {
    assert forall k :: 0 <= k < |DataFiles| ==> |DataFiles[k]| != 10;
  }

  /** The required names are the first four data files, and none is ten characters long, `latest` or `images`. */
  lemma RequiredNames()
    ensures |RequiredFiles| == 4
    ensures forall k :: 0 <= k < 4 ==>
      RequiredFiles[k] == DataFiles[k] && |RequiredFiles[k]| != 10 && RequiredFiles[k] != LatestDir && RequiredFiles[k] != ImagesDir
  {
  }

}

=== FILE: newsconfig.dfy ===
/**
 The newsletter's configuration (real-estate-newsletter/src/config.py): the crawler's
 constants, the required-setting check and the schedule list read from the environment.
 */
module NewsConfig {
  import opened Text
  import opened Settings

  const NaverNewsUrl := "https://land.naver.com/news/headline.naver"
  /** Seconds slept before each article request. */
  const RequestDelay := 2
  /** Retries after a failed request, on top of the first attempt. */
  const MaxRetries := 3

  const ScheduleVar := "SCHEDULE_TIMES"
  const DefaultScheduleTimes := "08:00,18:00"

  /** The settings `validate_config` requires, in the order it checks them. */
  const RequiredSettings: seq<string> := [
    "ANTHROPIC_API_KEY", "THREADS_APP_ID", "THREADS_APP_SECRET", "THREADS_ACCESS_TOKEN", "THREADS_USER_ID"
  ]

  const MissingPrefix := "Missing required environment variables: "

  /** What `validate_config` does: return `True`, or raise `ValueError` with a message. */
  datatype Validation = Valid | Invalid(message: string)

  function ValidateConfig(env: Env): (r: Validation)
    ensures r.Valid? <==> forall k :: 0 <= k < |RequiredSettings| ==> !IsMissing(env, RequiredSettings[k])
    ensures r.Invalid? ==> StartsWith(r.message, MissingPrefix)
    ensures r.Invalid? ==> MissingNames(env, RequiredSettings) != []
  {
    MissingNamesEmpty(env, RequiredSettings);
    var missing := MissingNames(env, RequiredSettings);
    if missing == [] then Valid
    else Invalid(MissingPrefix + Join(missing, ", "))
  }

  /** No required name holds a comma or starts with a space. */
  lemma RequiredNamesPlain()
    ensures forall k :: 0 <= k < |RequiredSettings| ==>
      ',' !in RequiredSettings[k] && RequiredSettings[k][0] != ' '
  {
  }

  /** The error message names exactly the missing settings, in declared order: cutting the
      prefix, splitting on commas and dropping the spaces gives them back. */
  lemma ValidateConfigMessage(env: Env)
    requires ValidateConfig(env).Invalid?
    ensures var m := ValidateConfig(env).message;
      Unspaced(Split(m[|MissingPrefix|..], ',')) == MissingNames(env, RequiredSettings)
  {
    var missing := MissingNames(env, RequiredSettings);
    var m := ValidateConfig(env).message;
    assert m[|MissingPrefix|..] == Join(missing, ", ");
    RequiredNamesPlain();
    forall k | 0 <= k < |missing| ensures ',' !in missing[k] && (|missing[k]| == 0 || missing[k][0] != ' ') {
      assert missing[k] in RequiredSettings;
    }
    MissingReportRoundTrip(missing);
  }

  /** `SCHEDULE_TIMES`: the variable's value, or the default, split on commas. */
  function ScheduleTimes(env: Env): (times: seq<string>)
    ensures |times| >= 1
    ensures forall k :: 0 <= k < |times| ==> ',' !in times[k]
    ensures Join(times, ",") == if ScheduleVar in env then env[ScheduleVar] else DefaultScheduleTimes
  {
    var raw := if ScheduleVar in env then env[ScheduleVar] else DefaultScheduleTimes;
    SplitPiecesLackSep(raw, ',');
    JoinSplit(raw, ',');
    Split(raw, ',')
  }

  /** Without the variable the schedule is 08:00 and 18:00. */
  lemma DefaultSchedule(env: Env)
    requires ScheduleVar !in env
    ensures ScheduleTimes(env) == ["08:00", "18:00"]
  {
    var p: seq<string> := ["08:00", "18:00"];
    assert p[1..] == ["18:00"];
    assert Join(p, [',']) == "08:00" + [','] + "18:00";
    assert "08:00" + [','] + "18:00" == DefaultScheduleTimes;
    SplitJoin(p, ',');
  }
}

=== FILE: newsletter.dfy ===
/**
 The newsletter service (real-estate-newsletter/main.py): the summary text shown on the
 web page, the morning-only web export, the order of the daily run's stages, and the
 command-line dispatch.

 The clock (`datetime.now()`), the thumbnail scraper, the file write, the Threads
 publisher and the self-test are parameters.
 */
module Newsletter {
  import opened Wrappers
  import opened Text
  import opened Seqs
  import opened Settings
  import opened NewsConfig
  import opened Crawler
  import opened Summarizer

  // ---------------------------------------------------------------- the web summary

  const WebSummaryCap := 100

  /** A summary line as the web page shows it: `None` for a line that is blank once
      stripped; otherwise the stripped line without its leading numbering characters. */
  function WebLine(line: string): (r: Option<string>)
    ensures r.Some? <==> Strip(line) != ""
    ensures r.Some? ==> var s := Strip(line);
      && |r.value| <= |s| && r.value == s[|s| - |r.value|..]
      && (forall i :: 0 <= i < |s| - |r.value| ==> IsBulletChar(s[i]))
      && (r.value == "" || !IsBulletChar(r.value[0]))
  {
    var s := Strip(line);
    if s == "" then None else Some(TrimStart(s, IsBulletChar))
  }

  /** The kept lines of a summary, in order. */
  function WebLines(summary: string): seq<string> {
    FilterMap(Split(summary, '\n'), WebLine)
  }

  /** `_clean_summary_for_web`: the kept lines joined by single spaces; a text over 100
      characters becomes its first 97 characters and "...". */
  function WebSummary(summary: string): (r: string)
    ensures |r| <= WebSummaryCap
    ensures var joined := Join(WebLines(summary), " ");
      && (r == joined <==> |joined| <= WebSummaryCap)
      && (|joined| > WebSummaryCap ==> |r| == WebSummaryCap && r[..97] == joined[..97] && r[97..] == "...")
  {
    var joined := Join(WebLines(summary), " ");
    if |joined| > WebSummaryCap then joined[..97] + "..." else joined
  }

  /** A non-blank line made only of numbering characters gives an empty piece. */
  lemma BulletOnlyLineIsEmpty(line: string)
    requires Strip(line) != ""
    requires forall i :: 0 <= i < |Strip(line)| ==> IsBulletChar(Strip(line)[i])
    ensures WebLine(line) == Some("")
  {
  }

  /** A clean one-line summary of at most 100 characters is shown as it is. */
  lemma CleanSummaryKept(line: string)
    requires line != "" && '\n' !in line && |line| <= WebSummaryCap
    requires !IsSpace(line[0]) && !IsSpace(line[|line| - 1]) && !IsBulletChar(line[0])
    ensures WebSummary(line) == line
  {
    SplitPiecesLackSep(line, '\n');
    JoinSplit(line, '\n');
    var pieces := Split(line, '\n');
    assert pieces[0] == line;
    StripKeepsTrimmed(line);
    assert WebLine(line) == Some(line);
    assert WebLines(line) == [line];
  }

  // ---------------------------------------------------------------- the web export

  const DefaultThumbnail := "/images/default_news.jpg"
  const WebItemCap := 5

  /** One article on the web page. */
  datatype WebNews = WebNews(title: string, summary: string, url: string, thumbnail: string, published: string)

  /** The scraped thumbnail, or the default image when the scraper found none (an empty
      string counts as none). */
  function Thumbnail(found: Option<string>): (t: string)
    ensures t != ""
    ensures found.Some? && found.value != "" ==> t == found.value
    ensures found.None? || found.value == "" ==> t == DefaultThumbnail
  {
    if found.Some? && found.value != "" then found.value else DefaultThumbnail
  }

  /** The web entry for one summarised article. */
  function WebNewsOf(n: Summarized, thumb: string -> Option<string>, published: string): (w: WebNews)
    ensures w.title == n.title && w.url == n.url && w.published == published
    ensures w.summary == WebSummary(n.summary) && |w.summary| <= WebSummaryCap
    ensures w.thumbnail == Thumbnail(thumb(n.url))
  {
    WebNews(n.title, WebSummary(n.summary), n.url, Thumbnail(thumb(n.url)), published)
  }

  /** The file the web page reads: when it was written and the articles. */
  datatype WebExport = WebExport(updateTime: string, news: seq<WebNews>)

  /** `save_news_for_web`: the file contents written, or `None` when nothing is written.
      Only between 6 and 12 o'clock, and only when the write succeeds (a failed write is
      caught and logged), does it write the first five articles in order. The clock is read
      anew each time: `hour` for the check, `updateTime` for the file, and `published(k)`
      while the `k`-th article is built, after its thumbnail was fetched. */
  function SaveNewsForWeb(hour: nat, updateTime: string, items: seq<Summarized>, thumb: string -> Option<string>,
                          published: nat -> string, writeOk: bool): (r: Option<WebExport>)
    ensures r.Some? <==> 6 <= hour < 12 && writeOk
    ensures r.Some? ==> r.value.updateTime == updateTime
    ensures r.Some? ==> |r.value.news| == if |items| < WebItemCap then |items| else WebItemCap
    ensures r.Some? ==> forall k :: 0 <= k < |r.value.news| ==> r.value.news[k] == WebNewsOf(items[k], thumb, published(k))
  {
    if !(6 <= hour < 12) || !writeOk then None
    else
      var chosen := Prefix(items, WebItemCap);
      Some(WebExport(updateTime, seq(|chosen|, k requires 0 <= k < |chosen| => WebNewsOf(chosen[k], thumb, published(k)))))
  }

  // ---------------------------------------------------------------- the daily run

  /** Where `run_daily_newsletter` ended. Every outcome but `Published` returns `False`. */
  datatype Outcome = NoNewsCollected | NoSummaries | NoMainPost | PublishFailed | Published(postId: string)

  /** What the run did: the web export it wrote, if any, and where it ended. */
  datatype Run = Run(web: Option<WebExport>, outcome: Outcome)

  /** The publisher: the id of the new thread for a main post and its replies, `None` when
      posting failed. */
  type Publisher = (string, seq<string>) -> Option<string>

  /** `run_daily_newsletter`: collect, summarise, export for the web, build the posts,
      publish. `news` is what the crawler collected. The first empty stage ends the run. */
  function RunDaily(news: seq<News>, ask: Model, today: string, hour: nat,
                    updateTime: string, thumb: string -> Option<string>, published: nat -> string, writeOk: bool,
                    publish: Publisher): (r: Run)
    ensures var batch := SummarizeBatch(news, ask);
      && (news == [] ==> r == Run(None, NoNewsCollected))
      && (news != [] && batch == [] ==> r == Run(None, NoSummaries))
      && (r.web.Some? ==> news != [] && batch != [])
      && (news != [] && batch != [] ==> r.web == SaveNewsForWeb(hour, updateTime, batch, thumb, published, writeOk))
      && (r.outcome.Published? <==>
            news != [] && batch != [] && publish(ThreadsPost(batch, today), ReplyPosts(batch)).Some?
            && publish(ThreadsPost(batch, today), ReplyPosts(batch)).value != "")
      && (r.outcome.Published? ==> Some(r.outcome.postId) == publish(ThreadsPost(batch, today), ReplyPosts(batch)))
  {
    if news == [] then Run(None, NoNewsCollected)
    else
      var batch := SummarizeBatch(news, ask);
      if batch == [] then Run(None, NoSummaries)
      else
        var web := SaveNewsForWeb(hour, updateTime, batch, thumb, published, writeOk);
        var main := ThreadsPost(batch, today);
        var replies := ReplyPosts(batch);
        if main == "" then Run(web, NoMainPost)
        else
          match publish(main, replies)
          case Some(id) => if id != "" then Run(web, Published(id)) else Run(web, PublishFailed)
          case None => Run(web, PublishFailed)
  }

  /** The main post is never empty, so the run never stops at the main-post check. */
  lemma MainPostNeverEmpty(news: seq<News>, ask: Model, today: string, hour: nat,
                           updateTime: string, thumb: string -> Option<string>, published: nat -> string, writeOk: bool,
                           publish: Publisher)
    ensures RunDaily(news, ask, today, hour, updateTime, thumb, published, writeOk, publish).outcome != NoMainPost
  {
    var batch := SummarizeBatch(news, ask);
    if news != [] && batch != [] {
      var post := ThreadsPost(batch, today);
      assert StartsWith(post, MainHead(today, batch[0].title));
      assert |MainHead(today, batch[0].title)| > 0;
    }
  }

  // ---------------------------------------------------------------- the command line

  /** How the process ends: `sys.exit(code)`, or returning from `main` normally. */
  datatype Exit = ExitWith(code: nat) | Returned

  /** `main`. The service starts when `setup_logging` can create its log directory and file
      (`logOk`), the configuration is valid and the modules load (`modulesOk`); otherwise the
      error is caught and the exit code is 1. The first
      argument, lower-cased, selects the mode; `testOk` and `runOk` are what the
      self-test and the daily run return. */
  function Dispatch(env: Env, logOk: bool, modulesOk: bool, args: seq<string>, testOk: bool, runOk: bool): (r: Exit)
    ensures r == Returned <==> logOk && ValidateConfig(env).Valid? && modulesOk && args == []
    ensures r == ExitWith(0) <==>
      && logOk && ValidateConfig(env).Valid? && modulesOk && args != []
      && (ToLowerAscii(args[0]) == "help"
          || (ToLowerAscii(args[0]) == "test" && testOk)
          || (ToLowerAscii(args[0]) == "run" && runOk))
    ensures r.ExitWith? ==> r.code <= 1
  {
    if !logOk || !ValidateConfig(env).Valid? || !modulesOk then ExitWith(1)
    else if args == [] then Returned
    else CommandExit(ToLowerAscii(args[0]), testOk, runOk)
  }

  /** The exit of a command, once lower-cased. */
  function CommandExit(command: string, testOk: bool, runOk: bool): Exit {
    if command == "test" then ExitWith(if testOk then 0 else 1)
    else if command == "run" then ExitWith(if runOk then 0 else 1)
    else if command == "help" then ExitWith(0)
    else ExitWith(1)
  }

  /** The command is matched without regard to ASCII case: "RUN" runs like "run". */
  lemma DispatchIgnoresCase(env: Env, logOk: bool, modulesOk: bool, a: string, b: string, rest: seq<string>,
                            testOk: bool, runOk: bool)
    requires ToLowerAscii(a) == ToLowerAscii(b)
    ensures Dispatch(env, logOk, modulesOk, [a] + rest, testOk, runOk) == Dispatch(env, logOk, modulesOk, [b] + rest, testOk, runOk)
  {
    var x, y := [a] + rest, [b] + rest;
    assert x[0] == a && y[0] == b;
  }

  /** An unknown command fails with exit code 1. */
  lemma UnknownCommandFails(env: Env, logOk: bool, modulesOk: bool, args: seq<string>, testOk: bool, runOk: bool)
    requires args != [] && ToLowerAscii(args[0]) !in {"test", "run", "help"}
    ensures Dispatch(env, logOk, modulesOk, args, testOk, runOk) == ExitWith(1)
  {
  }
}

=== FILE: pagination.dfy ===
/**
 Cursor pagination over the listing API, shared by every script that pages through a
 table: request a page, append its records, and request again with the page's `offset`
 until a page comes back without one or with a status other than 200.

 The server is an oracle from the cursor sent to the response received; the first
 request carries no cursor (`VNone`). Because the scripts loop for as long as the
 server keeps handing out cursors, the model takes `fuel`, the most requests it issues.
 */
module Pagination {
  import opened Values

  /** What one request yields: an exception (network or JSON), or an HTTP response
      with its `records` list (empty when absent) and its `offset` field. */
  datatype Response =
    | Raised
    | Http(status: int, records: seq<Record>, offset: Value)

  /** A response after which the loop requests another page. */
  predicate Continues(r: Response) {
    r.Http? && r.status == 200 && Truthy(r.offset)
  }

  /** How the loop ended. */
  datatype End = Finished | HttpError(status: int) | Exception | OutOfFuel

  /** The loop left through one of its `break`s: a page without an offset, or a status other
      than 200. A walk that ran out of fuel instead is one the program would still be paging. */
  predicate Stopped(e: End) {
    e.Finished? || e.HttpError?
  }

  /** What the loop gathered: the records, the number of requests issued and the reason it stopped. */
  datatype Fetch = Fetch(records: seq<Record>, requests: nat, end: End)

  /** The responses received, in order, starting from `cursor` with at most `fuel` requests. */
  function Walk(server: Value -> Response, cursor: Value, fuel: nat): seq<Response>
    decreases fuel
  {
    if fuel == 0 then []
    else
      var r := server(cursor);
      if Continues(r) then [r] + Walk(server, r.offset, fuel - 1) else [r]
  }

  /** The records of the successful (status 200) responses, concatenated in order. */
  function Gathered(rs: seq<Response>): seq<Record> {
    if |rs| == 0 then []
    else
      var here := if rs[0].Http? && rs[0].status == 200 then rs[0].records else [];
      here + Gathered(rs[1..])
  }

  /** The reason a walk stopped: read off its last response. */
  function EndOf(rs: seq<Response>): End {
    if |rs| == 0 then OutOfFuel
    else
      var last := rs[|rs| - 1];
      if Continues(last) then OutOfFuel
      else if last.Raised? then Exception
      else if last.status != 200 then HttpError(last.status)
      else Finished
  }

  lemma {:induction false} GatheredAppend(a: seq<Response>, b: seq<Response>)
    ensures Gathered(a + b) == Gathered(a) + Gathered(b)
    decreases |a|
  {
    if |a| > 0 {
      assert (a + b)[0] == a[0];
      assert (a + b)[1..] == a[1..] + b;
      GatheredAppend(a[1..], b);
    } else {
      assert a + b == b;
    }
  }

  /** The shape of a walk: the first request carries no cursor, every later request carries
      the previous response's offset, every response but the last asked for another page,
      and the last one stopped the loop unless the request budget ran out. */
  lemma {:induction false} WalkShape(server: Value -> Response, cursor: Value, fuel: nat)
    ensures var w := Walk(server, cursor, fuel);
      && |w| <= fuel
      && (fuel > 0 ==> |w| > 0 && w[0] == server(cursor))
      && (forall k :: 0 <= k < |w| - 1 ==> Continues(w[k]) && w[k + 1] == server(w[k].offset))
      && (|w| > 0 && |w| < fuel ==> !Continues(w[|w| - 1]))
    decreases fuel
  {
    if fuel > 0 {
      var r := server(cursor);
      if Continues(r) {
        WalkShape(server, r.offset, fuel - 1);
        var w := Walk(server, cursor, fuel);
        var t := Walk(server, r.offset, fuel - 1);
        assert w == [r] + t;
        forall k | 0 <= k < |w| - 1
          ensures Continues(w[k]) && w[k + 1] == server(w[k].offset)
        {
          if k > 0 {
            assert w[k + 1] == t[k] && w[k] == t[k - 1];
          }
        }
      }
    }
  }

  /** One more request of a walk that has produced `seen` so far. */
  lemma WalkStep(server: Value -> Response, w: seq<Response>, seen: seq<Response>, cursor: Value, left: nat)
    requires left > 0 && w == seen + Walk(server, cursor, left)
    ensures var r := server(cursor);
      && (Continues(r) ==> w == (seen + [r]) + Walk(server, r.offset, left - 1))
      && (!Continues(r) ==> w == seen + [r] && EndOf(w) == EndOf([r]))
      && Gathered(seen + [r]) == Gathered(seen) + (if r.Http? && r.status == 200 then r.records else [])
  {
    var r := server(cursor);
    GatheredAppend(seen, [r]);
    assert [r][1..] == [];
    if !Continues(r) {
      assert w == seen + [r];
      assert (seen + [r])[|seen|] == r;
    }
  }

  /** `f` is what the loop reports after receiving the responses `w`: one request per
      response, the reason read off the last response, and the records of the successful
      pages in order (which the callers discard when the loop ended in an exception). */
  predicate Reports(f: Fetch, w: seq<Response>) {
    && f.requests == |w|
    && f.end == EndOf(w)
    && (f.end != Exception ==> f.records == Gathered(w))
  }

  lemma ReportsStop(w: seq<Response>, records: seq<Record>, r: Response)
    requires |w| > 0 && w[|w| - 1] == r && !Continues(r) && records == Gathered(w)
    ensures Reports(Fetch(records, |w|, EndOf([r])), w)
  {
  }

  lemma ReportsExhausted(w: seq<Response>, records: seq<Record>)
    requires (|w| == 0 || Continues(w[|w| - 1])) && records == Gathered(w)
    ensures Reports(Fetch(records, |w|, OutOfFuel), w)
  {
  }

  /** The pagination loop: request, check the status, append, follow the offset. */
  method FetchAll(server: Value -> Response, fuel: nat) returns (f: Fetch)
    ensures Reports(f, Walk(server, VNone, fuel))
  {
    var records: seq<Record> := [];
    var cursor := VNone;
    var left: nat := fuel;
    var seen: seq<Response> := [];
    ghost var w := Walk(server, VNone, fuel);
    while left > 0
      invariant w == seen + Walk(server, cursor, left)
      invariant |seen| == 0 || Continues(seen[|seen| - 1])
      invariant records == Gathered(seen)
      invariant |seen| + left == fuel
    {
      var r := server(cursor);
      WalkStep(server, w, seen, cursor, left);
      if r.Http? && r.status == 200 {
        records := records + r.records;
      }
      seen := seen + [r];
      if !Continues(r) {
        ReportsStop(w, records, r);
        f := Fetch(records, |seen|, EndOf([r]));
        return;
      }
      cursor := r.offset;
      left := left - 1;
    }
    ReportsExhausted(seen, records);
    assert w == seen;
    f := Fetch(records, |seen|, OutOfFuel);
  }
}

=== FILE: seqs.dfy ===
/**
 The loop shapes the scripts repeat, defined once: a prefix slice `s[:n]`, the
 "transform what passes, skip the rest" loop, and the same loop stopped by a `break`
 once enough items are collected.
 */
module Seqs {
  import opened Wrappers

  /** `s[:n]` for a non-negative `n`. */
  function Prefix<T>(s: seq<T>, n: nat): (r: seq<T>)
    ensures |r| == if |s| < n then |s| else n
    ensures r == s[..|r|]
  {
    if |s| <= n then s else s[..n]
  }

  /** `y` is what `f` makes of some element of `xs`. */
  predicate Produced<A, B(==)>(y: B, xs: seq<A>, f: A -> Option<B>) {
    exists j :: 0 <= j < |xs| && f(xs[j]) == Some(y)
  }

  /** `[f(x) for x in xs if f(x) is not None]`: the elements `f` accepts, transformed, in order. */
  function FilterMap<A, B(==)>(xs: seq<A>, f: A -> Option<B>): (ys: seq<B>)
    ensures |ys| <= |xs|
    ensures forall k :: 0 <= k < |ys| ==> Produced(ys[k], xs, f)
    ensures ys == [] <==> forall j :: 0 <= j < |xs| ==> f(xs[j]).None?
  {
    if |xs| == 0 then []
    else
      var rest := FilterMap(xs[1..], f);
      ProducedShift(rest, xs, f);
      match f(xs[0])
      case Some(y) => [y] + rest
      case None => rest
  }

  /** What the tail produces, the whole sequence produces. */
  lemma ProducedShift<A, B>(ys: seq<B>, xs: seq<A>, f: A -> Option<B>)
    requires |xs| > 0
    requires forall k :: 0 <= k < |ys| ==> Produced(ys[k], xs[1..], f)
    ensures forall k :: 0 <= k < |ys| ==> Produced(ys[k], xs, f)
  {
    forall k | 0 <= k < |ys| ensures Produced(ys[k], xs, f) {
      var j :| 0 <= j < |xs[1..]| && f(xs[1..][j]) == Some(ys[k]);
      assert xs[1..][j] == xs[j + 1];
    }
  }

  /** The loop runs element by element: the result for `xs + xs'` is the result for `xs`
      followed by the result for `xs'` (so order is kept and nothing is dropped or added). */
  lemma {:induction false} FilterMapAppend<A, B>(xs: seq<A>, xs': seq<A>, f: A -> Option<B>)
    ensures FilterMap(xs + xs', f) == FilterMap(xs, f) + FilterMap(xs', f)
    decreases |xs|
  {
    if |xs| == 0 {
      assert xs + xs' == xs';
    } else {
      assert (xs + xs')[0] == xs[0];
      assert (xs + xs')[1..] == xs[1..] + xs';
      FilterMapAppend(xs[1..], xs', f);
    }
  }

  /** The loop with `if len(ys) >= cap: break` right after an append: it stops once `cap`
      items are collected (with `cap` 0 the test first runs after one append, so one item
      gets through). */
  function FilterMapUpTo<A, B>(xs: seq<A>, f: A -> Option<B>, cap: nat): (ys: seq<B>)
    decreases |xs|
  {
    if |xs| == 0 then []
    else
      match f(xs[0])
      case None => FilterMapUpTo(xs[1..], f, cap)
      case Some(y) => if cap <= 1 then [y] else [y] + FilterMapUpTo(xs[1..], f, cap - 1)
  }

  /** Stopping early keeps exactly the first `cap` (at least one) items of the full loop. */
  lemma {:induction false} UpToIsPrefix<A, B>(xs: seq<A>, f: A -> Option<B>, cap: nat)
    ensures FilterMapUpTo(xs, f, cap) == Prefix(FilterMap(xs, f), if cap == 0 then 1 else cap)
    decreases |xs|
  {
    if |xs| > 0 {
      var rest := FilterMap(xs[1..], f);
      match f(xs[0])
      case None =>
        UpToIsPrefix(xs[1..], f, cap);
      case Some(y) =>
        assert FilterMap(xs, f) == [y] + rest;
        if cap > 1 {
          UpToIsPrefix(xs[1..], f, cap - 1);
          assert Prefix([y] + rest, cap) == [y] + Prefix(rest, cap - 1);
        }
    }
  }

  /** Hence the early-stopping loop collects at most `cap` items (one when `cap` is 0), each
      made by `f` from some element. */
  lemma UpToBounds<A, B>(xs: seq<A>, f: A -> Option<B>, cap: nat)
    ensures |FilterMapUpTo(xs, f, cap)| <= if cap == 0 then 1 else cap
    ensures forall k :: 0 <= k < |FilterMapUpTo(xs, f, cap)| ==> Produced(FilterMapUpTo(xs, f, cap)[k], xs, f)
  {
    UpToIsPrefix(xs, f, cap);
    var all := FilterMap(xs, f);
    forall k | 0 <= k < |FilterMapUpTo(xs, f, cap)| ensures Produced(FilterMapUpTo(xs, f, cap)[k], xs, f) {
      assert FilterMapUpTo(xs, f, cap)[k] == all[k];
    }
  }

  /** The sequences of `xss` one after another: `''.join(xss)` on strings. */
  function Flatten<T>(xss: seq<seq<T>>): seq<T>
    decreases |xss|
  {
    if |xss| == 0 then [] else xss[0] + Flatten(xss[1..])
  }

  /** The loop that keeps everything it is given, or nothing once one element fails: each
      result is `f` of the element at the same place. */
  function AllOrNothing<A, B>(xs: seq<A>, f: A -> Option<B>): (ys: seq<B>)
    ensures ys == [] || |ys| == |xs|
    ensures (forall j :: 0 <= j < |xs| ==> f(xs[j]).Some?) <==> |ys| == |xs|
    ensures forall k :: 0 <= k < |ys| ==> f(xs[k]) == Some(ys[k])
    decreases |xs|
  {
    if |xs| == 0 then []
    else
      match f(xs[0])
      case None => []
      case Some(y) =>
        var rest := AllOrNothing(xs[1..], f);
        if |rest| == |xs| - 1 then [y] + rest else []
  }

  /** `[f(i + k, x) for k, x in enumerate(xs)]`: each element with its number, counting from `i`. */
  function Enumerate<A, B>(xs: seq<A>, i: nat, f: (nat, A) -> B): (ys: seq<B>)
    ensures |ys| == |xs|
    ensures forall k :: 0 <= k < |xs| ==> ys[k] == f(i + k, xs[k])
    decreases |xs|
  {
    if |xs| == 0 then [] else [f(i, xs[0])] + Enumerate(xs[1..], i + 1, f)
  }
}

=== FILE: settings.dfy ===
/**
 Required-setting checks shared by the newsletter's configuration and the token manager:
 a setting counts as missing when the environment does not define it or defines it as the
 empty string (both are falsy in Python).
 */
module Settings {
  import opened Text

  /** The environment: the variables that are set, with their values. */
  type Env = map<string, string>

  predicate IsMissing(env: Env, name: string) {
    name !in env || env[name] == ""
  }

  /** The names whose setting is missing, in the order they are checked. */
  function MissingNames(env: Env, names: seq<string>): (missing: seq<string>)
    ensures |missing| <= |names|
    ensures forall k :: 0 <= k < |missing| ==> missing[k] in names && IsMissing(env, missing[k])
    ensures forall k :: 0 <= k < |names| && IsMissing(env, names[k]) ==> names[k] in missing
  {
    if |names| == 0 then []
    else (if IsMissing(env, names[0]) then [names[0]] else []) + MissingNames(env, names[1..])
  }

  /** Checking two lists in turn reports the first list's missing names, then the second's:
      the report keeps the checking order. */
  lemma {:induction false} MissingNamesAppend(env: Env, a: seq<string>, b: seq<string>)
    ensures MissingNames(env, a + b) == MissingNames(env, a) + MissingNames(env, b)
    decreases |a|
  {
    if |a| == 0 {
      assert a + b == b;
    } else {
      assert (a + b)[0] == a[0];
      assert (a + b)[1..] == a[1..] + b;
      MissingNamesAppend(env, a[1..], b);
    }
  }

  /** Nothing is reported exactly when every name is set. */
  lemma MissingNamesEmpty(env: Env, names: seq<string>)
    ensures MissingNames(env, names) == [] <==> forall k :: 0 <= k < |names| ==> !IsMissing(env, names[k])
  {
    if MissingNames(env, names) != [] {
      assert MissingNames(env, names)[0] in names;
    }
  }

  /** `", ".join(names)` written as a comma join whose later pieces carry the space. */
  function Spaced(names: seq<string>): (pieces: seq<string>)
    ensures |pieces| == |names|
    ensures |names| > 0 ==> pieces[0] == names[0]
    ensures forall k :: 1 <= k < |names| ==> pieces[k] == " " + names[k]
    decreases |names|
  {
    if |names| <= 1 then names
    else [names[0]] + Spaced([" " + names[1]] + names[2..])
  }

  /** Undo `Spaced`: drop one leading space from every piece but the first. */
  function Unspaced(pieces: seq<string>): (names: seq<string>)
    ensures |names| == |pieces|
  {
    seq(|pieces|, k requires 0 <= k < |pieces| =>
      if k > 0 && |pieces[k]| > 0 && pieces[k][0] == ' ' then pieces[k][1..] else pieces[k])
  }

  lemma {:induction false} JoinSpaced(names: seq<string>)
    ensures Join(names, ", ") == Join(Spaced(names), ",")
    decreases |names|
  {
    if |names| >= 2 {
      var rest := [" " + names[1]] + names[2..];
      var sp := Spaced(rest);
      assert Join(names, ", ") == names[0] + ("," + Join(rest, ", ")) by {
        assert names[1..] == [names[1]] + names[2..];
        JoinSpaceStep(names[1], names[2..]);
      }
      assert Join(Spaced(names), ",") == names[0] + ("," + Join(sp, ",")) by {
        assert Spaced(names) == [names[0]] + sp;
        assert ([names[0]] + sp)[1..] == sp;
      }
      JoinSpaced(rest);
    }
  }

  /** Moving the space of the separator into the following piece. */
  lemma JoinSpaceStep(first: string, rest: seq<string>)
    ensures ", " + Join([first] + rest, ", ") == "," + Join([" " + first] + rest, ", ")
  {
    if |rest| == 0 {
    } else {
      assert ([first] + rest)[1..] == rest;
      assert ([" " + first] + rest)[1..] == rest;
    }
  }

  /** The report of missing names can be read back: split it on commas and drop the spaces. */
  lemma MissingReportRoundTrip(names: seq<string>)
    requires |names| >= 1
    requires forall k :: 0 <= k < |names| ==> ',' !in names[k] && (|names[k]| == 0 || names[k][0] != ' ')
    ensures Unspaced(Split(Join(names, ", "), ',')) == names
  {
    JoinSpaced(names);
    var pieces := Spaced(names);
    forall k | 0 <= k < |pieces| ensures ',' !in pieces[k] {
      if k > 0 {
        assert pieces[k] == " " + names[k];
      }
    }
    SplitJoin(pieces, ',');
    forall k | 0 <= k < |names| ensures Unspaced(pieces)[k] == names[k] {
      if k > 0 {
        assert pieces[k][1..] == names[k];
      }
    }
  }
}

=== FILE: summarizer.dfy ===
/**
 The summariser (real-estate-newsletter/src/summarizer.py). It asks the language model
 for a short summary of each article, then shapes the summaries into the Threads main
 post, its replies, and a size-capped digest.

 The model call is a parameter: for each article it gives the reply text, or `None` when
 the call raised. The date text (`strftime('%Y년 %m월 %d일')`) is a parameter too.
 */
module Summarizer {
  import opened Wrappers
  import opened Text
  import opened Seqs
  import opened Crawler

  /** A summarised article: `{'title', 'url', 'original_content', 'summary'}`. */
  datatype Summarized = Summarized(title: string, url: string, originalContent: string, summary: string)

  /** The model: its answer to the summary prompt for an article, or `None` when the call raised. */
  type Model = News -> Option<string>

  // ---------------------------------------------------------------- summaries

  /** What `summarize_single_news` did: the summary it returned, and whether it called the model. */
  datatype Summary = Summary(text: Option<string>, asked: bool)

  /** `summarize_single_news`. An article without a title or without content is skipped
      before the model is called. Otherwise the answer is stripped. */
  function SummarizeSingle(n: News, ask: Model): (r: Summary)
    ensures r.asked <==> n.title != "" && n.content != ""
    ensures r.text.Some? ==> r.asked && ask(n).Some? && r.text.value == Strip(ask(n).value)
    ensures r.asked && ask(n).Some? ==> r.text.Some?
  {
    if n.title == "" || n.content == "" then Summary(None, false)
    else
      match ask(n)
      case None => Summary(None, true)
      case Some(answer) => Summary(Some(Strip(answer)), true)
  }

  /** What the batch loop makes of one article: an entry when its summary is not empty. */
  function SummaryEntry(ask: Model): (f: News -> Option<Summarized>)
    ensures forall n :: f(n).Some? ==>
      && f(n).value.title == n.title && f(n).value.url == n.url && f(n).value.originalContent == n.content
      && f(n).value.summary != "" && SummarizeSingle(n, ask).text == Some(f(n).value.summary)
    ensures forall n :: f(n).None? <==> SummarizeSingle(n, ask).text.None? || SummarizeSingle(n, ask).text == Some("")
  {
    (n: News) =>
      var s := SummarizeSingle(n, ask).text;
      if s.Some? && s.value != "" then Some(Summarized(n.title, n.url, n.content, s.value)) else None
  }

  /** `summarize_news_batch`: the articles whose summary is not empty, in input order. */
  function SummarizeBatch(list: seq<News>, ask: Model): (r: seq<Summarized>)
    ensures |r| <= |list|
    ensures forall k :: 0 <= k < |r| ==> r[k].summary != "" && Produced(r[k], list, SummaryEntry(ask))
  {
    FilterMap(list, SummaryEntry(ask))
  }

  /** The batch works article by article: the batch of `a + b` is the batch of `a` followed by
      the batch of `b`. */
  lemma SummarizeBatchAppend(a: seq<News>, b: seq<News>, ask: Model)
    ensures SummarizeBatch(a + b, ask) == SummarizeBatch(a, ask) + SummarizeBatch(b, ask)
  {
    FilterMapAppend(a, b, SummaryEntry(ask));
  }

  // ---------------------------------------------------------------- bullet points

  /** A summary line becomes a bullet when it is longer than 10 characters once stripped. The
      bullet is "• " followed by the stripped line without its leading numbering characters. */
  function PointOf(line: string): (p: Option<string>)
    ensures p.Some? <==> |Strip(line)| > 10
    ensures p.Some? ==> var s := Strip(line);
      && StartsWith(p.value, "• ") && |p.value| - 2 <= |s|
      && p.value[2..] == s[|s| - (|p.value| - 2)..]
      && (forall i :: 0 <= i < |s| - (|p.value| - 2) ==> IsBulletChar(s[i]))
      && (|p.value| == 2 || !IsBulletChar(p.value[2]))
  {
    var s := Strip(line);
    if |s| > 10 then
      var rest := TrimStart(s, IsBulletChar);
      assert ("• " + rest)[2..] == rest;
      Some("• " + rest)
    else None
  }

  /** The bullets of a summary: the loop over its lines stops once `cap` bullets are made. */
  function Points(summary: string, cap: nat): (points: seq<string>)
    ensures points == Prefix(FilterMap(Split(summary, '\n'), PointOf), if cap == 0 then 1 else cap)
    ensures forall k :: 0 <= k < |points| ==> Produced(points[k], Split(summary, '\n'), PointOf)
  {
    var lines := Split(summary, '\n');
    UpToIsPrefix(lines, PointOf, cap);
    UpToBounds(lines, PointOf, cap);
    FilterMapUpTo(lines, PointOf, cap)
  }

  /** Each bullet starts with "• " and comes from a summary line longer than 10 characters
      once stripped. */
  lemma PointsAreBullets(summary: string, cap: nat)
    ensures forall k :: 0 <= k < |Points(summary, cap)| ==>
      StartsWith(Points(summary, cap)[k], "• ") && Produced(Points(summary, cap)[k], Split(summary, '\n'), PointOf)
  {
    var lines := Split(summary, '\n');
    var points := Points(summary, cap);
    forall k | 0 <= k < |points| ensures StartsWith(points[k], "• ") {
      assert Produced(points[k], lines, PointOf);
      var j :| 0 <= j < |lines| && PointOf(lines[j]) == Some(points[k]);
    }
  }

  /** The bullets, one per line. */
  function Bullets(points: seq<string>): string {
    if |points| == 0 then "" else points[0] + "\n" + Bullets(points[1..])
  }

  // ---------------------------------------------------------------- the main post

  const NoNews := "오늘의 부동산 뉴스가 없습니다."
  const SourceLine := "📰 출처: 네이버부동산뉴스\n"
  const Hashtags := "#부동산뉴스 #골든래빗 #금토끼부동산"
  const MainLimit := 500

  /** The opening of the main post: the date line and the first article's title. */
  function MainHead(today: string, title: string): string {
    "📅 " + today + " 부동산 주요뉴스\n\n" + "📰 " + title + "\n\n"
  }

  /** The close of the main post: the link, the source line and the hashtags. */
  function MainTail(url: string): string {
    "\n🔗 " + url + "\n\n" + SourceLine + Hashtags
  }

  /** The main post laid out with the given bullets. */
  function MainBody(today: string, title: string, points: seq<string>, url: string): string {
    MainHead(today, title) + Bullets(points) + MainTail(url)
  }

  /** The bullets the main post keeps: up to three, or the first two when the post with three
      runs over 500 characters. */
  function MainPoints(first: Summarized, today: string): (ps: seq<string>)
    ensures ps == Prefix(Points(first.summary, 3), |ps|)
    ensures |ps| <= 3
    ensures |MainBody(today, first.title, Points(first.summary, 3), first.url)| > MainLimit ==> |ps| <= 2
    ensures |MainBody(today, first.title, Points(first.summary, 3), first.url)| <= MainLimit ==> ps == Points(first.summary, 3)
  {
    var all := Points(first.summary, 3);
    if |MainBody(today, first.title, all, first.url)| > MainLimit then Prefix(all, 2) else all
  }

  /** `create_threads_post`. With no summaries it is the fixed "no news" text. Otherwise it is
      built from the first summary alone: the date and title, the kept bullets, then the link,
      the source and the hashtags. */
  function ThreadsPost(items: seq<Summarized>, today: string): (post: string)
    ensures items == [] ==> post == NoNews
    ensures items != [] ==>
      && StartsWith(post, MainHead(today, items[0].title))
      && EndsWith(post, MainTail(items[0].url))
      && post == MainBody(today, items[0].title, MainPoints(items[0], today), items[0].url)
  {
    if items == [] then NoNews
    else
      var first := items[0];
      ConcatEnds(MainHead(today, first.title), Bullets(MainPoints(first, today)), MainTail(first.url));
      MainBody(today, first.title, MainPoints(first, today), first.url)
  }

  /** Only the first summary shapes the main post. */
  lemma ThreadsPostUsesFirstOnly(items: seq<Summarized>, items': seq<Summarized>, today: string)
    requires items != [] && items' != [] && items[0] == items'[0]
    ensures ThreadsPost(items, today) == ThreadsPost(items', today)
  {
  }

  /** The 500-character check does not bound the post: with a title over 500 characters the
      post, even rebuilt with fewer bullets, is longer than 500. */
  lemma ThreadsPostCanExceedLimit(items: seq<Summarized>, today: string)
    requires items != [] && |items[0].title| > MainLimit
    ensures |ThreadsPost(items, today)| > MainLimit
  {
    var head := MainHead(today, items[0].title);
    assert |head| >= |items[0].title|;
  }

  // ---------------------------------------------------------------- replies

  const ReplyLimit := 400

  /** A reply laid out with the given bullets: title, bullets, link, no hashtags. */
  function ReplyBody(title: string, points: seq<string>, url: string): string {
    "📰 " + title + "\n\n" + Bullets(points) + "\n🔗 " + url
  }

  /** The one-bullet reply as the code writes it: the reply layout whose one bullet gets a
      further "• " in front, although every bullet already starts with one. */
  function ShortReplyAsWritten(title: string, point: string, url: string): (r: string)
    ensures r == ReplyBody(title, ["• " + point], url)
  {
    assert Bullets(["• " + point]) == "• " + point + "\n";
    "📰 " + title + "\n\n• " + point + "\n\n🔗 " + url
  }

  /** The as-written one-bullet reply shows "• • " where the bullet starts, so it is not the
      reply layout with that one bullet. */
  lemma ShortReplyAsWrittenDoublesBullet(title: string, point: string, url: string)
    requires StartsWith(point, "• ")
    ensures var r := ShortReplyAsWritten(title, point, url);
      && OccursAt(r, "• • ", |"📰 " + title + "\n\n"|)
      && r != ReplyBody(title, [point], url)
  {
    var r := ShortReplyAsWritten(title, point, url);
    var n := |"📰 " + title + "\n\n"|;
    assert r == ("📰 " + title + "\n\n") + "• " + point + "\n\n🔗 " + url;
    assert r[n..n + 4] == "• " + point[..2];
    assert Bullets([point]) == point + "\n";
    assert |r| == |ReplyBody(title, [point], url)| + 2;
  }

  /** The one-bullet reply as intended: the bullet as it is. */
  function ShortReply(title: string, point: string, url: string): (r: string)
    ensures r == ReplyBody(title, [point], url)
  {
    assert Bullets([point]) == point + "\n";
    "📰 " + title + "\n\n" + point + "\n\n🔗 " + url
  }

  /** A reply with the given bullets, as `create_reply_posts` builds it: the full layout when
      it fits in 400 characters; otherwise the layout with the first bullet alone, given a
      second "• " in front, or `None` when there is no bullet to keep (the `clean_points[0]`
      lookup raises). */
  function ReplyText(title: string, ps: seq<string>, url: string): (r: Option<string>)
    ensures r.None? <==> |ReplyBody(title, ps, url)| > ReplyLimit && ps == []
    ensures |ReplyBody(title, ps, url)| <= ReplyLimit ==> r == Some(ReplyBody(title, ps, url))
    ensures |ReplyBody(title, ps, url)| > ReplyLimit && ps != [] ==> r == Some(ReplyBody(title, ["• " + ps[0]], url))
  {
    var full := ReplyBody(title, ps, url);
    if |full| <= ReplyLimit then Some(full)
    else if ps == [] then None
    else Some(ShortReplyAsWritten(title, ps[0], url))
  }

  /** The replies as evidently intended: the shortened reply keeps the first bullet as it is. */
  function IntendedReplyText(title: string, ps: seq<string>, url: string): (r: Option<string>)
    ensures r.None? <==> |ReplyBody(title, ps, url)| > ReplyLimit && ps == []
    ensures |ReplyBody(title, ps, url)| <= ReplyLimit ==> r == Some(ReplyBody(title, ps, url))
    ensures |ReplyBody(title, ps, url)| > ReplyLimit && ps != [] ==> r == Some(ReplyBody(title, Prefix(ps, 1), url))
  {
    var full := ReplyBody(title, ps, url);
    if |full| <= ReplyLimit then Some(full)
    else if ps == [] then None
    else
      assert Prefix(ps, 1) == [ps[0]];
      Some(ShortReply(title, ps[0], url))
  }

  /** The program's replies and the intended ones agree except on a shortened reply, where the
      program's shows "• • " at the start of its bullet. */
  lemma ReplyTextDoublesBullet(title: string, ps: seq<string>, url: string)
    requires ps != [] && StartsWith(ps[0], "• ")
    ensures |ReplyBody(title, ps, url)| <= ReplyLimit ==> ReplyText(title, ps, url) == IntendedReplyText(title, ps, url)
    ensures |ReplyBody(title, ps, url)| > ReplyLimit ==>
      && ReplyText(title, ps, url) != IntendedReplyText(title, ps, url)
      && OccursAt(ReplyText(title, ps, url).value, "• • ", |"📰 " + title + "\n\n"|)
  {
    if |ReplyBody(title, ps, url)| > ReplyLimit {
      ShortReplyAsWrittenDoublesBullet(title, ps[0], url);
      assert Prefix(ps, 1) == [ps[0]];
    }
  }

  /** The reply for one summary, keeping at most two of its bullets. */
  function Reply(n: Summarized): Option<string> {
    ReplyText(n.title, Points(n.summary, 2), n.url)
  }

  /** Every reply that had to be shortened shows "• • ": the kept bullet already starts with
      "• " before the second one is put in front. */
  lemma ShortenedReplyDoublesBullet(n: Summarized)
    requires |ReplyBody(n.title, Points(n.summary, 2), n.url)| > ReplyLimit && Reply(n).Some?
    ensures OccursAt(Reply(n).value, "• • ", |"📰 " + n.title + "\n\n"|)
  {
    var ps := Points(n.summary, 2);
    PointsAreBullets(n.summary, 2);
    ReplyTextDoublesBullet(n.title, ps, n.url);
  }

  /** `summarized_news[1:5]`: the second to fifth summaries. */
  function ReplyItems(items: seq<Summarized>): (chosen: seq<Summarized>)
    ensures |chosen| == if |items| <= 1 then 0 else if |items| >= 5 then 4 else |items| - 1
    ensures forall k :: 0 <= k < |chosen| ==> chosen[k] == items[k + 1]
  {
    if |items| <= 1 then [] else Prefix(items[1..], 4)
  }

  /** `create_reply_posts`: one reply per summary from the second to the fifth, in order. If
      any of them raises, the whole call gives no replies. */
  function ReplyPosts(items: seq<Summarized>): (r: seq<string>)
    ensures r == [] || |r| == |ReplyItems(items)|
    ensures (forall k :: 0 <= k < |ReplyItems(items)| ==> Reply(ReplyItems(items)[k]).Some?) <==> |r| == |ReplyItems(items)|
    ensures forall k :: 0 <= k < |r| ==> Reply(items[k + 1]) == Some(r[k])
  {
    AllOrNothing(ReplyItems(items), Reply)
  }

  // ---------------------------------------------------------------- the digest

  const DigestLimit := 500
  const DigestFooter := "\n📊 #부동산뉴스 #골든래빗"

  function DigestHeader(today: string): string {
    "🏠 " + today + " 부동산 뉴스 요약\n\n"
  }

  /** The first three lines of a summary joined by spaces and stripped: it neither starts nor
      ends with whitespace. */
  function SummaryHead(summary: string): (h: string)
    ensures h == [] || (!IsSpace(h[0]) && !IsSpace(h[|h| - 1]))
  {
    Strip(Join(Prefix(Split(summary, '\n'), 3), " "))
  }

  /** A summary shortened for the digest: its head as it is when at most 80 characters long,
      otherwise the head's first 80 characters followed by "...". */
  function ShortSummary(summary: string): (s: string)
    ensures |s| <= 83
    ensures |SummaryHead(summary)| <= 80 ==> s == SummaryHead(summary)
    ensures |SummaryHead(summary)| > 80 ==> |s| == 83 && s[..80] == SummaryHead(summary)[..80] && s[80..] == "..."
  {
    var joined := SummaryHead(summary);
    if |joined| > 80 then joined[..80] + "..." else joined
  }

  /** A clean one-line summary is its own head, so the digest shows it unchanged when it is at
      most 80 characters long. */
  lemma ShortSummaryOfOneLine(line: string)
    requires line != "" && '\n' !in line && !IsSpace(line[0]) && !IsSpace(line[|line| - 1])
    ensures SummaryHead(line) == line
    ensures |line| <= 80 ==> ShortSummary(line) == line
  {
    JoinSplit(line, '\n');
    SplitPiecesLackSep(line, '\n');
    var pieces := Split(line, '\n');
    assert pieces == [line];
    assert Prefix(pieces, 3) == [line];
    StripKeepsTrimmed(line);
  }

  /** The digest entry for the `i`-th summary (counting from 1). */
  function Entry(i: nat, n: Summarized): string {
    "📰 " + NatToString(i) + ". " + Prefix(n.title, 30) + "...\n" + ShortSummary(n.summary) + "\n\n"
  }

  /** How many entries the digest loop takes after `acc`: it stops at the first entry that
      would bring the text and footer over 500 characters. */
  function Fitting(acc: string, es: seq<string>): (m: nat)
    ensures m <= |es|
    decreases |es|
  {
    if |es| == 0 then 0
    else if |acc + es[0] + DigestFooter| <= DigestLimit then 1 + Fitting(acc + es[0], es[1..])
    else 0
  }

  /** The digest loop: after `acc`, each entry is added while text and footer stay within
      500 characters, and the loop stops at the first entry that does not fit. */
  function Pack(acc: string, es: seq<string>): string
    decreases |es|
  {
    if |es| == 0 then acc
    else if |acc + es[0] + DigestFooter| <= DigestLimit then Pack(acc + es[0], es[1..])
    else acc
  }

  /** The loop's text is `acc` followed by the first `Fitting` entries. */
  lemma {:induction false} PackTakesFitting(acc: string, es: seq<string>)
    ensures Pack(acc, es) == acc + Flatten(es[..Fitting(acc, es)])
    decreases |es|
  {
    if |es| > 0 && |acc + es[0] + DigestFooter| <= DigestLimit {
      var m := Fitting(acc + es[0], es[1..]);
      PackTakesFitting(acc + es[0], es[1..]);
      assert es[..m + 1][0] == es[0];
      assert es[..m + 1][1..] == es[1..][..m];
    } else {
      assert es[..0] == [];
    }
  }

  /** Whatever the loop adds keeps text and footer within 500 characters. */
  lemma {:induction false} PackFits(acc: string, es: seq<string>)
    ensures Pack(acc, es) == acc || |Pack(acc, es) + DigestFooter| <= DigestLimit
    decreases |es|
  {
    if |es| > 0 && |acc + es[0] + DigestFooter| <= DigestLimit {
      PackFits(acc + es[0], es[1..]);
    }
  }

  /** The loop stops only at an entry that does not fit. */
  lemma {:induction false} PackStopsAtOverflow(acc: string, es: seq<string>)
    requires Fitting(acc, es) < |es|
    ensures |Pack(acc, es) + es[Fitting(acc, es)] + DigestFooter| > DigestLimit
    decreases |es|
  {
    if |acc + es[0] + DigestFooter| <= DigestLimit {
      PackStopsAtOverflow(acc + es[0], es[1..]);
      assert es[1..][Fitting(acc + es[0], es[1..])] == es[Fitting(acc, es)];
    }
  }

  /** The entries the digest considers: the first three summaries, numbered from 1. */
  function DigestEntries(items: seq<Summarized>): (es: seq<string>)
    ensures |es| <= 3
    ensures forall k :: 0 <= k < |es| ==> k < |items| && es[k] == Entry(k + 1, items[k])
  {
    Enumerate(Prefix(items, 3), 1, Entry)
  }

  /** `_truncate_post_content`: the header, the entries of the first three summaries that fit,
      and the footer. It stays within 500 characters whenever header and footer do. */
  function DigestPost(items: seq<Summarized>, today: string): (r: string)
    ensures StartsWith(r, DigestHeader(today)) && EndsWith(r, DigestFooter)
    ensures |DigestHeader(today) + DigestFooter| <= DigestLimit ==> |r| <= DigestLimit
    ensures var es := DigestEntries(items);
      r == DigestHeader(today) + Flatten(es[..Fitting(DigestHeader(today), es)]) + DigestFooter
  {
    var es := DigestEntries(items);
    var text := Pack(DigestHeader(today), es);
    PackTakesFitting(DigestHeader(today), es);
    PackFits(DigestHeader(today), es);
    var es' := Flatten(es[..Fitting(DigestHeader(today), es)]);
    ConcatEnds(DigestHeader(today), es', DigestFooter);
    text + DigestFooter
  }

  /** The digest leaves out an entry only when adding it would have run over 500 characters. */
  lemma DigestStopsAtOverflow(items: seq<Summarized>, today: string)
    requires Fitting(DigestHeader(today), DigestEntries(items)) < |DigestEntries(items)|
    ensures var es := DigestEntries(items);
      var m := Fitting(DigestHeader(today), es);
      |DigestHeader(today) + Flatten(es[..m]) + es[m] + DigestFooter| > DigestLimit
  {
    var es := DigestEntries(items);
    PackStopsAtOverflow(DigestHeader(today), es);
    PackTakesFitting(DigestHeader(today), es);
  }
}

=== FILE: text.dfy ===
/**
 The handful of Python `str` operations the scripts rely on, written over `string`
 (a sequence of Unicode scalar values, which matches Python's code-point `len`).
 */
module Text {
  import opened Wrappers

  /** Python's `str.isspace()`: the characters `strip()` removes. */
  predicate IsSpace(c: char) {
    var n := c as int;
    n == 0x20 || 0x09 <= n <= 0x0D || 0x1C <= n <= 0x1F || n == 0x85 || n == 0xA0
    || n == 0x1680 || 0x2000 <= n <= 0x200A || n == 0x2028 || n == 0x2029
    || n == 0x202F || n == 0x205F || n == 0x3000
  }

  predicate IsDigit(c: char) {
    '0' <= c <= '9'
  }

  /** The set "1234567890.- •" that the summary cleaners pass to `lstrip`. */
  predicate IsBulletChar(c: char) {
    IsDigit(c) || c == '.' || c == '-' || c == ' ' || c == '•'
  }

  /** How many characters satisfying `drop` open `s[lo..hi]`. */
  function LeadCount(s: string, lo: nat, hi: nat, drop: char -> bool): (n: nat)
    requires lo <= hi <= |s|
    ensures lo + n <= hi
    ensures forall i :: lo <= i < lo + n ==> drop(s[i])
    ensures lo + n == hi || !drop(s[lo + n])
    decreases hi - lo
  {
    if lo < hi && drop(s[lo]) then 1 + LeadCount(s, lo + 1, hi, drop) else 0
  }

  /** How many characters satisfying `drop` close `s[lo..hi]`. */
  function TrailCount(s: string, lo: nat, hi: nat, drop: char -> bool): (n: nat)
    requires lo <= hi <= |s|
    ensures lo + n <= hi
    ensures forall i :: hi - n <= i < hi ==> drop(s[i])
    ensures lo + n == hi || !drop(s[hi - n - 1])
    decreases hi - lo
  {
    if lo < hi && drop(s[hi - 1]) then 1 + TrailCount(s, lo, hi - 1, drop) else 0
  }

  /** `s.lstrip(chars)`: drop the longest prefix made of characters satisfying `drop`. */
  function TrimStart(s: string, drop: char -> bool): (r: string)
    ensures |r| <= |s| && r == s[|s| - |r|..]
    ensures forall i :: 0 <= i < |s| - |r| ==> drop(s[i])
    ensures r == [] || !drop(r[0])
  {
    s[LeadCount(s, 0, |s|, drop)..]
  }

  /** Drop the characters satisfying `drop` at both ends: what is left is a slice of `s`,
      everything cut off satisfies `drop`, and the slice starts and ends with characters that do not. */
  function TrimBoth(s: string, drop: char -> bool): (r: string)
    ensures var k := LeadCount(s, 0, |s|, drop);
      && k + |r| <= |s| && r == s[k..k + |r|]
      && (forall i :: 0 <= i < k ==> drop(s[i]))
      && (forall i :: k + |r| <= i < |s| ==> drop(s[i]))
    ensures r == [] || (!drop(r[0]) && !drop(r[|r| - 1]))
  {
    var k := LeadCount(s, 0, |s|, drop);
    s[k..|s| - TrailCount(s, k, |s|, drop)]
  }

  /** `s.strip()`: the part of `s` left after dropping whitespace at both ends. */
  function Strip(s: string): (r: string)
    ensures var k := LeadCount(s, 0, |s|, IsSpace);
      && k + |r| <= |s| && r == s[k..k + |r|]
      && (forall i :: 0 <= i < k ==> IsSpace(s[i]))
      && (forall i :: k + |r| <= i < |s| ==> IsSpace(s[i]))
    ensures r == [] || (!IsSpace(r[0]) && !IsSpace(r[|r| - 1]))
  {
    TrimBoth(s, IsSpace)
  }

  /** Stripping adds no character: one absent from `s` is absent from `s.strip()`. */
  lemma StripLacks(s: string, c: char)
    requires c !in s
    ensures c !in Strip(s)
  {
  }

  /** A string that already begins and ends with non-space characters is its own strip. */
  lemma StripKeepsTrimmed(s: string)
    requires s != "" && !IsSpace(s[0]) && !IsSpace(s[|s| - 1])
    ensures Strip(s) == s
  {
  }

  predicate StartsWith(s: string, prefix: string) {
    |prefix| <= |s| && s[..|prefix|] == prefix
  }

  predicate EndsWith(s: string, suffix: string) {
    |suffix| <= |s| && s[|s| - |suffix|..] == suffix
  }

  /** A concatenation starts with its first part and ends with its last. */
  lemma ConcatEnds(a: string, b: string, c: string)
    ensures StartsWith(a + b + c, a) && EndsWith(a + b + c, c)
  {
    assert (a + b + c)[..|a|] == a;
    assert (a + b + c)[|a + b + c| - |c|..] == c;
  }

  predicate OccursAt(s: string, pat: string, i: nat) {
    i + |pat| <= |s| && s[i..i + |pat|] == pat
  }

  /** Python's `pat in s`. */
  predicate Contains(s: string, pat: string) {
    exists i: nat | i <= |s| :: OccursAt(s, pat, i)
  }

  /** `s.find(pat)` as an option: the first position where `pat` occurs. (What "first" and
      "occurs" mean is `IndexOfFinds`, kept apart so that it is brought in only where used.) */
  function IndexOf(s: string, pat: string, from: nat := 0): (r: Option<nat>)
    requires from <= |s|
    ensures r.Some? ==> from <= r.value && r.value + |pat| <= |s|
    decreases |s| - from
  {
    if OccursAt(s, pat, from) then Some(from)
    else if from == |s| then None
    else IndexOf(s, pat, from + 1)
  }

  /** `IndexOf` from `from` finds the first occurrence at or after `from`, or reports that
      there is none. */
  lemma {:induction false} IndexOfFinds(s: string, pat: string, from: nat := 0)
    requires from <= |s|
    ensures var r := IndexOf(s, pat, from);
      && (r.Some? ==> OccursAt(s, pat, r.value))
      && (r.Some? ==> forall j: nat :: from <= j < r.value ==> !OccursAt(s, pat, j))
      && (r.None? ==> forall j: nat :: from <= j ==> !OccursAt(s, pat, j))
    decreases |s| - from
  {
    if !OccursAt(s, pat, from) && from < |s| {
      IndexOfFinds(s, pat, from + 1);
    }
  }

  /** The first occurrence is the one at `i` when none comes before it. */
  lemma IndexOfIs(s: string, pat: string, i: nat)
    requires OccursAt(s, pat, i)
    requires forall j: nat :: j < i ==> !OccursAt(s, pat, j)
    ensures IndexOf(s, pat) == Some(i)
  {
    IndexOfFinds(s, pat);
  }

  lemma IndexOfDecidesContains(s: string, pat: string)
    ensures Contains(s, pat) <==> IndexOf(s, pat).Some?
  {
    IndexOfFinds(s, pat);
    if IndexOf(s, pat).Some? {
      assert OccursAt(s, pat, IndexOf(s, pat).value);
    }
  }

  /** Python's `any(w in s for w in words)`. */
  predicate ContainsAny(s: string, words: seq<string>) {
    exists w :: w in words && Contains(s, w)
  }

  /** Python's `s.split(sep)` for a one-character separator. */
  function Split(s: string, sep: char): (parts: seq<string>)
    ensures |parts| >= 1
    decreases |s|
  {
    if sep !in s then [s]
    else
      var i := FirstIndexOf(s, sep);
      [s[..i]] + Split(s[i + 1..], sep)
  }

  /** No piece of a split holds the separator. */
  lemma {:induction false} SplitPiecesLackSep(s: string, sep: char)
    ensures forall k :: 0 <= k < |Split(s, sep)| ==> sep !in Split(s, sep)[k]
    decreases |s|
  {
    if sep in s {
      var i := FirstIndexOf(s, sep);
      var rest := Split(s[i + 1..], sep);
      SplitPiecesLackSep(s[i + 1..], sep);
      assert Split(s, sep) == [s[..i]] + rest;
    }
  }

  /** Joining the pieces of a split with the separator gives the text back. */
  lemma {:induction false} JoinSplit(s: string, sep: char)
    ensures Join(Split(s, sep), [sep]) == s
    decreases |s|
  {
    if sep in s {
      var i := FirstIndexOf(s, sep);
      var tail := s[i + 1..];
      var rest := Split(tail, sep);
      JoinSplit(tail, sep);
      var parts := [s[..i]] + rest;
      assert Split(s, sep) == parts;
      assert parts[0] == s[..i] && parts[1..] == rest && |parts| > 1;
      assert Join(parts, [sep]) == s[..i] + [sep] + tail;
      assert s == s[..i] + [sep] + tail;
    }
  }

  /** `s.split(sep)[0]`: the text before the first separator, or all of `s` without one. */
  lemma SplitHead(s: string, sep: char)
    ensures var h := Split(s, sep)[0];
      && |h| <= |s| && h == s[..|h|] && sep !in h
      && (|h| == |s| || s[|h|] == sep)
  {
  }

  /** Position of the first `c` in `s`. */
  function FirstIndexOf(s: string, c: char): (i: nat)
    requires c in s
    ensures i < |s| && s[i] == c && c !in s[..i]
  {
    if s[0] == c then 0 else FirstIndexOf(s[1..], c) + 1
  }

  /** The first `c` is the one at `k` when none comes before it. */
  lemma FirstIndexOfIs(s: string, c: char, k: nat)
    requires k < |s| && s[k] == c && c !in s[..k]
    ensures FirstIndexOf(s, c) == k
  {
    if k > 0 {
      assert s[..k][0] == s[0];
      assert s[1..][..k - 1] == s[..k][1..];
      FirstIndexOfIs(s[1..], c, k - 1);
    }
  }

  /** Python's `sep.join(parts)`. */
  function Join(parts: seq<string>, sep: string): string {
    if |parts| == 0 then ""
    else if |parts| == 1 then parts[0]
    else parts[0] + sep + Join(parts[1..], sep)
  }

  /** Joining pieces that do not contain the separator and splitting again gives the pieces back. */
  lemma {:induction false} SplitJoin(parts: seq<string>, sep: char)
    requires |parts| >= 1
    requires forall k :: 0 <= k < |parts| ==> sep !in parts[k]
    ensures Split(Join(parts, [sep]), sep) == parts
    decreases |parts|
  {
    if |parts| == 1 {
    } else {
      var s := Join(parts, [sep]);
      assert s == parts[0] + [sep] + Join(parts[1..], [sep]);
      assert sep in s by { assert s[|parts[0]|] == sep; }
      var i := FirstIndexOf(s, sep);
      FirstIndexOfIs(s, sep, |parts[0]|);
      assert s[..i] == parts[0];
      assert s[i + 1..] == Join(parts[1..], [sep]);
      SplitJoin(parts[1..], sep);
    }
  }

  /** Splitting at the first separator: the text before it, then the pieces of the rest. */
  lemma SplitAt(s: string, sep: char, i: nat)
    requires i < |s| && s[i] == sep && sep !in s[..i]
    ensures Split(s, sep) == [s[..i]] + Split(s[i + 1..], sep)
  {
    FirstIndexOfIs(s, sep, i);
  }

  /** Splitting at a separator placed between two texts splits each of them. */
  lemma {:induction false} SplitAppend(a: string, sep: char, b: string)
    ensures Split(a + [sep] + b, sep) == Split(a, sep) + Split(b, sep)
    decreases |a|
  {
    var s := a + [sep] + b;
    if sep !in a {
      assert Split(s, sep) == [a] + Split(b, sep) by {
        assert s[..|a|] == a;
        SplitAt(s, sep, |a|);
        assert s[|a| + 1..] == b;
      }
    } else {
      var i := FirstIndexOf(a, sep);
      var t := a[i + 1..];
      assert Split(s, sep) == [a[..i]] + Split(t + [sep] + b, sep) by {
        assert s[..i] == a[..i];
        SplitAt(s, sep, i);
        assert s[i + 1..] == t + [sep] + b;
      }
      assert Split(a, sep) == [a[..i]] + Split(t, sep) by {
        SplitAt(a, sep, i);
      }
      SplitAppend(t, sep, b);
      ConsAssoc(a[..i], Split(t, sep), Split(b, sep));
    }
  }

  lemma ConsAssoc<T>(x: T, p: seq<T>, q: seq<T>)
    ensures [x] + p + q == [x] + (p + q)
  {
  }

  lemma Assoc<T>(p: seq<T>, q: seq<T>, r: seq<T>)
    ensures p + q + r == p + (q + r)
  {
  }

  /** Python's `str.lower()` restricted to ASCII letters. */
  function ToLowerAscii(s: string): (r: string)
    ensures |r| == |s|
    ensures forall i :: 0 <= i < |s| ==> ('A' <= s[i] <= 'Z' ==> r[i] as int == s[i] as int + 32)
    ensures forall i :: 0 <= i < |s| ==> (!('A' <= s[i] <= 'Z') ==> r[i] == s[i])
  {
    if |s| == 0 then ""
    else
      var c := if 'A' <= s[0] <= 'Z' then (s[0] as int + 32) as char else s[0];
      [c] + ToLowerAscii(s[1..])
  }

  /** `s.isdigit()` for ASCII digits: non-empty and all digits. */
  predicate IsDigits(s: string) {
    |s| > 0 && forall i :: 0 <= i < |s| ==> IsDigit(s[i])
  }

  /** `int(s)` for a string of ASCII digits. */
  function DigitsValue(s: string): (n: nat)
    requires forall i :: 0 <= i < |s| ==> IsDigit(s[i])
    decreases |s|
  {
    if |s| == 0 then 0
    else
      assert IsDigit(s[|s| - 1]);
      DigitsValue(s[..|s| - 1]) * 10 + (s[|s| - 1] as int - '0' as int)
  }

  /** `str(n)` for a natural number. */
  function NatToString(n: nat): (s: string)
    ensures IsDigits(s)
    ensures |s| == 1 || s[0] != '0'
  {
    if n < 10 then [('0' as int + n) as char]
    else NatToString(n / 10) + [('0' as int + n % 10) as char]
  }

  /** Reading back the decimal text of a number gives the number. */
  lemma {:induction false} NatToStringRoundTrip(n: nat)
    ensures DigitsValue(NatToString(n)) == n
  {
    if n >= 10 {
      var s := NatToString(n);
      assert s[..|s| - 1] == NatToString(n / 10);
      NatToStringRoundTrip(n / 10);
    }
  }

  /** Python's `<` on strings: code-point lexicographic order. */
  predicate LexLess(a: string, b: string)
    decreases |a|
  {
    if |a| == 0 then |b| > 0
    else if |b| == 0 then false
    else if a[0] != b[0] then a[0] < b[0]
    else LexLess(a[1..], b[1..])
  }

  lemma {:induction false} LexLessIrreflexive(a: string)
    ensures !LexLess(a, a)
    decreases |a|
  {
    if |a| > 0 {
      LexLessIrreflexive(a[1..]);
    }
  }

  lemma {:induction false} LexLessTotal(a: string, b: string)
    ensures a == b || LexLess(a, b) || LexLess(b, a)
    ensures !(LexLess(a, b) && LexLess(b, a))
    decreases |a|
  {
    if |a| > 0 && |b| > 0 && a[0] == b[0] {
      LexLessTotal(a[1..], b[1..]);
      if a[1..] == b[1..] {
        assert a == [a[0]] + a[1..] && b == [b[0]] + b[1..];
      }
    }
  }

  lemma {:induction false} LexLessTransitive(a: string, b: string, c: string)
    requires LexLess(a, b) && LexLess(b, c)
    ensures LexLess(a, c)
    decreases |a|
  {
    if |a| > 0 && |b| > 0 && |c| > 0 && a[0] == b[0] && b[0] == c[0] {
      LexLessTransitive(a[1..], b[1..], c[1..]);
    }
  }

  /** Comparing two strings that start with prefixes of equal length: the prefixes decide
      unless they are equal, in which case the rests decide. */
  lemma {:induction false} LexLessConcat(x: string, y: string, x': string, y': string)
    requires |x| == |x'|
    ensures LexLess(x + y, x' + y') <==> (LexLess(x, x') || (x == x' && LexLess(y, y')))
    decreases |x|
  {
    if |x| == 0 {
      assert x + y == y && x' + y' == y';
      assert x == x';
    } else {
      assert (x + y)[0] == x[0] && (x' + y')[0] == x'[0];
      assert (x + y)[1..] == x[1..] + y && (x' + y')[1..] == x'[1..] + y';
      LexLessConcat(x[1..], y, x'[1..], y');
      if x[0] == x'[0] {
        assert x == x' <==> x[1..] == x'[1..] by {
          assert x == [x[0]] + x[1..] && x' == [x'[0]] + x'[1..];
        }
      }
    }
  }

  /** The greatest string under `LexLess`: what `sorted(names)[-1]` picks. */
  function MaxString(names: seq<string>): (m: string)
    requires |names| > 0
    ensures m in names
    ensures forall k :: 0 <= k < |names| ==> !LexLess(m, names[k])
  {
    if |names| == 1 then
      LexLessIrreflexive(names[0]);
      names[0]
    else
      var rest := MaxString(names[1..]);
      assert forall k :: 1 <= k < |names| ==> names[k] == names[1..][k - 1];
      if LexLess(rest, names[0]) then
        forall k | 0 <= k < |names| ensures !LexLess(names[0], names[k]) {
          if k == 0 {
            LexLessIrreflexive(names[0]);
          } else {
            LexLessTotal(rest, names[0]);
            if LexLess(names[0], names[k]) {
              LexLessTransitive(rest, names[0], names[k]);
            }
          }
        }
        names[0]
      else
        LexLessTotal(rest, names[0]);
        rest
  }
}

=== FILE: thumbnails.dfy ===
/**
 The blog thumbnail saver (save_blog_thumbnails.py): for the first ten feed entries, read
 the post's log number from its link, skip a thumbnail already on disk, and otherwise
 download the post's first image with up to three attempts, counting what was downloaded,
 skipped and failed.

 The feed, the HTML parsing of an entry's summary (given as the first image's `src`),
 each download attempt, the sleeps and the logging are parameters or left out. The save
 directory is a set of file names.
 */
module BlogThumbnails {
  import opened Wrappers
  import opened Text
  import opened Seqs

  const EntryCap := 10
  const MaxAttempts := 3

  /** A feed entry: its link and the `src` of the first `img` in its summary, if any. */
  datatype Entry = Entry(link: string, image: Option<string>)

  // ---------------------------------------------------------------- the log number

  /** `re.search(r'/(\d+)', link)` can match at `i`: a '/' followed by a digit. */
  predicate SlashDigit(link: string, i: nat) {
    i + 1 < |link| && link[i] == '/' && IsDigit(link[i + 1])
  }

  /** The first place from `from` on where the pattern matches. */
  function FindSlashDigit(link: string, from: nat): (r: Option<nat>)
    ensures r.Some? ==> from <= r.value && SlashDigit(link, r.value)
    ensures r.Some? ==> forall j :: from <= j < r.value ==> !SlashDigit(link, j)
    ensures r.None? ==> forall j :: from <= j ==> !SlashDigit(link, j)
    decreases |link| - from
  {
    if from + 1 >= |link| then None
    else if SlashDigit(link, from) then Some(from)
    else FindSlashDigit(link, from + 1)
  }

  /** `match.group(1)`: the whole run of digits after the first '/' that has one. */
  function LogNumber(link: string): (r: Option<string>)
    ensures r.None? <==> forall j :: 0 <= j ==> !SlashDigit(link, j)
    ensures r.Some? ==> exists i :: IsLogNumberAt(link, i, r.value)
  {
    match FindSlashDigit(link, 0)
    case None => None
    case Some(i) =>
      var n := LeadCount(link, i + 1, |link|, IsDigit);
      assert IsLogNumberAt(link, i, link[i + 1..i + 1 + n]);
      Some(link[i + 1..i + 1 + n])
  }

  /** `digits` is the group the pattern captures when its first match starts at `i`: no
      earlier match, the digits follow the '/', and the run is as long as it can be. */
  predicate IsLogNumberAt(link: string, i: nat, digits: string) {
    && SlashDigit(link, i)
    && (forall j :: 0 <= j < i ==> !SlashDigit(link, j))
    && IsDigits(digits)
    && i + 1 + |digits| <= |link| && link[i + 1..i + 1 + |digits|] == digits
    && (i + 1 + |digits| == |link| || !IsDigit(link[i + 1 + |digits|]))
  }

  /** A link made of a part without the pattern, a '/', the number and a tail that does not
      start with a digit gives that number. */
  lemma LogNumberOf(head: string, digits: string, tail: string)
    requires forall j :: 0 <= j ==> !SlashDigit(head, j)
    requires IsDigits(digits) && (tail == "" || !IsDigit(tail[0]))
    ensures LogNumber(head + "/" + digits + tail) == Some(digits)
  {
    var link := head + "/" + digits + tail;
    LogNumberAtHead(head, digits, tail);
    var r := LogNumber(link);
    var i :| IsLogNumberAt(link, i, r.value);
    assert SlashDigit(link, i) && SlashDigit(link, |head|);
    assert i == |head|;
    LogNumberUnique(link, i, r.value, digits);
  }

  /** In such a link the pattern first matches at the '/' after the head. */
  lemma LogNumberAtHead(head: string, digits: string, tail: string)
    requires forall j :: 0 <= j ==> !SlashDigit(head, j)
    requires IsDigits(digits) && (tail == "" || !IsDigit(tail[0]))
    ensures IsLogNumberAt(head + "/" + digits + tail, |head|, digits)
  {
    var link := head + "/" + digits + tail;
    var i := |head|;
    forall j | 0 <= j < i ensures !SlashDigit(link, j) {
      if j + 1 < i {
        assert link[j] == head[j] && link[j + 1] == head[j + 1];
        assert !SlashDigit(head, j);
      } else {
        assert link[j + 1] == '/';
      }
    }
    assert link[i] == '/' && link[i + 1] == digits[0];
    assert link[i + 1..i + 1 + |digits|] == digits;
    assert i + 1 + |digits| < |link| ==> link[i + 1 + |digits|] == tail[0];
  }

  /** Two maximal digit runs starting at the same place are the same. */
  lemma LogNumberUnique(link: string, i: nat, a: string, b: string)
    requires IsLogNumberAt(link, i, a) && IsLogNumberAt(link, i, b)
    ensures a == b
  {
    forall p | i + 1 <= p < i + 1 + |a| ensures IsDigit(link[p]) {
      assert link[i + 1..i + 1 + |a|][p - i - 1] == a[p - i - 1];
    }
    forall p | i + 1 <= p < i + 1 + |b| ensures IsDigit(link[p]) {
      assert link[i + 1..i + 1 + |b|][p - i - 1] == b[p - i - 1];
    }
    assert |a| == |b|;
  }

  /** `f"{log_no}.jpg"`. */
  function ImageName(logNo: string): string {
    logNo + ".jpg"
  }

  /** Different log numbers never share a file. */
  lemma ImageNamesDistinct(a: string, b: string)
    requires a != b
    ensures ImageName(a) != ImageName(b)
  {
    assert |ImageName(a)| == |a| + 4 && ImageName(a)[..|a|] == a;
    assert |ImageName(b)| == |b| + 4 && ImageName(b)[..|b|] == b;
  }

  // ---------------------------------------------------------------- the retries

  /** The attempts made for one image and whether one of them saved it. */
  datatype Tries = Tries(attempts: nat, ok: bool)

  /** `for attempt in range(3)` from attempt `k` on. `fetch(url, k)` is true when attempt
      `k` got status 200 and the file was written; a non-200 status and an exception are
      alike. */
  function RetryFrom(url: string, fetch: (string, nat) -> bool, k: nat): (t: Tries)
    requires k <= MaxAttempts
    ensures k <= t.attempts <= MaxAttempts
    ensures t.ok <==> exists a :: k <= a < MaxAttempts && fetch(url, a)
    ensures t.ok ==> k < t.attempts && fetch(url, t.attempts - 1)
    ensures forall a :: k <= a < t.attempts - 1 ==> !fetch(url, a)
    ensures !t.ok ==> t.attempts == MaxAttempts
    decreases MaxAttempts - k
  {
    if k == MaxAttempts then Tries(MaxAttempts, false)
    else if fetch(url, k) then Tries(k + 1, true)
    else RetryFrom(url, fetch, k + 1)
  }

  /** The whole retry loop: one to three attempts, stopping at the first that saves the
      image; three failed attempts in a row give up. */
  function Retry(url: string, fetch: (string, nat) -> bool): (t: Tries)
    ensures 1 <= t.attempts <= MaxAttempts
    ensures t.ok <==> exists a :: 0 <= a < MaxAttempts && fetch(url, a)
    ensures t.ok ==> fetch(url, t.attempts - 1) && forall a :: 0 <= a < t.attempts - 1 ==> !fetch(url, a)
    ensures !t.ok ==> t.attempts == MaxAttempts
  {
    RetryFrom(url, fetch, 0)
  }

  // ---------------------------------------------------------------- one entry

  /** What the loop did with one entry. */
  datatype EntryOutcome =
    | NoLogNumber
    | AlreadyThere(name: string)
    | NoImage(name: string)
    | Downloaded(name: string, attempts: nat)
    | GaveUp(name: string, attempts: nat)

  /** One turn of the loop, given the files already in the save directory. */
  function ProcessEntry(e: Entry, files: set<string>, fetch: (string, nat) -> bool): (o: EntryOutcome)
    ensures o.NoLogNumber? <==> LogNumber(e.link).None?
    ensures !o.NoLogNumber? ==> o.name == ImageName(LogNumber(e.link).value)
    ensures o.AlreadyThere? <==> !o.NoLogNumber? && o.name in files
    ensures o.NoImage? <==> !o.NoLogNumber? && o.name !in files && e.image.None?
    ensures o.Downloaded? || o.GaveUp? ==>
      e.image.Some? && o.name !in files && Tries(o.attempts, o.Downloaded?) == Retry(e.image.value, fetch)
  {
    match LogNumber(e.link)
    case None => NoLogNumber
    case Some(logNo) =>
      var name := ImageName(logNo);
      if name in files then AlreadyThere(name)
      else match e.image
        case None => NoImage(name)
        case Some(url) =>
          var t := Retry(url, fetch);
          if t.ok then Downloaded(name, t.attempts) else GaveUp(name, t.attempts)
  }

  /** A thumbnail already on disk is skipped without any download attempt, whatever the
      attempts would have answered. */
  lemma ExistingFileSkipped(e: Entry, files: set<string>, fetch: (string, nat) -> bool, fetch': (string, nat) -> bool)
    requires LogNumber(e.link).Some? && ImageName(LogNumber(e.link).value) in files
    ensures ProcessEntry(e, files, fetch) == AlreadyThere(ImageName(LogNumber(e.link).value))
    ensures ProcessEntry(e, files, fetch) == ProcessEntry(e, files, fetch')
  {
  }

  // ---------------------------------------------------------------- the loop

  /** The entries' outcomes, in order, and the save directory afterwards. */
  datatype Pass = Pass(outcomes: seq<EntryOutcome>, files: set<string>)

  /** The loop over the entries; each download adds its file, which later entries see. */
  function ProcessAll(entries: seq<Entry>, files: set<string>, fetch: (string, nat) -> bool): (p: Pass)
    ensures |p.outcomes| == |entries|
    ensures files <= p.files
    ensures forall k :: 0 <= k < |entries| && p.outcomes[k].Downloaded? ==> p.outcomes[k].name in p.files
    ensures forall f :: f in p.files && f !in files ==>
      exists k :: 0 <= k < |entries| && p.outcomes[k].Downloaded? && p.outcomes[k].name == f
    decreases |entries|
  {
    if |entries| == 0 then Pass([], files)
    else
      var o := ProcessEntry(entries[0], files, fetch);
      var files' := if o.Downloaded? then files + {o.name} else files;
      var rest := ProcessAll(entries[1..], files', fetch);
      var p := Pass([o] + rest.outcomes, rest.files);
      assert forall k :: 1 <= k < |p.outcomes| ==> p.outcomes[k] == rest.outcomes[k - 1];
      forall f | f in p.files && f !in files
        ensures exists k :: 0 <= k < |entries| && p.outcomes[k].Downloaded? && p.outcomes[k].name == f {
        if f in files' {
          assert p.outcomes[0] == o;
        } else {
          var k :| 0 <= k < |entries| - 1 && rest.outcomes[k].Downloaded? && rest.outcomes[k].name == f;
          assert p.outcomes[k + 1] == rest.outcomes[k];
        }
      }
      p
  }

  /** Each outcome is what the entry at its place made of the directory as the earlier
      entries left it. */
  lemma {:induction false} ProcessAllStep(entries: seq<Entry>, files: set<string>, fetch: (string, nat) -> bool)
    requires |entries| > 0
    ensures var o := ProcessEntry(entries[0], files, fetch);
      var files' := if o.Downloaded? then files + {o.name} else files;
      ProcessAll(entries, files, fetch) ==
        Pass([o] + ProcessAll(entries[1..], files', fetch).outcomes, ProcessAll(entries[1..], files', fetch).files)
  {
  }

  /** An entry whose thumbnail was just downloaded makes a later entry with the same log
      number a skip. */
  lemma SameLogNumberSkippedAfterDownload(e: Entry, e': Entry, files: set<string>, fetch: (string, nat) -> bool)
    requires ProcessEntry(e, files, fetch).Downloaded?
    requires LogNumber(e'.link) == LogNumber(e.link)
    ensures ProcessAll([e, e'], files, fetch).outcomes[1] == AlreadyThere(ProcessEntry(e, files, fetch).name)
  {
    var o := ProcessEntry(e, files, fetch);
    assert [e, e'][1..] == [e'];
    ProcessAllStep([e, e'], files, fetch);
    ProcessAllStep([e'], files + {o.name}, fetch);
  }

  // ---------------------------------------------------------------- the counters

  /** `downloaded_count`, `skipped_count`, `failed_count`. */
  datatype Counts = Counts(downloaded: nat, skipped: nat, failed: nat)

  /** How many outcomes belong to entries that had a log number. */
  function Numbered(outs: seq<EntryOutcome>): (n: nat)
    ensures n <= |outs|
    ensures n == |outs| <==> forall k :: 0 <= k < |outs| ==> !outs[k].NoLogNumber?
    ensures n == 0 <==> forall k :: 0 <= k < |outs| ==> outs[k].NoLogNumber?
    decreases |outs|
  {
    if |outs| == 0 then 0
    else
      var rest := Numbered(outs[1..]);
      assert forall k :: 1 <= k < |outs| ==> outs[k] == outs[1..][k - 1];
      (if outs[0].NoLogNumber? then 0 else 1) + rest
  }

  /** The counters after the loop: a download adds to `downloaded`, an existing file to
      `skipped`, a missing image or three failed attempts to `failed` (once); an entry
      without a log number to none. */
  function Tally(outs: seq<EntryOutcome>): (c: Counts)
    ensures c.downloaded + c.skipped + c.failed == Numbered(outs)
    decreases |outs|
  {
    if |outs| == 0 then Counts(0, 0, 0)
    else
      var c := Tally(outs[1..]);
      match outs[0]
      case NoLogNumber => c
      case AlreadyThere(_) => c.(skipped := c.skipped + 1)
      case Downloaded(_, _) => c.(downloaded := c.downloaded + 1)
      case NoImage(_) => c.(failed := c.failed + 1)
      case GaveUp(_, _) => c.(failed := c.failed + 1)
  }

  /** The counters add up entry by entry. */
  lemma {:induction false} TallyAppend(a: seq<EntryOutcome>, b: seq<EntryOutcome>)
    ensures Tally(a + b).downloaded == Tally(a).downloaded + Tally(b).downloaded
    ensures Tally(a + b).skipped == Tally(a).skipped + Tally(b).skipped
    ensures Tally(a + b).failed == Tally(a).failed + Tally(b).failed
    decreases |a|
  {
    if |a| == 0 {
      assert a + b == b;
    } else {
      assert (a + b)[0] == a[0];
      assert (a + b)[1..] == a[1..] + b;
      TallyAppend(a[1..], b);
    }
  }

  /** `download_thumbnail`: the first ten entries, in order, against the directory's files. */
  function DownloadThumbnails(entries: seq<Entry>, files: set<string>, fetch: (string, nat) -> bool): (r: (Pass, Counts))
    ensures |r.0.outcomes| == |Prefix(entries, EntryCap)| <= EntryCap
    ensures r.1 == Tally(r.0.outcomes)
    ensures r.1.downloaded + r.1.skipped + r.1.failed <= |Prefix(entries, EntryCap)|
  {
    var p := ProcessAll(Prefix(entries, EntryCap), files, fetch);
    (p, Tally(p.outcomes))
  }

  /** Entries after the tenth are never looked at. */
  lemma LaterEntriesIgnored(entries: seq<Entry>, more: seq<Entry>, files: set<string>, fetch: (string, nat) -> bool)
    requires |entries| >= EntryCap
    ensures DownloadThumbnails(entries + more, files, fetch) == DownloadThumbnails(entries, files, fetch)
  {
    assert Prefix(entries + more, EntryCap) == Prefix(entries, EntryCap);
  }
}

=== FILE: token.dfy ===
/**
 The monthly Threads token refresh (token_manager.py): the required-setting check, the
 token exchange reply, the `.env` rewrite, the service restart, and the order of the
 refresh steps, which stops at the first step that fails.

 The network (token checks and the exchange), the clock, the backup copy, the file read
 and write, and `systemctl` are parameters: each step's result is given as an input.
 */
module TokenManager {
  import opened Wrappers
  import opened Text
  import opened Values
  import opened Settings
  import opened EnvFile

  // ---------------------------------------------------------------- the settings

  /** The settings `validate_config` requires, in the order it checks them. */
  const TokenSettings: seq<string> := [
    "THREADS_APP_SECRET", "THREADS_ACCESS_TOKEN", "THREADS_USER_ID", "THREADS_APP_ID"
  ]

  /** `validate_config`: `True` exactly when none of the four settings is missing. */
  function ValidateConfig(env: Env): (ok: bool)
    ensures ok <==> forall k :: 0 <= k < |TokenSettings| ==> !IsMissing(env, TokenSettings[k])
    ensures ok <==> MissingNames(env, TokenSettings) == []
  {
    MissingNamesEmpty(env, TokenSettings);
    MissingNames(env, TokenSettings) == []
  }

  /** The list the error log shows when the check fails: the missing names joined by ", ". */
  function MissingReport(env: Env): string {
    Join(MissingNames(env, TokenSettings), ", ")
  }

  /** The logged list names exactly the missing settings, in checking order: split on
      commas and without the spaces, it gives them back. */
  lemma MissingReportNamesMissing(env: Env)
    requires !ValidateConfig(env)
    ensures Unspaced(Split(MissingReport(env), ',')) == MissingNames(env, TokenSettings)
  {
    var missing := MissingNames(env, TokenSettings);
    forall k | 0 <= k < |missing| ensures ',' !in missing[k] && (|missing[k]| == 0 || missing[k][0] != ' ') {
      assert missing[k] in TokenSettings;
      TokenSettingsPlain();
    }
    MissingReportRoundTrip(missing);
  }

  /** No token setting holds a comma or starts with a space. */
  lemma TokenSettingsPlain()
    ensures forall k :: 0 <= k < |TokenSettings| ==>
      ',' !in TokenSettings[k] && TokenSettings[k][0] != ' '
  {
  }

  // ---------------------------------------------------------------- the exchange

  /** The lifetime assumed when the reply gives none: 60 days in seconds. */
  const DefaultExpiresIn := 5184000
  const SecondsPerDay := 86400

  /** The exchange endpoint's reply: its status, and the two fields read from its body
      (`None` where the key is absent). */
  datatype ExchangeReply = ExchangeReply(status: int, accessToken: Option<string>, expiresIn: Option<Value>)

  /** What `exchange_for_long_lived_token` returns: the new token and its expiry time (in
      seconds on the clock's scale), both `None` on failure. */
  datatype Exchanged = Exchanged(token: Option<string>, expiry: Option<int>)

  /** The lifetime in seconds: `data.get('expires_in', 5184000)`, which must survive
      `int(expires_in)` and `expires_in // 86400`. An int, or a bool (which Python counts as
      0 or 1), is the lifetime; `None`, a string, a list or a map makes one of the two raise,
      and the result is `None`. */
  function ExpiresIn(reply: ExchangeReply): (seconds: Option<int>)
    ensures reply.expiresIn.None? ==> seconds == Some(DefaultExpiresIn)
    ensures seconds.Some? <==> reply.expiresIn.None? || reply.expiresIn.value.VInt? || reply.expiresIn.value.VBool?
    ensures reply.expiresIn.Some? && reply.expiresIn.value.VInt? ==> seconds == Some(reply.expiresIn.value.i)
    ensures reply.expiresIn.Some? && reply.expiresIn.value.VBool? ==> seconds == Some(if reply.expiresIn.value.b then 1 else 0)
  {
    match reply.expiresIn
    case None => Some(DefaultExpiresIn)
    case Some(VInt(i)) => Some(i)
    case Some(VBool(b)) => Some(if b then 1 else 0)
    case Some(_) => None
  }

  /** The seconds a `datetime` can hold, counted from 0001-01-01 00:00:00: 3652059 days, up
      to the end of 9999-12-31. Leaving the range raises `OverflowError`. */
  const DatetimeSeconds := 3652059 * SecondsPerDay

  predicate InDatetimeRange(t: int) {
    0 <= t < DatetimeSeconds
  }

  /** The lifetime in days the log shows: `expires_in // 86400`. Python's `//` rounds
      toward minus infinity; for a positive divisor Dafny's `/` does the same. */
  function LifetimeDays(seconds: int): (days: int)
    ensures days * SecondsPerDay <= seconds < (days + 1) * SecondsPerDay
  {
    seconds / SecondsPerDay
  }

  /** Without `expires_in` the token is taken to last 60 days. */
  lemma DefaultIsSixtyDays(reply: ExchangeReply)
    requires reply.expiresIn.None?
    ensures LifetimeDays(ExpiresIn(reply).value) == 60
  {
  }

  /** `exchange_for_long_lived_token`. `reply` is `None` when the request raised; `now` is
      the clock in seconds from 0001-01-01. Any status but 200 gives `(None, None)`, and so
      does a lifetime that raises or an expiry `datetime` cannot hold; otherwise the reply's
      token (which may be absent) and the expiry `now + expires_in`. */
  function Exchange(reply: Option<ExchangeReply>, now: int): (r: Exchanged)
    ensures r.expiry.Some? <==>
      && reply.Some? && reply.value.status == 200
      && ExpiresIn(reply.value).Some? && InDatetimeRange(now + ExpiresIn(reply.value).value)
    ensures r.token.Some? ==> r.expiry.Some? && r.token == reply.value.accessToken
    ensures r.expiry.Some? ==> r.token == reply.value.accessToken && r.expiry.value - now == ExpiresIn(reply.value).value
  {
    match reply
    case None => Exchanged(None, None)
    case Some(rep) =>
      if rep.status != 200 then Exchanged(None, None)
      else match ExpiresIn(rep)
        case None => Exchanged(None, None)
        case Some(n) => if InDatetimeRange(now + n) then Exchanged(rep.accessToken, Some(now + n)) else Exchanged(None, None)
  }

  // ---------------------------------------------------------------- the rewrite

  /** `update_env_file`: the text written to `.env`, or `None` when reading (`content` is
      `None`) or writing (`writeOk` false) failed or one of the two `re.sub` calls raised on
      its template. `stamp` is the formatted clock. A template whose backslash escapes are
      expanded is written as if copied verbatim: the model does not follow the expansion. */
  function UpdateEnvFile(content: Option<string>, token: string, stamp: string, writeOk: bool): (r: Option<string>)
    ensures r.None? <==> content.None? || !writeOk || RewriteRaises(content.value, token, stamp)
    ensures content.Some? && writeOk && Verbatim(content.value, token, stamp) ==> r == Some(UpdateEnv(content.value, token, stamp))
    ensures r.Some? && WellFormed(content.value, token, stamp) ==> Contains(r.value, TokenMarker + token)
    ensures r.Some? && WellFormed(content.value, token, stamp) ==>
      UpdateEnv(r.value, token, stamp) == r.value
  {
    match content
    case None => None
    case Some(text) =>
      VerbatimDoesNotRaise(text, token, stamp);
      if !writeOk || RewriteRaises(text, token, stamp) then None
      else
        var updated := UpdateEnv(text, token, stamp);
        if WellFormed(text, token, stamp) then
          UpdateEnvKeepsToken(text, token, stamp);
          UpdateEnvIdempotent(text, token, stamp);
          Some(updated)
        else Some(updated)
  }

  /** A token with an unknown letter escape, such as `ab\qc`, makes `re.sub` raise once a
      line holds the token marker, so nothing is written. */
  lemma BadEscapeNotWritten(content: string, stamp: string, writeOk: bool)
    requires Contains(content, TokenMarker)
    ensures UpdateEnvFile(Some(content), "ab\\qc", stamp, writeOk) == None
  {
    VerbatimDoesNotRaise(content, "ab\\qc", stamp);
    assert "ab\\qc"[1..] == "b\\qc" && "b\\qc"[1..] == "\\qc";
    assert TemplateRaises("\\qc");
  }

  /** A backslash before a character that is not an ASCII letter is kept, so a token such
      as `a\-b` is written when reading and writing succeed and the stamp is plain. */
  lemma KeptEscapeWritten(content: string, stamp: string)
    requires '\\' !in stamp
    ensures UpdateEnvFile(Some(content), "a\\-b", stamp, true).Some?
  {
    VerbatimDoesNotRaise(content, "a\\-b", stamp);
    PlainPrefix(StampMarker, stamp);
    PlainPrefix(stamp, []);
    assert stamp + [] == stamp;
    assert "a\\-b"[1..] == "\\-b" && "\\-b"[2..] == "b";
    assert !TemplateRaises("b") by { assert "b"[1..] == []; }
    assert !TemplateRaises("\\-b");
  }

  // ---------------------------------------------------------------- the restart

  /** `restart_service`. `restartCode` is the exit code of `systemctl restart` and
      `status` the output of `systemctl is-active`; `None` stands for a call that raised
      (or, for `status`, was never made). */
  function RestartService(restartCode: Option<int>, status: Option<string>): (ok: bool)
    ensures ok ==> restartCode == Some(0) && status.Some?
    ensures restartCode != Some(0) ==> !ok
    ensures restartCode == Some(0) && status.Some? ==> (ok <==> Strip(status.value) == "active")
  {
    match restartCode
    case Some(code) =>
      code == 0 && status.Some? && Strip(status.value) == "active"
    case None => false
  }

  /** `systemctl is-active` ends its answer with a newline; the strip accepts it, and
      any other trailing whitespace. */
  lemma RestartAcceptsTrailingSpace(spaces: string)
    requires forall i :: 0 <= i < |spaces| ==> IsSpace(spaces[i])
    ensures RestartService(Some(0), Some("active" + spaces))
  {
    assert "active"[0] == 'a' && "active"[5] == 'e';
    StripTrailing("active", spaces);
  }

  /** Stripping a text that starts and ends with non-space characters, followed by spaces,
      gives the text back. */
  lemma StripTrailing(s: string, spaces: string)
    requires s != "" && !IsSpace(s[0]) && !IsSpace(s[|s| - 1])
    requires forall i :: 0 <= i < |spaces| ==> IsSpace(spaces[i])
    ensures Strip(s + spaces) == s
  {
    var t := s + spaces;
    var r := Strip(t);
    assert t[0] == s[0] && t[|s| - 1] == s[|s| - 1];
    assert r == t[..|s|];
  }

  // ---------------------------------------------------------------- the refresh

  /** The steps of `run_token_refresh`, in the order they run. */
  datatype Step = Validate | CheckCurrent | Backup | ExchangeToken | CheckNew | Rewrite | Restart

  const Pipeline: seq<Step> := [Validate, CheckCurrent, Backup, ExchangeToken, CheckNew, Rewrite, Restart]

  /** Why a refresh stopped. */
  datatype Failure = MissingSettings | BackupFailed | NoNewToken | NewTokenInvalid | RewriteFailed | RestartFailed

  /** How a refresh ended: `True` with the new token's expiry, or `False` and why. */
  datatype Outcome = Failed(why: Failure) | Refreshed(expiry: int)

  /** The step at which each failure stops the run. */
  function FailingStep(f: Failure): Step {
    match f
    case MissingSettings => Validate
    case BackupFailed => Backup
    case NoNewToken => ExchangeToken
    case NewTokenInvalid => CheckNew
    case RewriteFailed => Rewrite
    case RestartFailed => Restart
  }

  /** What each step finds, as the outside world answers it. `currentValid` and `newValid`
      are the two answers of `check_token_validity`; `backup` is the backup file's path;
      `content` the `.env` text read (`None` when reading fails); `now` and `stamp` the
      clock as a number and as the formatted stamp. */
  datatype World = World(
    env: Env, currentValid: bool, backup: Option<string>, reply: Option<ExchangeReply>,
    now: int, newValid: bool, content: Option<string>, stamp: string, writeOk: bool,
    restartCode: Option<int>, status: Option<string>)

  /** A run: how many steps of the pipeline it ran; whether it warned about the current
      token; the text written to `.env`, if any; and its outcome. */
  datatype Refresh = Refresh(ran: nat, warned: bool, written: Option<string>, outcome: Outcome) {

    /** The steps the run went through, in order. */
    function Steps(): seq<Step> {
      if ran <= |Pipeline| then Pipeline[..ran] else Pipeline
    }
  }

  /** `backup_env_file` succeeded: `if not backup_file` fails on `None` and on "". */
  predicate BackedUp(backup: Option<string>) {
    backup.Some? && backup.value != ""
  }

  /** The new token when the exchange produced a usable one: `if not new_token` fails on
      `None` and on "". */
  function NewToken(w: World): Option<string> {
    var e := Exchange(w.reply, w.now);
    if e.token.Some? && e.token.value != "" then e.token else None
  }

  /** `run_token_refresh`. */
  function RunRefresh(w: World): (r: Refresh)
    ensures 1 <= r.ran <= |Pipeline|
    ensures r.outcome.Failed? ==> Pipeline[r.ran - 1] == FailingStep(r.outcome.why)
    ensures r.outcome.Refreshed? <==>
      && ValidateConfig(w.env) && BackedUp(w.backup) && NewToken(w).Some? && w.newValid
      && w.content.Some? && w.writeOk && !RewriteRaises(w.content.value, NewToken(w).value, w.stamp)
      && RestartService(w.restartCode, w.status)
  {
    if !ValidateConfig(w.env) then Refresh(1, false, None, Failed(MissingSettings))
    else
      var warned := !w.currentValid;
      if !BackedUp(w.backup) then Refresh(3, warned, None, Failed(BackupFailed))
      else match NewToken(w)
        case None => Refresh(4, warned, None, Failed(NoNewToken))
        case Some(token) =>
          if !w.newValid then Refresh(5, warned, None, Failed(NewTokenInvalid))
          else match UpdateEnvFile(w.content, token, w.stamp, w.writeOk)
            case None => Refresh(6, warned, None, Failed(RewriteFailed))
            case Some(text) =>
              if !RestartService(w.restartCode, w.status) then
                Refresh(7, warned, Some(text), Failed(RestartFailed))
              else
                Refresh(7, warned, Some(text), Refreshed(Exchange(w.reply, w.now).expiry.value))
  }

  /** Which steps a run of `n` steps has reached. */
  lemma PipelineReached(n: nat)
    requires n <= |Pipeline|
    ensures Rewrite in Pipeline[..n] <==> n >= 6
    ensures Restart in Pipeline[..n] <==> n == 7
  {
    assert Pipeline[5] == Rewrite && Pipeline[6] == Restart;
    forall k | 0 <= k < 5 ensures Pipeline[k] != Rewrite && Pipeline[k] != Restart { }
    if n < 6 {
      assert forall k :: 0 <= k < n ==> Pipeline[..n][k] == Pipeline[k];
    } else if n == 6 {
      assert Pipeline[..n][5] == Rewrite;
      assert forall k :: 0 <= k < n ==> Pipeline[..n][k] == Pipeline[k];
    } else {
      assert Pipeline[..n][5] == Rewrite && Pipeline[..n][6] == Restart;
    }
  }

  /** `.env` is written only once a backup exists and the new token has passed its check,
      and then with the rewrite of the text read; it is written exactly when the rewrite
      step is reached, the read and the write succeed and neither `re.sub` raises. */
  lemma RewriteAfterBackupAndCheck(w: World)
    ensures var r := RunRefresh(w);
      r.written.Some? <==>
        && Rewrite in r.Steps() && NewToken(w).Some? && w.content.Some? && w.writeOk
        && !RewriteRaises(w.content.value, NewToken(w).value, w.stamp)
    ensures var r := RunRefresh(w);
      r.written.Some? ==>
        && BackedUp(w.backup) && NewToken(w).Some? && w.newValid
        && r.written == UpdateEnvFile(w.content, NewToken(w).value, w.stamp, w.writeOk)
  {
    PipelineReached(RunRefresh(w).ran);
  }

  /** The service is restarted only after `.env` has been rewritten. */
  lemma RestartAfterRewrite(w: World)
    ensures Restart in RunRefresh(w).Steps() ==> RunRefresh(w).written.Some?
  {
    PipelineReached(RunRefresh(w).ran);
  }

  /** An invalid current token is only a warning: whatever the first check answers, the
      run takes the same steps, writes the same text and ends the same way. */
  lemma CurrentTokenOnlyWarns(w: World)
    ensures var (a, b) := (RunRefresh(w.(currentValid := true)), RunRefresh(w.(currentValid := false)));
      a.ran == b.ran && a.written == b.written && a.outcome == b.outcome
  {
  }

  /** The warning is given exactly when the current token's check ran and failed. */
  lemma WarnsOnInvalidCurrent(w: World)
    ensures RunRefresh(w).warned <==> RunRefresh(w).ran > 1 && !w.currentValid
  {
  }

  /** A successful refresh reports the exchange's expiry and leaves `.env` holding the new
      token, in a form a second rewrite with the same token and stamp would not change. */
  lemma RefreshWritesToken(w: World)
    requires RunRefresh(w).outcome.Refreshed?
    requires WellFormed(w.content.value, NewToken(w).value, w.stamp)
    ensures RunRefresh(w).outcome.expiry - w.now == ExpiresIn(w.reply.value).value
    ensures RunRefresh(w).written.Some?
    ensures Contains(RunRefresh(w).written.value, TokenMarker + NewToken(w).value)
    ensures UpdateEnv(RunRefresh(w).written.value, NewToken(w).value, w.stamp) == RunRefresh(w).written.value
  {
  }
}

=== FILE: values.dfy ===
/**
 Field values of the listing table as the scripts see them after JSON decoding,
 and records with an id and a field map.
 */
module Values {

  /** A decoded JSON value. Floating-point numbers are not modelled. */
  datatype Value =
    | VNone
    | VBool(b: bool)
    | VInt(i: int)
    | VStr(s: string)
    | VList(items: seq<Value>)
    | VDict(entries: map<string, Value>)

  /** Python truthiness (`if v:`). */
  predicate Truthy(v: Value) {
    match v
    case VNone => false
    case VBool(b) => b
    case VInt(i) => i != 0
    case VStr(s) => |s| > 0
    case VList(items) => |items| > 0
    case VDict(entries) => |entries| > 0
  }

  /** One row of the table: `record['id']` and `record['fields']`. */
  datatype Record = Record(id: Value, fields: map<string, Value>)

  /** `fields.get(key)`: the stored value, or `None` when the key is absent. */
  function Get(fields: map<string, Value>, key: string): (v: Value)
    ensures key !in fields ==> v == VNone
    ensures key in fields ==> v == fields[key]
  {
    if key in fields then fields[key] else VNone
  }

  /** `{k: fields.get(k) for k in keys}`: a map over exactly the given keys. */
  function Project(fields: map<string, Value>, keys: seq<string>): (m: map<string, Value>)
    ensures m.Keys == set k | k in keys
    ensures forall k :: k in m ==> m[k] == Get(fields, k)
  {
    map k | k in keys :: Get(fields, k)
  }
}

=== FILE: wrappers.dfy ===
/** Optional values, used wherever the scripts return or accept `None`. */
module Wrappers {

  datatype Option<+T> = None | Some(value: T) {

    /** The value when present, otherwise `default` (Python's `x or default` on optionals). */
    function GetOr(default: T): T {
      match this
      case Some(v) => v
      case None => default
    }
  }
}
